=== FILE: README.md ===
# CAFS solar PV roof assessment — a Dafny model of its computational core

The CAFS plugin ranks roof planes by their expected yearly solar-PV output.
It drives a GIS engine through many geoprocessing steps. A handful of
deterministic routines run in the plugin itself. This project models those
routines and proves properties of them:

- **Calendar and daily shading** (`Calendar`, `DailyShading`): the
  Gregorian day of year, the steps of a day, local time to decimal UT day
  with the wrap to 31 December of the previous year, and decimal day to
  hours/minutes/seconds. Also the sun-up filter, the running totals of
  shadow grids and their means. In wide-area mode, the clip of the zoomed
  coarse grid to the local window and the elementwise product.
- **Extent and constants** (`SolarConstants`): the integer bounding box of
  a layer, the debug switch and the numeric defaults.
- **Grid pre-processing** (`DsmPreprocess`, `ShadowGenerator`, `Sebe`):
  nodata to zero, the shift by the minimum (and which caller sees which
  grid), scale, corner and sizes from the geotransform, and the assembly of
  the shading call. Also the meteorological-table checks of the SEBE
  reader.
- **Wall aspect** (`WallAspect`): the odd kernel size, the line and marker
  kernels, the 180-step rotation with a per-pixel running maximum and side
  flag, the post-processing into compass degrees, and the in-place
  binarisation of the walls grid.
- **Weather conversion** (`Metdata`): the EPW to 24-column UMEP table
  conversion and the output-path guard.
- **Classification** (`Reclassify`, `RoofClasses`, `Seasonal`): the
  engine's reclassify-by-table as configured (range mode 0, unmatched
  values kept). It runs the height, aspect and slope tables and the four
  per-date shadow thresholds. Also the four-date schedule and the product
  of the four binary grids.
- **Roof results** (`RoofEnergy`, `SortResults`, `WebMap`, with
  `Features` and `Csv`): quadrant aspect, true area, the suitability test,
  panels and output, consecutive ids, the running total, CSV lines, the
  stable descending sort with renumbering, two-significant-digit rounding
  and the web attribute projection.

Collaborators the plugin only calls are function-typed parameters. Each
comes with a predicate stating the range the model relies on. They are the
sun position, the shadow caster, scipy `zoom` and `rotate`, `get_ders`,
`atan`/`cos`/`sin`, the CRS transforms and geometry reprojection.
Arithmetic is on exact reals. Python `int()` is truncation toward zero
(`Common.Trunc`). Python `round` is round-half-to-even
(`Common.RoundHalfEven`). Python and numpy slicing clamp their bounds
(`Common.PySlice`). Exceptions are `Result` errors named after the Python
exception. An exception caught by a processing algorithm becomes
`Processing(cause)`. A numpy mean over zero sun-up steps is an all-NaN grid
(`Mean.AllNaN`).

The quirks of the code are reproduced, not repaired:

- the walls grid is binarised in place and handed on;
- in wide-area mode the local-only total receives each sun-up grid twice;
- once a step wraps to 31 December of the previous year, every later step
  of that day stays there;
- due north is 360 degrees, not 0;
- the shading code receives the nodata-zeroed but unshifted grid;
- September reuses March's threshold table;
- a missing output path raises `NameError`, because `SolarException` is
  not imported in the metdata module.

A few behaviours of the code are worth stating plainly, since the model
keeps them:

- **Thresholds.** The four dates are binarised at March 0.5, June 0.6,
  September 0.5 and December 0.4 (shadow_calculator_algorithm_wide.py:316-353).
- **In-place writes.** The wall filter binarises the walls grid it was
  handed (WallworkerModified.py:44, 53, 81). The shading pre-processor
  zeroes nodata cells in the grid its caller passed in, then rebinds its
  own name to the shifted copy (shadow_generator_modified.py:156-160). The
  SEBE pre-processor zeroes nodata cells in the array it has just read,
  which `dSM` and `self.dsm` both name, before rebinding `self.dsm` to the
  shifted copy (sebe_modified.py:104-112).
- **Roof loop errors.** Any exception inside the roof loop aborts the whole
  run as a processing error (roof_energy_calculator_algorithm.py:192-322).
- **Wall aspect range.** Resolved wall pixels end in (0,360); a wall pixel
  left at 0 gets the raw terrain aspect in degrees, and non-wall pixels
  stay 0 (WallworkerModified.py:120-125).

## Model

| member | source | states |
|---|---|---|
| SolarConstants.IsDebug | SolarConstants.py:25-26 | The debug switch is off, so every branch that calls it is dead |
| SolarConstants.MakeExtent | SolarConstants.py:145-155 | Each of the four integer bounds is the host's bound truncated: within one unit of it and no further from zero; width and height are differences of the truncated bounds |
| SolarConstants.ExtentSizeNonNegative | SolarConstants.py:150-155 | A layer whose minimum does not exceed its maximum on each axis gets a non-negative width and height |
| SolarConstants.ExtentExactOnIntegralBounds | SolarConstants.py:150-155 | For whole-number layer bounds the width and height equal the exact extent of the layer |
| Calendar.DayOfYearClosedForm | dailyshading_modified.py:198-217 | day_of_year is the common-year start of the month, plus one from March on in a Gregorian leap year (divisible by 4, centuries only by 400), plus the day |
| Calendar.DayOfYearRange | dailyshading_modified.py:198-217 | A valid date has day of year between 1 and 365, or 366 in a leap year |
| Calendar.DayOfYearContinuous | dailyshading_modified.py:210-215 | The first day of a month is one more than the last day of the month before |
| Calendar.LastDayOfYear | dailyshading_modified.py:198-217 | 31 December is day 366 in a leap year and 365 otherwise |
| Calendar.StepsPerDay | dailyshading_modified.py:78-81 | A one-off run has one step; otherwise the number of whole intervals that fit in 1440 minutes; a zero interval is a ZeroDivisionError |
| Calendar.StepsBracket | dailyshading_modified.py:81 | Truncating the real quotient 1440/interval gives the integer quotient, so the steps fit in a day and one more would not |
| Calendar.StepClock | dailyshading_modified.py:180-184 | Hours times 60 plus minutes is the minutes elapsed at the step, and the minute lies in [0, 60) |
| Calendar.CreateTimeParameters | dailyshading_modified.py:179-196 | The UT day is doy - 1 + (hour - dst)/24 + minute/1440 when non-negative; otherwise the date becomes 31 December of the previous year and that year's day count minus one is added, which makes it non-negative whenever the raw value is at least -364 |
| Calendar.HourMinuteNonNegative | dailyshading_modified.py:180-187 | With a non-negative interval, or a non-negative fixed clock, the hour and minute are non-negative |
| Calendar.UtNonNegative | dailyshading_modified.py:188-196 | For a valid date every returned UT day is non-negative |
| Calendar.NoWrapOnDec31 | dailyshading_modified.py:188-194 | A step on 31 December never wraps to the previous year |
| Calendar.ScheduleSticky | dailyshading_modified.py:91-92 | Feeding each step's date into the next, every step is on the requested date or on 31 December of the previous year, and once one step wraps all later ones stay on 31 December |
| Calendar.StaysOnDec31 | dailyshading_modified.py:91-92 | A day that starts on 31 December stays on it and never wraps |
| Calendar.DectimeToTimevec | dailyshading_modified.py:220-234 | Hours, minutes and seconds are in range and are the base-60 digits of the whole seconds elapsed in the fractional day |
| Calendar.DectimeDigits | dailyshading_modified.py:225-232 | The successive int() digits of the day fraction recompose the whole seconds since midnight |
| DailyShading.StepTimes | dailyshading_modified.py:91-92 | One time record per step; each step is computed from the date the previous step returned |
| DailyShading.Clip | dailyshading_modified.py:143 | An in-range numpy window is the sub-grid of that height and width, read at the window's offset |
| DailyShading.ClipBounded | dailyshading_modified.py:143 | Clipping keeps every bound of the grid |
| DailyShading.ClipIsLocalWindow | dailyshading_modified.py:134-143 | The clipped wide grid has the local extent's height and width, and its cell (i, j) is the zoomed cell at (wide.ymax - local.ymax + i, local.xmin - wide.xmin + j) |
| DailyShading.LocalStep | dailyshading_modified.py:106-113 | Without a wide area, a sun-up step adds the step's local shadow grid to both totals, counts one caster call and records the step; it fails only when the local grid does not match the extent |
| DailyShading.WideGrids | dailyshading_modified.py:114-147 | The coarse shadow is cast at the wide scale, zoomed and clipped to the local window; the window has the local shadow's shape and every grid stays in [0, 1]; failures are shape mismatches or zero divisions only |
| DailyShading.WideStep | dailyshading_modified.py:114-154 | A wide-area step keeps the accumulator invariant and adds the local shadow to the local-only total twice |
| DailyShading.WideStepAdds | dailyshading_modified.py:114-154 | A successful wide-area step adds the local shadow times the clipped wide-area factor to the combined total and the coarse shadow to the wide total, counts one call and records the step |
| DailyShading.Step | dailyshading_modified.py:106-156 | A step with the sun at or below the horizon leaves the totals untouched; a sun-up step keeps the invariant that the calls are the sun-up steps so far and the totals are bounded by their count |
| DailyShading.QuietStep | dailyshading_modified.py:106 | A sun-down step adds no grid to any of the sums |
| DailyShading.RisenStep | dailyshading_modified.py:106-154 | A sun-up step appends its local, coarse and combined grids to the sums |
| DailyShading.LocalSums | dailyshading_modified.py:106-156 | Without a wide area, the totals after a sun-up step are the sums of the local shadow grids of the sun-up steps so far |
| DailyShading.WideSums | dailyshading_modified.py:114-154 | With a wide area, the totals after a sun-up step are the sums of the combined grids, of the local grids twice and of the coarse grids of the sun-up steps so far |
| DailyShading.StepSums | dailyshading_modified.py:106-156 | Every successful step keeps the totals equal to the sums over the sun-up steps so far |
| DailyShading.Loop | dailyshading_modified.py:91-156 | After the loop the invariant holds for all steps; a local-only run whose grid matches the extent never fails |
| DailyShading.LoopSums | dailyshading_modified.py:91-156 | After a successful loop the count is the number of sun-up steps and each total is the sum of that total's grids over the sun-up steps of the day |
| DailyShading.MeanOf | dailyshading_modified.py:158-161 | The mean is all-NaN exactly when no sun-up step was counted |
| DailyShading.Finish | dailyshading_modified.py:158-162 | The three means are the totals over the count; both local means are NaN exactly when the caster was never called; without a wide area the local mean equals the final one and there is no wide mean |
| DailyShading.FinishBounded | dailyshading_modified.py:158-161 | The final mean lies in [0, 1] with the local extent's shape; in wide mode the local-only mean lies in [0, 2] and the wide mean in [0, 1] |
| DailyShading.MeanInRange | dailyshading_modified.py:158-161 | A total bounded by c times the count averages to a grid bounded by c |
| DailyShading.RunDay | dailyshading_modified.py:70-164 | A local-only day over a matching grid always succeeds; the number of caster calls is the number of sun-up steps, and each mean is the sum of its grids over the sun-up steps divided by that number |
| DailyShading.Run | dailyshading_modified.py:40-164 | A negative extent size fails; otherwise the day runs over the step schedule |
| DailyShading.RunOutcome | dailyshading_modified.py:91-161 | The caster is called exactly at the sun-up steps of the day's schedule; each mean is its grids' sum over those steps divided by their number, NaN exactly when there were none; the final mean fits the local extent and lies in [0, 1] |
| DailyShading.RunIsMeans | dailyshading_modified.py:158-161 | A successful run's combined, local-only and wide means are the sums of the sun-up steps' combined, local and coarse grids divided by the number of those steps |
| DailyShading.WideDoublesLocalMean | dailyshading_modified.py:112-154 | With the wide area on, the caster calls are the same and the local-only mean is exactly twice the one computed without it |
| DailyShading.LocalShadowsIgnoreWide | dailyshading_modified.py:106-112 | The local shadow grids of the sun-up steps do not depend on the wide area |
| DailyShading.LoopsAlike | dailyshading_modified.py:91-156 | Where the loop succeeds with the wide area it also succeeds without it, with the same call list |
| DsmPreprocess.ZeroNodata | shadow_generator_modified.py:157-158 | Every nodata cell becomes 0 and every other cell is unchanged |
| DsmPreprocess.ZeroNodataIdempotent | shadow_generator_modified.py:157-158 | Zeroing nodata twice is the same as once |
| DsmPreprocess.ShiftByMin | shadow_generator_modified.py:159-160 | An empty grid fails; otherwise every cell of the result is non-negative, a grid with minimum at least 0 is unchanged, and a negative minimum is added back so that the new minimum is exactly 0 |
| DsmPreprocess.Scale | shadow_generator_modified.py:176-177 | The scale times the pixel width is 1; a zero pixel width is a ZeroDivisionError |
| DsmPreprocess.CornerIsLowerLeft | shadow_generator_modified.py:169-173 | For a north-up transform the reference corner is the top edge minus the raster height in pixels, so it lies at or below the top |
| ShadowGenerator.CalculateScaleParameters | shadow_generator_modified.py:156-178 | Succeeds exactly for a non-empty grid with non-zero pixel width; the grid handed back is nodata-zeroed but not shifted; sizex is the column count and sizey the row count; the lon/lat is of the lower-left corner |
| ShadowGenerator.WideArg | shadow_generator_modified.py:119-135 | The wide grid is read only when the switch is on, then pre-processed like the local one with the wide extent attached |
| ShadowGenerator.AssembleArgs | shadow_generator_modified.py:106-153 | The shading call receives the nodata-zeroed unshifted DSM, the scale and corner of its transform, tv = [year, month, day, hour, minu, sec], and the extents and clock settings unchanged |
| ShadowGenerator.CalculateShadowRaster | shadow_generator_modified.py:49-154 | A pre-processing failure is the result's error and a negative local extent fails; without the wide area a DSM of the local extent's shape with a schedule of known length always succeeds; a success called the caster at exactly the sun-up steps of the requested day, its means are the sums of those steps' grids over their number, NaN exactly when there were none, otherwise of the local shape and in [0, 1]; without the wide area the local-only mean is the combined one |
| Sebe.BadKdownRows | sebe_modified.py:87-90 | The 1-based numbers, in increasing order, of exactly the rows whose Kdown is below 0 or above 1300 |
| Sebe.ReadMeteorologicalData | sebe_modified.py:78-94 | A table is accepted exactly when it is rectangular, has at least two rows and 24 columns, and every Kdown lies in [0, 1300]; a Kdown error names every offending row; a column error arises only for a count other than 24 |
| Sebe.KdownBoundsInclusive | sebe_modified.py:87 | Kdown values of exactly 0 and 1300 are accepted |
| Sebe.CalculateSebeParameters | sebe_modified.py:97-193 | The returned DSM is the nodata-zeroed grid, not the shifted one; sizex is the row count and sizey the column count; the scale is the reciprocal of the voxel height; slope, aspect and the median altitude come from the shifted grid |
| Sebe.MedianOfNonNegative | sebe_modified.py:183 | The median of a non-empty non-negative grid exists and is non-negative |
| Sebe.AltitudeFallbackUnreachable | sebe_modified.py:183-185 | The site altitude is never negative, so the fallback to 3 never fires |
| Metdata.Blank | metdata_processor_modified.py:106 | An n by 24 table of -999 |
| Metdata.DayNumberIsDayOfYear | metdata_processor_modified.py:121-137 | For a whole month number the conversion's day count agrees with day_of_year of the shading code |
| Metdata.YearHourColumns | metdata_processor_modified.py:106-115 | After the year and hour assignments those two columns hold their final values and all others -999 |
| Metdata.DayColumn | metdata_processor_modified.py:117-141 | After the day-of-year assignments the first three columns hold their final values |
| Metdata.Days | metdata_processor_modified.py:117-137 | Each row's day number uses the year read back from the table by int() |
| Metdata.MidnightShift | metdata_processor_modified.py:139-140 | Exactly the rows whose hour became 0 are moved one day on |
| Metdata.DateColumns | metdata_processor_modified.py:143-144 | After the minute assignment the four date columns hold their final values |
| Metdata.YearsReadBack | metdata_processor_modified.py:109-122 | The year column reads back as 1985 on every row but the last, which is 1986 |
| Metdata.FirstVariables | metdata_processor_modified.py:147-151 | Temperature, humidity, pressure (kPa), longwave and Kdown are copied into their columns, nothing else changes |
| Metdata.LastVariables | metdata_processor_modified.py:152-157 | Direct and diffuse shortwave, wind and rain are copied, rain of exactly 999 becomes 0, nothing else changes |
| Metdata.Epw2Umep | metdata_processor_modified.py:105-159 | Succeeds exactly for a non-empty table with at least 34 columns; the result has the same rows and 24 columns, cell by cell as the column map prescribes |
| Metdata.CellsFollowColumnMap | metdata_processor_modified.py:147-156 | Each mapped output column is its EPW column, and every unassigned column stays -999 |
| Metdata.DayOfYearColumn | metdata_processor_modified.py:117-141 | Outside the last row the day of year is the common-year start of the month plus the day, plus one on rows whose hour became 0 |
| Metdata.KdownFeedsReader | metdata_processor_modified.py:151 | Output column 14, which the SEBE reader range-checks, is EPW column 13, and the width is the 24 columns the reader demands |
| Metdata.PreprocessMetData | metdata_processor_modified.py:162-168 | An empty output path raises NameError for the unimported SolarException before any conversion; otherwise the result is the conversion |
| Reclassify.Reclass | shadow_calculator_algorithm_wide.py:320-323 | The first row with min < x <= max gives the value; a value no row matches is kept |
| Reclassify.ReclassGrid | shadow_calculator_algorithm_wide.py:317-326 | The table is applied to every cell and the shape is kept |
| Reclassify.DisjointAnyMatch | roof_processor_algorithm.py:262 | In a table whose rows do not overlap, any matching row gives the value |
| Reclassify.ShadowTableCases | shadow_calculator_algorithm_wide.py:320 | With threshold t in (0, 1), (0, t] becomes 0, (t, 1] becomes 1, and anything else (0 included) is kept |
| Reclassify.ShadowTableBinary | shadow_calculator_algorithm_wide.py:320 | A fraction in [0, 1] becomes 0 or 1, and 1 exactly when it exceeds the threshold |
| RoofClasses.AspectTableIsCompass | roof_processor_algorithm.py:262 | The aspect table computes the quadrant class centred on north, east, south and west, and nodata outside (0, 360] |
| RoofClasses.AspectClassesCover | roof_processor_algorithm.py:262 | Every aspect in (0, 360] gets one class in 1..4, and aspects just east and just west of north share class 1 |
| RoofClasses.AspectOutsideIsNoData | roof_processor_algorithm.py:262 | An aspect at most 0 or above 360 becomes -9999 |
| RoofClasses.AspectTableDisjoint | roof_processor_algorithm.py:262 | No value falls in two rows of the aspect table |
| RoofClasses.SlopeTableIsBand | roof_processor_algorithm.py:278 | Slopes in (0, 20], (20, 40], (40, 60] get classes 1, 2, 3, and others -9999 |
| RoofClasses.HeightMaskCases | roof_processor_algorithm.py:224 | Heights up to 2 m become -9999 and greater heights pass unchanged |
| RoofClasses.AspectClasses | roof_processor_algorithm.py:258-268 | Every cell of the aspect raster gets its compass class |
| RoofClasses.SlopeClasses | roof_processor_algorithm.py:274-284 | Every cell of the slope raster gets its slope band |
| RoofClasses.AboveTwoMetres | roof_processor_algorithm.py:221-230 | Every cell up to 2 m becomes -9999; the rest keep their height |
| RoofClasses.ClassifyRoofs | roof_processor_algorithm.py:185-330 | The classes come from the height-masked rasters, while the sine and cosine grids are of the unmasked aspect converted to radians, except that a nodata aspect cell (a flat cell or the border) stays nodata |
| Seasonal.Request | shadow_calculator_algorithm_wide.py:139-146 | Every date is shaded in 2020 from 00:00:00, UTC 0, hourly, not one-off, with its own summer-time flag and both extents |
| Seasonal.RequestIsHourly | shadow_calculator_algorithm_wide.py:139-146 | Each date is shaded in 24 steps |
| Seasonal.ShadeDate | shadow_calculator_algorithm_wide.py:238-240 | The date's result is the shadow-raster call; its mean is NaN exactly when the sun never rose, and otherwise fits the local extent and lies in [0, 1] |
| Seasonal.Thresholds | shadow_calculator_algorithm_wide.py:317-346 | Each reclassification uses the threshold it sets, or else the one the previous call left in the shared parameters |
| Seasonal.CallsUseDateThresholds | shadow_calculator_algorithm_wide.py:316-346 | The four calls read each date once, March and September at 0.5, June at 0.6 and December at 0.4, whatever the parameters held before |
| Seasonal.Binary | shadow_calculator_algorithm_wide.py:317-326 | A mean grid in [0, 1] becomes a 0/1 grid that is 1 exactly where the mean exceeds the threshold |
| Seasonal.CompositeIsConjunction | shadow_calculator_algorithm_wide.py:350-361 | For 0/1 inputs the product is 0 or 1, and 1 exactly when all four inputs are 1 |
| Seasonal.CompositeBelowEach | shadow_calculator_algorithm_wide.py:350-361 | For inputs in [0, 1] the product lies in [0, 1] and below each of the four inputs |
| Seasonal.DayBinaryCell | shadow_calculator_algorithm_wide.py:317-347 | A date's binary cell is 0 or 1, and 1 exactly when its mean exceeds that date's threshold |
| Seasonal.ShadowBinary | shadow_calculator_algorithm_wide.py:310-361 | The composite is NaN-tainted exactly when some date's mean is, and otherwise has the local shape |
| Seasonal.ShadowBinaryMeaning | shadow_calculator_algorithm_wide.py:310-361 | A composite cell is 0 or 1, and 1 exactly when the cell is lit above threshold on all four dates |
| Seasonal.DayResults | shadow_calculator_algorithm_wide.py:234-305 | The four dates are shaded in order, each fitting the local extent |
| Seasonal.Collect | shadow_calculator_algorithm_wide.py:234-305 | All days succeed or the first failure is the run's error |
| Seasonal.Combine | shadow_calculator_algorithm_wide.py:234-361 | The run succeeds exactly when every date does and keeps each day's result; the composite is NaN exactly when some day had no sun-up step, and otherwise has the local shape |
| Seasonal.FinalsFit | shadow_calculator_algorithm_wide.py:242-299 | When all days succeed their means fit the local extent, and one is NaN exactly when that day's caster was never called |
| Seasonal.SeasonalShadow | shadow_calculator_algorithm_wide.py:234-361 | The step succeeds exactly when all four dates do; a numeric binary has the local extent's shape |
| Seasonal.SeasonalShadowDays | shadow_calculator_algorithm_wide.py:234-305 | A success keeps the four dates' results in date order |
| Seasonal.SeasonalShadowNaN | shadow_calculator_algorithm_wide.py:234-361 | A successful binary is NaN exactly when one of the dates had no sun-up step |
| Seasonal.SeasonalShadowFirstError | shadow_calculator_algorithm_wide.py:234-305 | A failure carries the error of the first date that fails, all earlier dates having succeeded |
| Seasonal.SeasonalShadowCells | shadow_calculator_algorithm_wide.py:310-361 | A cell of the binary is 0 or 1, and 1 exactly when the cell's mean sunlit fraction exceeds each date's threshold on all four dates |
| Seasonal.WideInputsUnread | shadow_calculator_algorithm_wide.py:160-231 | With the wide-area box unticked, the wide raster and wide extent do not affect the result |
| WallAspect.FilterSize | WallworkerModified.py:60-66 | The kernel size is odd, at least 3 and at least the scaled base size, and it is the smallest such size |
| WallAspect.LineKernel | WallworkerModified.py:71-74 | The line kernel is f by f with 1 exactly in column ceil(f/2) - 1 |
| WallAspect.MarkerKernel | WallworkerModified.py:72-76 | The marker kernel is 0 outside its centre row, 1 left of centre, 2 right of centre and 0 at the centre |
| WallAspect.MarkerSides | WallworkerModified.py:75-76 | In the centre row only the centre is 0, and a cell is 1 exactly when its mirror image is 2 |
| WallAspect.Binarize | WallworkerModified.py:81 | Positive wall heights become 1, and cells at most 0 keep their value |
| WallAspect.WindowInside | WallworkerModified.py:104-108 | At every visited pixel the f by f window lies inside the grid |
| WallAspect.Side | WallworkerModified.py:111-114 | The side flag is 1 exactly when the elevations under marker 1 sum to more than those under marker 2, and 2 otherwise |
| WallAspect.TrackDominates | WallworkerModified.py:109-110 | The running maximum is non-negative and at least every score seen |
| WallAspect.TrackFirstMax | WallworkerModified.py:109-116 | Only a strict increase moves the record, so the earliest rotation reaching the positive maximum wins; a pixel never scoring above 0 keeps side 0 and angle 0 |
| WallAspect.RefIsFirstMax | WallworkerModified.py:104-116 | After n rotations a wall pixel records the maximum score, its side flag and compass index 270 - h of the first rotation h reaching it, or nothing when no score was positive |
| WallAspect.FinalRange | WallworkerModified.py:120-125 | A resolved pixel gets a compass degree in (0, 360), except side 1 at index 180 which lands on 0 and gets the raw aspect in degrees, as does an unresolved wall pixel; non-wall pixels stay 0 |
| WallAspect.StopAt | WallworkerModified.py:83-85 | The loop runs up to the first rotation at which cancellation is seen, or all 180 |
| WallAspect.Sweep | WallworkerModified.py:104-116 | One rotation updates every pixel by its own rule and nothing else |
| WallAspect.Rotate | WallworkerModified.py:83-118 | The loop stops at the first cancellation; every pixel then holds the record of the rotations done, and one progress report was made per rotation done |
| WallAspect.PostProcess | WallworkerModified.py:120-125 | Each pixel's direction is computed from its own record, wall flag and terrain aspect |
| WallAspect.ProgressBounded | WallworkerModified.py:118 | int(h * 50 / 180) over the rotations done is non-decreasing and at most 49 |
| WallAspect.ProgressMonotone | WallworkerModified.py:118 | Progress of an earlier rotation is at most that of a later one, and at most 49 |
| WallAspect.ProgressIsTrunc | WallworkerModified.py:118 | For a non-negative rotation index, int() of the true quotient h * 50 / 180 is its floor division |
| WallAspect.ReportsBounded | WallworkerModified.py:118 | The reports made so far never exceed 49 and never go back |
| WallAspect.Run | WallworkerModified.py:49-129 | The walls grid handed back is binarised in place; cancellation stops the rotations but the partial records are still post-processed; the output fits the grid |
| RoofEnergy.InDegrees | roof_energy_calculator_algorithm.py:248 | Multiplying radians by 180/pi converts a multiple of pi into the same multiple of 180 degrees |
| RoofEnergy.AspectDegrees | roof_energy_calculator_algorithm.py:238-248 | A zero cosine mean is a ZeroDivisionError; otherwise the aspect lies in (0, 360], in the quadrant of (C, S) measured clockwise from north, with due north at 360 |
| RoofEnergy.TrueArea | roof_energy_calculator_algorithm.py:250-251 | Projecting the true area back onto the plane by the cosine of the slope gives the plan area; a zero cosine is a ZeroDivisionError |
| RoofEnergy.SuitablePitchedFacesSouth | roof_energy_calculator_algorithm.py:258-259 | A suitable roof steeper than 10 degrees faces between 67.5 and 292.5 degrees and is at most 60 degrees steep |
| RoofEnergy.Panels | roof_energy_calculator_algorithm.py:281-283 | The number of whole 1.75 square-metre panels that fit in the fitted area: they fit, and one more would not |
| RoofEnergy.SuitableHasSixPanels | roof_energy_calculator_algorithm.py:259-283 | Every roof larger than 16 square metres takes at least six panels |
| RoofEnergy.OutputGrows | roof_energy_calculator_algorithm.py:284 | Under positive irradiation each extra panel raises the output, and six or more panels give a positive output |
| RoofEnergy.ToFloat | roof_energy_calculator_algorithm.py:239-240 | Integer and real attributes convert to their value; other values fail |
| RoofEnergy.Assess | roof_energy_calculator_algorithm.py:235-302 | A feature without geometry is skipped; an accepted roof keeps the geometry, passes the area, slope, aspect and shade tests, has its aspect in (0, 360], at least six panels, and is flat exactly when its slope is below 10 |
| RoofEnergy.NumberedPrefixFails | roof_energy_calculator_algorithm.py:228-322 | Once the features seen so far contain a failing one, every longer run fails with that same error |
| RoofEnergy.Numbered | roof_energy_calculator_algorithm.py:291-312 | The written roofs are numbered 1, 2, 3 ... in the order they are reached, and there are no more of them than features |
| RoofEnergy.NumberedAssessed | roof_energy_calculator_algorithm.py:258-312 | When every outcome passed the assessment, every written roof did too |
| RoofEnergy.Roofs | roof_energy_calculator_algorithm.py:228-312 | The written roofs are numbered from 1 and every one passed the assessment |
| RoofEnergy.RoofsPrefix | roof_energy_calculator_algorithm.py:228-231 | The roofs of the first k features are the numbering of the first k outcomes |
| RoofEnergy.Reached | roof_energy_calculator_algorithm.py:229-231 | The loop reaches every feature before the first cancellation, or all of them |
| RoofEnergy.RoofFeature | roof_energy_calculator_algorithm.py:291-302 | The written feature carries one value per output field and the roof's geometry |
| RoofEnergy.RoofLineIsCsvLine | roof_energy_calculator_algorithm.py:308 | The roof's CSV line is the feature read field by field, as the calculator reads it |
| RoofEnergy.Progress | roof_energy_calculator_algorithm.py:195-234 | The progress before each reached feature lies in [0, 100) |
| RoofEnergy.CalculateRoofEnergy | roof_energy_calculator_algorithm.py:192-322 | Up to the first cancellation the written roofs are the numbered accepted ones; the total is the sum of their outputs; the CSV is the header plus one line per roof in order; any failure becomes a processing exception |
| RoofEnergy.Sweep | roof_energy_calculator_algorithm.py:228-312 | Up to the first cancellation the loop's roofs are the numbering of the outcomes reached, the total is their sum, the file is their lines and one progress value is reported per feature reached; a failure is the numbering's first error |
| RoofEnergy.Visit | roof_energy_calculator_algorithm.py:235-312 | Visiting one more feature keeps the roofs equal to the numbering of the outcomes so far, the total their sum and the file their lines, or fails exactly when that numbering fails, with its error |
| RoofEnergy.Lines | roof_energy_calculator_algorithm.py:225-309 | The CSV is the header followed by one line per roof in order |
| RoofEnergy.TotalSnoc | roof_energy_calculator_algorithm.py:311 | Adding a roof adds its output to the total |
| SortResults.Keys | sort_results_algorithm.py:175 | A missing Output_kwh field is a KeyError; with two or more features a non-numeric value cannot be ordered; otherwise each feature's key is its output |
| SortResults.Insert | sort_results_algorithm.py:175 | Inserting adds exactly one index to the arrangement |
| SortResults.InsertOrdered | sort_results_algorithm.py:175 | Inserting a later index keeps the order descending by output and, among equals, by input position |
| SortResults.Sort | sort_results_algorithm.py:175 | The arrangement is a permutation of the inputs, descending by output, and stable among equal outputs |
| SortResults.OrderedUnique | sort_results_algorithm.py:175 | Two descending stable arrangements of the same indices are equal |
| SortResults.SortIsStableDescending | sort_results_algorithm.py:175 | Any permutation that is descending and stable is the one the sort produces |
| SortResults.Renumber | sort_results_algorithm.py:187-194 | The feature at position p gets id p + 1, keeps its geometry, and every other attribute is the input feature's |
| SortResults.Written | sort_results_algorithm.py:178-190 | The CSV is the header of field names followed by one line per feature in order |
| SortResults.Arrange | sort_results_algorithm.py:175-194 | Fails exactly on a key error or missing id field; otherwise a permutation of the input, descending and stable, renumbered 1..n in output order |
| SortResults.Rank | sort_results_algorithm.py:150-199 | The sink receives the arranged features and the CSV lists them in the same order; any failure becomes a processing exception |
| SortResults.ArrangedDescending | sort_results_algorithm.py:175 | Along the output Output_kwh never increases, and equal outputs keep their input order |
| WebMap.Magnitude | webMapPreparationAlgorithm.py:306 | floor(log10(a)) is the exponent e with 10^e <= a < 10^(e+1) |
| WebMap.MagnitudeUnique | webMapPreparationAlgorithm.py:306 | That exponent is unique |
| WebMap.RoundSig | webMapPreparationAlgorithm.py:305-306 | Rounding 0 is a math domain error; any other value rounds |
| WebMap.RoundSigDigits | webMapPreparationAlgorithm.py:305-306 | The result is a whole multiple of the second-digit unit 10^(floor(log10 abs x) - 1), within half a unit of x, and has two significant digits (between 10 and 100 units) |
| WebMap.RoundSigIdempotent | webMapPreparationAlgorithm.py:305-306 | A rounded value is non-zero and rounds to itself |
| WebMap.ToInt | webMapPreparationAlgorithm.py:232-233 | Integers are kept; reals are truncated toward zero; anything else fails |
| WebMap.RoundSigValueDigits | webMapPreparationAlgorithm.py:234 | A non-zero numeric output rounds to two significant digits; zero is a math domain error and a non-number fails |
| WebMap.WebFieldPositions | webMapPreparationAlgorithm.py:176-180 | The web layer's fields are id, latitude, longitude, Num_panels, Output_kwh, in that order |
| WebMap.WebFeatureValue | webMapPreparationAlgorithm.py:221-235 | The web feature carries the reprojected geometry, the id, the truncated coordinates, the panel count and the rounded output |
| WebMap.WebFeatureMade | webMapPreparationAlgorithm.py:231-235 | A web feature is made exactly when all five fields exist, both coordinates are numbers and the output rounds |
| WebMap.WebFeatureReads | webMapPreparationAlgorithm.py:231-235 | Reading the web feature by name gives the copied id and panels, the truncated coordinates and the rounded output |
| WebMap.WebFeatureFailsFirst | webMapPreparationAlgorithm.py:231-235 | A failure is the first one in assignment order: id, latitude, longitude, output, panels |
| WebMap.Outcome | webMapPreparationAlgorithm.py:217-236 | A feature with geometry yields a web feature, one without is skipped |
| WebMap.Present | webMapPreparationAlgorithm.py:217-218 | The positions, in increasing order, of exactly the features that have geometry |
| WebMap.CollectPresent | webMapPreparationAlgorithm.py:210-236 | When nothing fails the output lists one web feature per feature with geometry, in input order |
| WebMap.CollectFails | webMapPreparationAlgorithm.py:210-241 | The run fails exactly when some feature with geometry fails, and with the error of the first one |
| WebMap.ProjectedLocated | webMapPreparationAlgorithm.py:210-241 | The output is the web features of exactly the features with geometry, in input order; it fails exactly when one of them fails, with the first failure's error |
| WebMap.ProjectedPrefix | webMapPreparationAlgorithm.py:210-213 | The output of the first k features is the collection of their first k outcomes |
| WebMap.PrepareWebMap | webMapPreparationAlgorithm.py:186-241 | Up to the first cancellation the sink receives the projected features; progress lies in [0, 100); any failure becomes a processing exception |
| WebMap.Sweep | webMapPreparationAlgorithm.py:210-236 | The loop collects the outcomes of the features it reaches, with their progress |
| Features.FieldIndex | roof_energy_calculator_algorithm.py:176-188 | The index of the first field of that name, or none exactly when no field has it |
| Features.Get | webMapPreparationAlgorithm.py:231 | feature[name] is the value at that field's index, or a KeyError exactly when the layer lacks the field |
| Features.Set | sort_results_algorithm.py:188 | feature[name] = v fails exactly when the field is missing, and otherwise keeps the geometry and the schema |
| Features.GetAfterSet | sort_results_algorithm.py:188-189 | Reading a written field gives the written value, and every other field is unchanged |
| Features.Row | sort_results_algorithm.py:189 | The values read by field name, one per field |
| Features.RowOfDistinctFields | sort_results_algorithm.py:189 | With distinct field names the values read by name are the attribute list |
| Features.HeaderParses | sort_results_algorithm.py:182 | Without commas in the names, the header splits back into the field names |
| Features.CsvLineParses | sort_results_algorithm.py:189 | Without commas in the rendered values, a line splits back into one rendered value per field |
| Csv.Join | sort_results_algorithm.py:182 | Joining no parts gives the empty string and one part gives that part |
| Csv.Split | sort_results_algorithm.py:189 | Splitting gives at least one piece and no piece holds the separator |
| Csv.SplitJoin | sort_results_algorithm.py:182-189 | Splitting a joined line gives back the fields when none holds the separator |
| Csv.JoinSplit | sort_results_algorithm.py:182-189 | Joining the pieces of a split line gives back the line |
| Csv.FieldCount | sort_results_algorithm.py:182-189 | A joined line has as many fields as were joined |
| Csv.Line | sort_results_algorithm.py:182 | A line is the joined fields followed by a newline |
| Common.Trunc | webMapPreparationAlgorithm.py:232 | int() of a real is the integer next to it on the side of zero |
| Common.TruncMonotone | SolarConstants.py:150-153 | Truncation never reverses an order |
| Common.RoundHalfEven | webMapPreparationAlgorithm.py:306 | round() gives an integer within one half, and the even one on a tie |
| Common.PySlice | dailyshading_modified.py:215 | A slice with in-range bounds is the subsequence, and any slice is no longer than the sequence |
| Grids.GridMin | shadow_generator_modified.py:159 | The minimum is a cell value no larger than any cell; an empty grid has none |
| Grids.MedianWithinBounds | sebe_modified.py:183 | The median of values within bounds lies within them |
| Grids.MulBounded | dailyshading_modified.py:147 | The product of two grids in [0, 1] lies in [0, 1] |
| Grids.SumGridSnoc | dailyshading_modified.py:152-156 | Adding one more grid to a running total gives, cell by cell, the sum of all the grids added so far |
| Grids.CellMulIsMul | dailyshading_modified.py:147 | The elementwise product of two same-shaped grids multiplies their cells one by one |

## Left out

- The geoprocessing engine's steps are left out: clip, warp, merge,
  constant raster, aspect, slope, sieve, zonal statistics, polygonize,
  raster calculator I/O and the web buildings clip, which runs after
  cancellation too. Only the tables and formulas passed to them are
  modelled. The engine's aspect raster is taken to mark flat cells and
  the border with the nodata value -9999, which the raster calculator
  carries through to the sine and cosine grids.
- Layer, CRS and GeoTIFF handling, file reading and writing, EPW parsing
  and text formatting are host I/O. Rasters and tables are values here.
- The sun position, the shadow caster, scipy `zoom` and `rotate`,
  `get_ders`, `atan`, `cos`, `sin` and the CRS transform to lon/lat or Web
  Mercator are parameters with stated ranges. Their algorithms are not part
  of this model.
- The sky-patch tables (Solweig metdata, `sunmapcreator`) and the
  irradiance worker (`sebeworker_modified.py`) are not part of this model.
  Their results are not used by the modelled values.
- Floating-point rounding is not modelled: all arithmetic is exact. No
  claim is bit-exact. The `str()` rendering of values in CSV lines is a
  parameter.
- NaN is modelled only as a whole-grid outcome (`Mean.AllNaN`), which is
  how it arises here (zero sun-up steps).
- RoofEnergy.ToFloat: text attributes are treated as not numbers, whereas
  Python `float()` would parse numeric text.
- SortResults.Keys: any non-numeric output value among two or more
  features is an ordering error. Python compares some mixed values (such
  as NULL) differently.
- WebMap.RoundSig: Python `round` on an integer argument returns an
  integer. The model rounds every number as a real.
- WallAspect.Run: the kernel rotation's interpolation is a parameter that
  only keeps the kernel's shape. The run also assumes the walls and DSM
  grids share a shape, as the caller passes them.
- Logging, progress-bar dialogs and the debug-only writes are left out.
  The writes at shadow_calculator_algorithm_wide.py:245-305 are guarded by
  a call `isDebug()` and are dead, the malformed call at line 304
  included. The loop of dailyshading_modified.py tests the bare function
  object (`if(isDebug):` at lines 101, 107, 110, 118, 127, 139, 144 and
  149), which is always true, so its `log` calls run on every step. They
  only write messages and are left out as output.
- DailyShading.Step: its own contract states the invariant only. What a
  step adds to the totals is stated by DailyShading.StepSums, and per mode
  by LocalStep and WideStepAdds; keeping it out of the invariant keeps
  every proof small.
- DailyShading.Loop: likewise, that the totals after the loop are the sums
  over the sun-up steps is stated by DailyShading.LoopSums.
- DailyShading.WideStep: what the step adds to the combined and wide
  totals is stated by DailyShading.WideStepAdds.
- DailyShading.Run: its own contract ties the result to RunDay over the
  schedule; the means as averaged sums are stated by RunOutcome and
  RunIsMeans.
- DailyShading.LocalStep: numpy broadcasting is not modelled. Adding
  grids of different shapes is a shape mismatch here, whereas numpy
  stretches a length-1 axis (lines 112 and 155-156).
- DailyShading.WideStep: as for LocalStep, a length-1 axis in the local
  grid, the clipped window or a total is a shape mismatch here, whereas
  numpy broadcasts it (lines 147 and 152-154).
- WebMap.ToInt: a text value is an error here. Python `int()` parses text
  holding an integer (sign, digits, surrounding blanks, underscores) and
  raises only on other text.
- The legacy shadow algorithm, the test scratchpad, the provider, the
  full-calculation driver, the virtual raster step and the directory set-up
  are orchestration and are not modelled.

=== FILE: calendar.dfy ===
/**
 * Calendar arithmetic of the daily shading loop: Gregorian day of year,
 * the clock time of each step, local time to decimal UT day (with the wrap
 * to 31 December of the previous year), and decimal day back to h/m/s.
 */
module Calendar {
  import opened Common

  /** Gregorian leap rule: divisible by 4, except centuries not divisible by 400. */
  predicate IsLeap(yy: int)
  {
    if yy % 4 == 0 then (if yy % 100 == 0 then yy % 400 == 0 else true) else false
  }

  function DaysPerMonth(leap: bool): (r: seq<int>)
    ensures |r| == 12
  {
    if leap then [31, 29, 31, 30, 31, 30, 31, 31, 30, 31, 30, 31]
    else [31, 28, 31, 30, 31, 30, 31, 31, 30, 31, 30, 31]
  }

  /** Days before the first of each month in a common year (independent table). */
  const CommonYearStarts: seq<int> := [0, 31, 59, 90, 120, 151, 181, 212, 243, 273, 304, 334]

  predicate ValidDate(yy: int, month: int, day: int)
  {
    1 <= month <= 12 && 1 <= day <= DaysPerMonth(IsLeap(yy))[month - 1]
  }

  /** `day_of_year`: the days of the months before `month` (a Python slice) plus `day`. */
  function DayOfYear(yy: int, month: int, day: int): int
  {
    Sum(PySlice(DaysPerMonth(IsLeap(yy)), 0, month - 1)) + day
  }

  lemma {:induction false} SumPrefixCommon(k: nat)
    requires k <= 12
    ensures Sum(DaysPerMonth(false)[..k]) == (if k == 12 then 365 else CommonYearStarts[k])
  {
    var d := DaysPerMonth(false);
    if k > 0 {
      SumPrefixCommon(k - 1);
      assert d[..k][..k - 1] == d[..k - 1];
    }
  }

  lemma {:induction false} SumPrefixLeap(k: nat)
    requires k <= 12
    ensures Sum(DaysPerMonth(true)[..k]) ==
            (if k == 12 then 366 else CommonYearStarts[k] + (if k >= 2 then 1 else 0))
  {
    var d := DaysPerMonth(true);
    if k > 0 {
      SumPrefixLeap(k - 1);
      assert d[..k][..k - 1] == d[..k - 1];
    }
  }

  /**
   * `day_of_year` agrees with the closed form "days before the month in a
   * common year, one more from March on in a leap year, plus the day".
   */
  lemma DayOfYearClosedForm(yy: int, month: int, day: int)
    requires 1 <= month <= 12
    ensures DayOfYear(yy, month, day) ==
            CommonYearStarts[month - 1] + (if IsLeap(yy) && month >= 3 then 1 else 0) + day
  {
    if IsLeap(yy) { SumPrefixLeap(month - 1); } else { SumPrefixCommon(month - 1); }
  }

  /** Valid dates are numbered 1..365, or 1..366 in a leap year. */
  lemma DayOfYearRange(yy: int, month: int, day: int)
    requires ValidDate(yy, month, day)
    ensures 1 <= DayOfYear(yy, month, day) <= (if IsLeap(yy) then 366 else 365)
  {
    DayOfYearClosedForm(yy, month, day);
  }

  /** The first of a month directly follows the last day of the month before. */
  lemma DayOfYearContinuous(yy: int, month: int)
    requires 1 <= month < 12
    ensures DayOfYear(yy, month + 1, 1) ==
            DayOfYear(yy, month, DaysPerMonth(IsLeap(yy))[month - 1]) + 1
  {
    DayOfYearClosedForm(yy, month + 1, 1);
    DayOfYearClosedForm(yy, month, DaysPerMonth(IsLeap(yy))[month - 1]);
  }

  lemma LastDayOfYear(yy: int)
    ensures DayOfYear(yy, 12, 31) == (if IsLeap(yy) then 366 else 365)
  {
    DayOfYearClosedForm(yy, 12, 31);
  }

  /** The time vector `tv = [year, month, day, hour, minu, sec]`. */
  datatype TimeVector = TimeVector(year: int, month: int, day: int, hour: int, minu: int, sec: int)

  /** The arguments of one day's loop that fix its clock: `tv`, `timeInterval`, `onetime`, `dst`. */
  datatype Clock = Clock(tv: TimeVector, interval: int, onetime: int, dst: int)

  /** Number of loop steps in one day: `itera`. Interval 0 divides by zero. */
  function StepsPerDay(onetime: int, interval: int): (r: Result<int>)
    ensures onetime == 1 ==> r == Ok(1)
    ensures onetime != 1 && interval == 0 ==> r == Err(ZeroDivision)
    ensures onetime != 1 && interval > 0 ==>
              r.Ok? && r.value >= 0 && r.value * interval <= 1440 < (r.value + 1) * interval
  {
    if onetime == 1 then Ok(1)
    else if interval == 0 then Err(ZeroDivision)
    else
      var q := 1440.0 / interval as real;
      if interval > 0 then
        StepsBracket(q, interval);
        Ok(Trunc(q))
      else
        Ok(Trunc(q))
  }

  lemma StepsBracket(q: real, interval: int)
    requires interval > 0 && q == 1440.0 / interval as real
    ensures q >= 0.0 && Trunc(q) == q.Floor == 1440 / interval
    ensures (1440 / interval) * interval <= 1440 < (1440 / interval + 1) * interval
  {
    var r := 1440 / interval;
    var m := 1440 % interval;
    var n := interval as real;
    assert 1440 == r * interval + m;
    var frac := m as real / n;
    assert 0.0 <= frac < 1.0;
    assert frac * n == m as real;
    assert (r as real + frac) * n == 1440.0;
    assert q == r as real + frac;
    assert (r + 1) * interval == r * interval + interval;
  }

  lemma HourlySteps()
    ensures StepsPerDay(0, 60) == Ok(24)
  {
  }

  /** Clock time of step `i` when iterating over the day: `(hour, minute)`. */
  function StepClock(interval: int, i: int): (r: (int, int))
    ensures r.0 * 60 + r.1 == interval * i
    ensures 0 <= r.1 < 60
  {
    var minu := interval * i;
    var hour := (minu as real / 60.0).Floor;
    (hour, minu - hour * 60)
  }

  /** Result of `createTimeParameters`; `wrapped` records that the date was moved back. */
  datatype TimeParams = TimeParams(year: int, month: int, day: int, hour: int, minu: int, ut: real, wrapped: bool)

  function HourMinute(c: Clock, i: int): (int, int)
  {
    if c.onetime == 0 then StepClock(c.interval, i) else (c.tv.hour, c.tv.minu)
  }

  /** Decimal UT day before the wrap: `doy - 1 + (hour - dst)/24 + minu/1440`. */
  function RawUt(c: Clock, year: int, month: int, day: int, i: int): real
  {
    var (hour, minu) := HourMinute(c, i);
    (DayOfYear(year, month, day) - 1) as real + (hour - c.dst) as real / 24.0 + minu as real / 1440.0
  }

  /** `createTimeParameters`. */
  function CreateTimeParameters(c: Clock, year: int, month: int, day: int, i: int): (r: TimeParams)
    ensures (r.hour, r.minu) == HourMinute(c, i)
    ensures r.wrapped <==> RawUt(c, year, month, day, i) < 0.0
    ensures !r.wrapped ==> (r.year, r.month, r.day) == (year, month, day) &&
                           r.ut == RawUt(c, year, month, day, i)
    ensures r.wrapped ==> (r.year, r.month, r.day) == (year - 1, 12, 31) &&
                          r.ut == RawUt(c, year, month, day, i) +
                                  (if IsLeap(year - 1) then 365.0 else 364.0)
    ensures RawUt(c, year, month, day, i) >= -364.0 ==> r.ut >= 0.0
  {
    var (hour, minu) := HourMinute(c, i);
    var ut := RawUt(c, year, month, day, i);
    if ut < 0.0 then
      LastDayOfYear(year - 1);
      TimeParams(year - 1, 12, 31, hour, minu, ut + (DayOfYear(year - 1, 12, 31) - 1) as real, true)
    else
      TimeParams(year, month, day, hour, minu, ut, false)
  }

  /** A step's own hour is never before the previous midnight under the source's settings. */
  predicate SaneClock(c: Clock)
  {
    0 <= c.dst <= 1 && (if c.onetime == 0 then c.interval >= 0 else c.tv.hour >= 0 && c.tv.minu >= 0)
  }

  lemma HourMinuteNonNegative(c: Clock, i: nat)
    requires SaneClock(c)
    ensures HourMinute(c, i).0 >= 0 && HourMinute(c, i).1 >= 0
  {
    if c.onetime == 0 {
      var (h, m) := StepClock(c.interval, i);
      assert h * 60 + m >= 0;
    }
  }

  /** A valid date with a sane clock never produces a negative UT time after the wrap. */
  lemma UtNonNegative(c: Clock, year: int, month: int, day: int, i: nat)
    requires SaneClock(c) && ValidDate(year, month, day)
    ensures CreateTimeParameters(c, year, month, day, i).ut >= 0.0
  {
    HourMinuteNonNegative(c, i);
    DayOfYearRange(year, month, day);
  }

  /** On 31 December no step wraps: the date passes through unchanged. */
  lemma NoWrapOnDec31(c: Clock, year: int, i: nat)
    requires SaneClock(c)
    ensures !CreateTimeParameters(c, year, 12, 31, i).wrapped
  {
    HourMinuteNonNegative(c, i);
    LastDayOfYear(year);
  }

  /**
   * The loop of `dailyshading` feeds the date returned by each step back into
   * the next one; this is the sequence of time parameters of steps `i..n-1`.
   */
  function Schedule(c: Clock, year: int, month: int, day: int, i: int, n: int): (r: seq<TimeParams>)
    ensures |r| == if i < n then n - i else 0
    decreases n - i
  {
    if i >= n then []
    else
      var p := CreateTimeParameters(c, year, month, day, i);
      [p] + Schedule(c, p.year, p.month, p.day, i + 1, n)
  }

  predicate OnDate(p: TimeParams, year: int, month: int, day: int)
  {
    p.year == year && p.month == month && p.day == day
  }

  /**
   * The wrap is sticky: every step uses either the starting date or 31
   * December of the previous year, and from the first wrapped step on every
   * later step uses 31 December of the previous year.
   */
  lemma {:induction false} ScheduleSticky(c: Clock, year: int, month: int, day: int, i: nat, n: int)
    requires SaneClock(c)
    ensures forall k | 0 <= k < |Schedule(c, year, month, day, i, n)| ::
              OnDate(Schedule(c, year, month, day, i, n)[k], year, month, day) ||
              OnDate(Schedule(c, year, month, day, i, n)[k], year - 1, 12, 31)
    ensures forall k, k' | 0 <= k <= k' < |Schedule(c, year, month, day, i, n)| ::
              Schedule(c, year, month, day, i, n)[k].wrapped ==>
              OnDate(Schedule(c, year, month, day, i, n)[k'], year - 1, 12, 31)
    decreases n - i
  {
    var s := Schedule(c, year, month, day, i, n);
    if i < n {
      var p := CreateTimeParameters(c, year, month, day, i);
      var rest := Schedule(c, p.year, p.month, p.day, i + 1, n);
      assert s == [p] + rest;
      if p.wrapped {
        StaysOnDec31(c, year - 1, i + 1, n);
        forall k | 0 <= k < |s| ensures OnDate(s[k], year - 1, 12, 31) {
          if k > 0 { assert s[k] == rest[k - 1]; }
        }
      } else {
        assert OnDate(p, year, month, day);
        ScheduleSticky(c, year, month, day, i + 1, n);
        forall k | 0 <= k < |s|
          ensures OnDate(s[k], year, month, day) || OnDate(s[k], year - 1, 12, 31)
        {
          if k > 0 { assert s[k] == rest[k - 1]; }
        }
        forall k, k' | 0 <= k <= k' < |s| && s[k].wrapped
          ensures OnDate(s[k'], year - 1, 12, 31)
        {
          assert k > 0;
          assert s[k] == rest[k - 1] && s[k'] == rest[k' - 1];
        }
      }
    }
  }

  lemma {:induction false} StaysOnDec31(c: Clock, year: int, i: nat, n: int)
    requires SaneClock(c)
    ensures forall k | 0 <= k < |Schedule(c, year, 12, 31, i, n)| ::
              OnDate(Schedule(c, year, 12, 31, i, n)[k], year, 12, 31) &&
              !Schedule(c, year, 12, 31, i, n)[k].wrapped
    decreases n - i
  {
    if i < n {
      var s := Schedule(c, year, 12, 31, i, n);
      var p := CreateTimeParameters(c, year, 12, 31, i);
      NoWrapOnDec31(c, year, i);
      assert OnDate(p, year, 12, 31);
      StaysOnDec31(c, year, i + 1, n);
      var rest := Schedule(c, year, 12, 31, i + 1, n);
      assert s == [p] + rest;
      forall k | 0 <= k < |s|
        ensures OnDate(s[k], year, 12, 31) && !s[k].wrapped
      {
        if k > 0 { assert s[k] == rest[k - 1]; }
      }
    }
  }

  /** `dectime_to_timevec`: hours, minutes and seconds of the fractional day. */
  function DectimeToTimevec(dectime: real): (r: (int, int, int))
    ensures 0 <= r.0 < 24 && 0 <= r.1 < 60 && 0 <= r.2 < 60
    // base-60 digits of the whole seconds elapsed since midnight
    ensures r.0 * 3600 + r.1 * 60 + r.2 == ((dectime - dectime.Floor as real) * 86400.0).Floor
  {
    var dh := dectime - dectime.Floor as real;
    var hours := Trunc(24.0 * dh);
    var dm := 24.0 * dh - hours as real;
    var mins := Trunc(60.0 * dm);
    var ds := 60.0 * dm - mins as real;
    var secs := Trunc(60.0 * ds);
    DectimeDigits(dh, hours, dm, mins, ds, secs);
    (hours, mins, secs)
  }

  lemma DectimeDigits(dh: real, hours: int, dm: real, mins: int, ds: real, secs: int)
    requires 0.0 <= dh < 1.0
    requires hours == (24.0 * dh).Floor && dm == 24.0 * dh - hours as real
    requires mins == (60.0 * dm).Floor && ds == 60.0 * dm - mins as real
    requires secs == (60.0 * ds).Floor
    ensures 0 <= hours < 24 && 0 <= mins < 60 && 0 <= secs < 60
    ensures hours * 3600 + mins * 60 + secs == (dh * 86400.0).Floor
  {
    var rest := 60.0 * ds - secs as real;
    assert 0.0 <= rest < 1.0;
    assert dh * 86400.0 == (hours * 3600 + mins * 60 + secs) as real + rest;
  }
}

=== FILE: common.dfy ===
/**
 * Shared vocabulary of the model: the failure-compatible result type, the
 * exceptions the Python code can raise, and the few Python/numpy numeric
 * conventions (truncating int(), slicing) that several files rely on.
 */
module Common {

  /** The exceptions the modelled Python code raises on its error paths. */
  datatype Error =
    | ZeroDivision            // Python `x / 0.0` on floats
    | IndexOutOfRange         // numpy IndexError (missing column or row)
    | ShapeMismatch           // numpy broadcast error between two grids
    | MathDomain              // math.log10(0)
    | EmptyReduction          // numpy min() of a zero-size array
    | NegativeDimension       // np.zeros with a negative size
    | NameNotDefined(name: string)   // NameError
    | ImportFailure           // SolarException("Import Error", ...)
    | KdownOutOfRange(rows: seq<nat>) // SolarException("Value error", ...) with 1-based rows
    | WrongColumnCount(cols: nat)     // SolarException("Import Error", ...) on the column check
    | MissingAttribute(field: string) // KeyError on a feature attribute the layer does not have
    | Unorderable             // TypeError comparing values without an order (None, mixed types)
    | NotANumber              // TypeError or ValueError from float() on an attribute value
    | Processing(cause: Error) // QgsProcessingException wrapping another exception

  datatype Option<+T> = None | Some(value: T)

  datatype Result<+T> = Ok(value: T) | Err(error: Error) {
    predicate IsFailure() { Err? }
    function PropagateFailure<U>(): Result<U>
      requires Err?
    {
      Err(error)
    }
    function Extract(): T
      requires Ok?
    {
      value
    }
  }

  /** Python's `int(x)` on a float: truncation toward zero. */
  function Trunc(x: real): (r: int)
    ensures 0.0 <= x ==> r as real <= x < r as real + 1.0
    ensures x < 0.0 ==> r as real - 1.0 < x <= r as real
    ensures (if r < 0 then -r else r) as real <= (if x < 0.0 then -x else x)
  {
    if x >= 0.0 then x.Floor else -((-x).Floor)
  }

  /** Truncation toward zero never decreases when its argument grows. */
  lemma TruncMonotone(a: real, b: real)
    requires a <= b
    ensures Trunc(a) <= Trunc(b)
  {
    if a >= 0.0 {
      assert a.Floor <= b.Floor;
    } else if b < 0.0 {
      assert (-b).Floor <= (-a).Floor;
    }
  }

  /** Truncation keeps an integer-valued real unchanged. */
  lemma TruncIntegral(x: real)
    requires IsIntegral(x)
    ensures Trunc(x) as real == x
  {
    if x < 0.0 {
      assert (-x).Floor == -(x.Floor);
    }
  }

  /** numpy's `np.round` and Python's `round`: to the nearest integer, ties to the even one. */
  function RoundHalfEven(x: real): (r: real)
    ensures IsIntegral(r)
    ensures Abs(r - x) <= 0.5
    ensures Abs(r - x) == 0.5 ==> r.Floor % 2 == 0
  {
    var fl := x.Floor;
    var frac := x - fl as real;
    if frac < 0.5 then fl as real
    else if frac > 0.5 then (fl + 1) as real
    else if fl % 2 == 0 then fl as real
    else (fl + 1) as real
  }

  /** Rounding leaves integers unchanged. */
  lemma RoundIntegral(x: real)
    requires IsIntegral(x)
    ensures RoundHalfEven(x) == x
  {
  }

  function Abs(x: real): real { if x < 0.0 then -x else x }

  /** `x` is an integer-valued real. */
  predicate IsIntegral(x: real) { x.Floor as real == x }

  /**
   * The clamped bounds `[lo, hi)` that Python selects for `s[a:b]` on a
   * sequence of length `n`: negative indices count from the end, then both
   * ends are clamped to `[0, n]`, and an inverted range is empty.
   */
  function PySliceBounds(a: int, b: int, n: nat): (r: (nat, nat))
    ensures r.0 <= r.1 <= n
    ensures 0 <= a <= b <= n ==> r == (a, b)
  {
    var lo := Clamp(if a < 0 then a + n else a, n);
    var hi := Clamp(if b < 0 then b + n else b, n);
    if lo <= hi then (lo, hi) else (lo, lo)
  }

  function Clamp(x: int, n: nat): (r: nat)
    ensures r <= n
    ensures 0 <= x <= n ==> r == x
  {
    if x < 0 then 0 else if x > n then n else x
  }

  /** Python `s[a:b]`. */
  function PySlice<T>(s: seq<T>, a: int, b: int): (r: seq<T>)
    ensures |r| <= |s|
    ensures 0 <= a <= b <= |s| ==> r == s[a..b]
  {
    var (lo, hi) := PySliceBounds(a, b, |s|);
    s[lo..hi]
  }

  function Sum(s: seq<int>): int
  {
    if |s| == 0 then 0 else Sum(s[..|s| - 1]) + s[|s| - 1]
  }

  function SumReal(s: seq<real>): real
  {
    if |s| == 0 then 0.0 else SumReal(s[..|s| - 1]) + s[|s| - 1]
  }
}

=== FILE: csv.dfy ===
/**
 * The comma-separated text the result steps write: Python's `sep.join`
 * and, as its inverse on fields free of the separator, `str.split`.
 */
module Csv {

  /** `sep.join(parts)`. */
  function Join(parts: seq<string>, sep: char): (s: string)
    ensures |parts| == 0 ==> s == []
    ensures |parts| == 1 ==> s == parts[0]
  {
    if |parts| == 0 then []
    else if |parts| == 1 then parts[0]
    else parts[0] + [sep] + Join(parts[1..], sep)
  }

  /** Index of the first `sep` in `s`, or `|s|` when there is none. */
  function FirstIndex(s: string, sep: char): (k: nat)
    ensures k <= |s|
    ensures forall m | 0 <= m < k :: s[m] != sep
    ensures k < |s| ==> s[k] == sep
  {
    if |s| == 0 || s[0] == sep then 0 else 1 + FirstIndex(s[1..], sep)
  }

  /** `s.split(sep)`: the pieces between separators, always at least one. */
  function Split(s: string, sep: char): (parts: seq<string>)
    ensures |parts| >= 1
    ensures forall m | 0 <= m < |parts| :: sep !in parts[m]
    decreases |s|
  {
    var k := FirstIndex(s, sep);
    if k == |s| then [s]
    else [s[..k]] + Split(s[k + 1..], sep)
  }

  /** Splitting a joined line gives back its fields, when no field holds the separator. */
  lemma {:induction false} SplitJoin(parts: seq<string>, sep: char)
    requires |parts| >= 1
    requires forall m | 0 <= m < |parts| :: sep !in parts[m]
    ensures Split(Join(parts, sep), sep) == parts
  {
    if |parts| == 1 {
      NoSeparator(parts[0], sep);
    } else {
      var rest := Join(parts[1..], sep);
      var s := parts[0] + [sep] + rest;
      NoSeparator(parts[0], sep);
      FirstIndexAfter(parts[0], sep, rest);
      assert s[..|parts[0]|] == parts[0];
      assert s[|parts[0]| + 1..] == rest;
      SplitJoin(parts[1..], sep);
      assert parts == [parts[0]] + parts[1..];
    }
  }

  /** Joining the pieces of a split line gives back the line. */
  lemma {:induction false} JoinSplit(s: string, sep: char)
    ensures Join(Split(s, sep), sep) == s
    decreases |s|
  {
    var k := FirstIndex(s, sep);
    if k < |s| {
      var rest := Split(s[k + 1..], sep);
      JoinSplit(s[k + 1..], sep);
      assert Split(s, sep) == [s[..k]] + rest;
      assert ([s[..k]] + rest)[1..] == rest;
      assert s == s[..k] + [sep] + s[k + 1..];
    }
  }

  /** A line with as many fields as the header has names. */
  lemma FieldCount(parts: seq<string>, sep: char)
    requires |parts| >= 1
    requires forall m | 0 <= m < |parts| :: sep !in parts[m]
    ensures |Split(Join(parts, sep), sep)| == |parts|
  {
    SplitJoin(parts, sep);
  }

  lemma NoSeparator(p: string, sep: char)
    requires sep !in p
    ensures FirstIndex(p, sep) == |p| && Split(p, sep) == [p]
  {
  }

  lemma {:induction false} FirstIndexAfter(p: string, sep: char, rest: string)
    requires sep !in p
    ensures FirstIndex(p + [sep] + rest, sep) == |p|
    decreases |p|
  {
    var s := p + [sep] + rest;
    if |p| > 0 {
      assert s[1..] == p[1..] + [sep] + rest;
      FirstIndexAfter(p[1..], sep, rest);
    }
  }

  /** One line of the output file: the fields joined by commas, then a newline. */
  function Line(fields: seq<string>): (s: string)
    ensures |s| >= 1 && s[|s| - 1] == '\n'
    ensures s[..|s| - 1] == Join(fields, ',')
  {
    Join(fields, ',') + "\n"
  }
}

=== FILE: daily_shading.dfy ===
/**
 * `dailyshading`: the day is cut into time steps, the sun position of each
 * step is computed, and for every step with the sun above the horizon the
 * shadow caster produces a 0..1 grid that is added to running totals. The
 * results are the totals divided by the number of sun-up steps.
 *
 * In wide-area mode a coarse grid of the surroundings is shaded as well,
 * zoomed up to full resolution, clipped to the local extent and multiplied
 * into the local grid.
 *
 * The sun-position routine, the shadow caster and scipy's nearest-neighbour
 * zoom are not part of this model: they are passed in as `Engines`, and
 * `ValidEngines` states the only facts the model relies on.
 */
module DailyShading {
  import opened Common
  import opened Grids
  import opened Calendar
  import opened SolarConstants

  datatype Sun = Sun(altitude: real, azimuth: real)
  datatype Location = Location(longitude: real, latitude: real, altitude: Option<real>)
  datatype SunTime = SunTime(year: int, month: int, day: int, hour: int, minute: int, second: int, utc: int)

  /** The opaque collaborators: sun position, shadow caster, nearest-neighbour zoom. */
  datatype Engines = Engines(
    sunPosition: (SunTime, Location) -> Sun,
    shadow: (Grid, real, real, real) -> Grid,
    zoom: (Grid, real, real) -> Grid)

  /**
   * The shadow caster keeps the shape of the height grid and yields values in
   * [0, 1]; a nearest-neighbour zoom of a rectangular [0, 1] grid is again one.
   */
  ghost predicate ValidEngines(e: Engines)
  {
    (forall g: Grid, azi: real, alt: real, scale: real | Rectangular(g) ::
       HasShape(e.shadow(g, azi, alt, scale), |g|, Cols(g)) && Bounded(e.shadow(g, azi, alt, scale), 0.0, 1.0))
    && (forall g: Grid, fx: real, fy: real | Rectangular(g) && Bounded(g, 0.0, 1.0) ::
          Rectangular(e.zoom(g, fx, fy)) && Bounded(e.zoom(g, fx, fy), 0.0, 1.0))
  }

  /** The coarse wide-area height grid with its pixel scale and extent. */
  datatype WideInput = WideInput(grid: Grid, scale: real, extent: Extent)

  /**
   * The arguments of `dailyshading`. Its `useWideArea` flag and the wide
   * arguments always come from the same switch of the caller, so they are one
   * optional value here.
   */
  datatype ShadingArgs = ShadingArgs(
    local: Grid, wide: Option<WideInput>, lonlat: (real, real), scale: real,
    localExtent: Extent, tv: TimeVector, utc: int, interval: int, onetime: int, dst: int)

  /** numpy arrays are rectangular. */
  predicate WellFormed(a: ShadingArgs)
  {
    Rectangular(a.local) && (a.wide.Some? ==> Rectangular(a.wide.value.grid))
  }

  function ClockOf(a: ShadingArgs): Clock
  {
    Clock(a.tv, a.interval, a.onetime, a.dst)
  }

  /** The site handed to the sun-position routine: its altitude is the median height. */
  function SiteOf(a: ShadingArgs): Location
  {
    Location(a.lonlat.0, a.lonlat.1, Median(Flatten(a.local)))
  }

  function SunAt(a: ShadingArgs, e: Engines, p: TimeParams): Sun
  {
    var (h, m, s) := DectimeToTimevec(p.ut);
    e.sunPosition(SunTime(p.year, p.month, p.day, h, m, s, a.utc), SiteOf(a))
  }

  predicate SunUp(a: ShadingArgs, e: Engines, p: TimeParams)
  {
    SunAt(a, e, p).altitude > 0.0
  }

  /** The time parameters of every step of the day, or the error computing their number. */
  function StepTimes(a: ShadingArgs): (r: Result<seq<TimeParams>>)
    ensures r.Ok? <==> StepsPerDay(a.onetime, a.interval).Ok? && StepsPerDay(a.onetime, a.interval).value >= 0
    ensures r.Ok? ==> |r.value| == StepsPerDay(a.onetime, a.interval).value
    ensures r.Ok? ==> forall k | 0 <= k < |r.value| ::
              r.value[k] == CreateTimeParameters(ClockOf(a), if k == 0 then a.tv.year else r.value[k - 1].year,
                                                 if k == 0 then a.tv.month else r.value[k - 1].month,
                                                 if k == 0 then a.tv.day else r.value[k - 1].day, k)
  {
    var n :- StepsPerDay(a.onetime, a.interval);
    if n < 0 then Err(NegativeDimension)
    else
      ScheduleThreads(ClockOf(a), a.tv.year, a.tv.month, a.tv.day, 0, n);
      Ok(Schedule(ClockOf(a), a.tv.year, a.tv.month, a.tv.day, 0, n))
  }

  /** Each step of a schedule starts from the date the previous step returned. */
  lemma {:induction false} ScheduleThreads(c: Clock, year: int, month: int, day: int, i: nat, n: int)
    requires i <= n
    ensures forall k | 0 <= k < |Schedule(c, year, month, day, i, n)| ::
              Schedule(c, year, month, day, i, n)[k] ==
              CreateTimeParameters(c, if k == 0 then year else Schedule(c, year, month, day, i, n)[k - 1].year,
                                   if k == 0 then month else Schedule(c, year, month, day, i, n)[k - 1].month,
                                   if k == 0 then day else Schedule(c, year, month, day, i, n)[k - 1].day, i + k)
    decreases n - i
  {
    if i < n {
      var s := Schedule(c, year, month, day, i, n);
      var p := CreateTimeParameters(c, year, month, day, i);
      var rest := Schedule(c, p.year, p.month, p.day, i + 1, n);
      assert s == [p] + rest;
      ScheduleThreads(c, p.year, p.month, p.day, i + 1, n);
      forall k | 1 <= k < |s|
        ensures s[k] == CreateTimeParameters(c, s[k - 1].year, s[k - 1].month, s[k - 1].day, i + k)
      {
        assert s[k] == rest[k - 1];
        if k >= 2 {
          assert s[k - 1] == rest[k - 2];
        }
      }
    }
  }

  /**
   * numpy `g[y0:y1, x0:x1]`: Python slicing of the rows, then of every row.
   */
  function Clip(g: Grid, y0: int, y1: int, x0: int, x1: int): (r: Grid)
    ensures Rectangular(g) ==> Rectangular(r)
    ensures Rectangular(g) && 0 <= y0 <= y1 <= |g| && 0 <= x0 <= x1 <= Cols(g) ==>
              HasShape(r, y1 - y0, x1 - x0) &&
              forall i, j | 0 <= i < y1 - y0 && 0 <= j < x1 - x0 :: r[i][j] == g[y0 + i][x0 + j]
  {
    var rows := PySlice(g, y0, y1);
    var r := seq(|rows|, i requires 0 <= i < |rows| => PySlice(rows[i], x0, x1));
    ClipRows(g, y0, y1, x0, x1, r);
    ClipWindow(g, y0, y1, x0, x1, r);
    r
  }

  lemma ClipWindow(g: Grid, y0: int, y1: int, x0: int, x1: int, r: Grid)
    requires r == seq(|PySlice(g, y0, y1)|, i requires 0 <= i < |PySlice(g, y0, y1)| => PySlice(PySlice(g, y0, y1)[i], x0, x1))
    ensures Rectangular(g) && 0 <= y0 <= y1 <= |g| && 0 <= x0 <= x1 <= Cols(g) ==>
              HasShape(r, y1 - y0, x1 - x0) &&
              forall i, j | 0 <= i < y1 - y0 && 0 <= j < x1 - x0 :: r[i][j] == g[y0 + i][x0 + j]
  {
    if Rectangular(g) && 0 <= y0 <= y1 <= |g| && 0 <= x0 <= x1 <= Cols(g) {
      var rows := PySlice(g, y0, y1);
      assert rows == g[y0..y1];
      forall i | 0 <= i < y1 - y0 ensures r[i] == g[y0 + i][x0..x1] {
        assert rows[i] == g[y0 + i];
      }
    }
  }

  lemma ClipRows(g: Grid, y0: int, y1: int, x0: int, x1: int, r: Grid)
    requires r == seq(|PySlice(g, y0, y1)|, i requires 0 <= i < |PySlice(g, y0, y1)| => PySlice(PySlice(g, y0, y1)[i], x0, x1))
    ensures Rectangular(g) ==> Rectangular(r)
  {
    var rows := PySlice(g, y0, y1);
    if Rectangular(g) && |r| > 0 {
      var (lo, hi) := PySliceBounds(y0, y1, |g|);
      assert rows == g[lo..hi];
      assert forall i | 0 <= i < |r| :: |rows[i]| == Cols(g);
      assert forall i | 0 <= i < |r| :: |r[i]| == |r[0]|;
    }
  }

  /** A clip window holds only cells of the clipped grid. */
  lemma ClipBounded(g: Grid, y0: int, y1: int, x0: int, x1: int, lo: real, hi: real)
    requires Bounded(g, lo, hi)
    ensures Bounded(Clip(g, y0, y1, x0, x1), lo, hi)
  {
    var rows := PySlice(g, y0, y1);
    var (r0, r1) := PySliceBounds(y0, y1, |g|);
    assert rows == g[r0..r1];
    var r := Clip(g, y0, y1, x0, x1);
    forall i, j | 0 <= i < |r| && 0 <= j < |r[i]| ensures lo <= r[i][j] <= hi {
      var row := rows[i];
      assert row == g[r0 + i];
      var (c0, c1) := PySliceBounds(x0, x1, |row|);
      assert r[i] == row[c0..c1];
      assert r[i][j] == g[r0 + i][c0 + j];
    }
  }

  /**
   * The ground offsets of the local extent inside the wide one select a
   * window of exactly `local.height` rows and `local.width` columns whose
   * top-left cell is the local extent's north-west corner.
   */
  lemma ClipIsLocalWindow(z: Grid, wide: Extent, local: Extent)
    requires Rectangular(z)
    requires local.width == local.xmax - local.xmin && local.height == local.ymax - local.ymin
    requires wide.xmin <= local.xmin <= local.xmax <= wide.xmin + Cols(z)
    requires wide.ymax - |z| <= local.ymin <= local.ymax <= wide.ymax
    ensures HasShape(WideWindow(z, wide, local), local.height, local.width)
    ensures forall i, j | 0 <= i < local.height && 0 <= j < local.width ::
              WideWindow(z, wide, local)[i][j] == z[wide.ymax - local.ymax + i][local.xmin - wide.xmin + j]
  {
  }

  /** The clip of the zoomed wide grid to the local extent. */
  function WideWindow(z: Grid, wide: Extent, local: Extent): Grid
  {
    Clip(z, wide.ymax - local.ymax, wide.ymax - local.ymin, local.xmin - wide.xmin, local.xmax - wide.xmin)
  }

  /** The shadow caster's grid of the local area at step `p`. */
  function LocalShadow(a: ShadingArgs, e: Engines, p: TimeParams): Grid
  {
    var sun := SunAt(a, e, p);
    e.shadow(a.local, sun.azimuth, sun.altitude, a.scale)
  }

  /** The shadow caster's grid of the coarse wide area for the sun position `sun`. */
  function CoarseShadow(wide: WideInput, e: Engines, sun: Sun): Grid
  {
    e.shadow(wide.grid, sun.azimuth, sun.altitude, wide.scale)
  }

  /**
   * The coarse grid zoomed by extent size over grid size. An empty coarse
   * grid has no zoom: the step raises `ZeroDivisionError` before it.
   */
  function Zoomed(wide: WideInput, e: Engines, shW: Grid): Grid
  {
    if Cols(shW) == 0 || |shW| == 0 then []
    else e.zoom(shW, wide.extent.width as real / Cols(shW) as real, wide.extent.height as real / |shW| as real)
  }

  /** The wide-area factor of step `p`: the zoomed coarse grid clipped to the local extent. */
  function WideFactor(a: ShadingArgs, e: Engines, p: TimeParams): Grid
    requires a.wide.Some?
  {
    var wide := a.wide.value;
    WideWindow(Zoomed(wide, e, CoarseShadow(wide, e, SunAt(a, e, p))), wide.extent, a.localExtent)
  }

  /** The local grid of step `p` times its wide-area factor, cell by cell over the local extent. */
  function Combined(a: ShadingArgs, e: Engines, p: TimeParams, h: nat, w: nat): (r: Grid)
    requires a.wide.Some?
    ensures HasShape(r, h, w)
  {
    CellMul(LocalShadow(a, e, p), WideFactor(a, e, p), h, w)
  }

  /** The local caster grids of the sun-up steps among `ts`, in step order. */
  function LocalShadows(a: ShadingArgs, e: Engines, ts: seq<TimeParams>): seq<Grid>
  {
    if |ts| == 0 then []
    else
      var p := ts[|ts| - 1];
      LocalShadows(a, e, ts[..|ts| - 1]) + if SunUp(a, e, p) then [LocalShadow(a, e, p)] else []
  }

  /** The coarse caster grids of the sun-up steps among `ts`, in step order. */
  function CoarseShadows(a: ShadingArgs, e: Engines, ts: seq<TimeParams>): seq<Grid>
    requires a.wide.Some?
  {
    if |ts| == 0 then []
    else
      var p := ts[|ts| - 1];
      CoarseShadows(a, e, ts[..|ts| - 1]) + if SunUp(a, e, p) then [CoarseShadow(a.wide.value, e, SunAt(a, e, p))] else []
  }

  /** The local grids times their wide-area factors, for the sun-up steps among `ts`. */
  function CombinedShadows(a: ShadingArgs, e: Engines, ts: seq<TimeParams>, h: nat, w: nat): seq<Grid>
    requires a.wide.Some?
  {
    if |ts| == 0 then []
    else
      var p := ts[|ts| - 1];
      CombinedShadows(a, e, ts[..|ts| - 1], h, w) + if SunUp(a, e, p) then [Combined(a, e, p, h, w)] else []
  }

  /**
   * The combined total after the steps `ts`: the sum of the sun-up local
   * grids, each multiplied by its wide-area factor in wide-area mode.
   */
  function CombinedTotal(a: ShadingArgs, e: Engines, ts: seq<TimeParams>, h: nat, w: nat): (r: Grid)
    ensures HasShape(r, h, w) && Rectangular(r)
  {
    if a.wide.None? then SumGrid(LocalShadows(a, e, ts), h, w) else SumGrid(CombinedShadows(a, e, ts, h, w), h, w)
  }

  /**
   * The local-only total after the steps `ts`: the sum of the sun-up local
   * grids, which the wide-area mode adds twice.
   */
  function LocalOnlyTotal(a: ShadingArgs, e: Engines, ts: seq<TimeParams>, h: nat, w: nat): (r: Grid)
    ensures HasShape(r, h, w) && Rectangular(r)
  {
    if a.wide.None? then SumGrid(LocalShadows(a, e, ts), h, w) else Twice(SumGrid(LocalShadows(a, e, ts), h, w))
  }

  /** The wide-area total after the steps `ts`: the sum of the sun-up coarse grids. */
  function WideTotal(a: ShadingArgs, e: Engines, ts: seq<TimeParams>): (r: Grid)
    requires a.wide.Some?
    ensures Rectangular(r)
  {
    SumGrid(CoarseShadows(a, e, ts), |a.wide.value.grid|, Cols(a.wide.value.grid))
  }

  /** The totals after the steps `ts` are the sums over their sun-up steps, and `count` is how many there are. */
  predicate Sums(a: ShadingArgs, e: Engines, ts: seq<TimeParams>, acc: Acc, h: nat, w: nat)
  {
    acc.count == |LocalShadows(a, e, ts)|
    && acc.shtot == CombinedTotal(a, e, ts, h, w)
    && acc.shLocal == LocalOnlyTotal(a, e, ts, h, w)
    && (a.wide.Some? ==> acc.shWide == WideTotal(a, e, ts))
  }

  /** A sun-down step adds nothing to any of the lists of grids. */
  lemma QuietStep(a: ShadingArgs, e: Engines, times: seq<TimeParams>, k: nat, h: nat, w: nat)
    requires k < |times| && !SunUp(a, e, times[k])
    ensures LocalShadows(a, e, times[..k + 1]) == LocalShadows(a, e, times[..k])
    ensures a.wide.Some? ==> CoarseShadows(a, e, times[..k + 1]) == CoarseShadows(a, e, times[..k])
    ensures a.wide.Some? ==> CombinedShadows(a, e, times[..k + 1], h, w) == CombinedShadows(a, e, times[..k], h, w)
  {
    assert times[..k + 1][..k] == times[..k];
  }

  /** A sun-up step appends its own grid to each list. */
  lemma RisenStep(a: ShadingArgs, e: Engines, times: seq<TimeParams>, k: nat, h: nat, w: nat)
    requires k < |times| && SunUp(a, e, times[k])
    ensures LocalShadows(a, e, times[..k + 1]) == LocalShadows(a, e, times[..k]) + [LocalShadow(a, e, times[k])]
    ensures a.wide.Some? ==>
              CoarseShadows(a, e, times[..k + 1]) ==
              CoarseShadows(a, e, times[..k]) + [CoarseShadow(a.wide.value, e, SunAt(a, e, times[k]))]
    ensures a.wide.Some? ==>
              CombinedShadows(a, e, times[..k + 1], h, w) == CombinedShadows(a, e, times[..k], h, w) + [Combined(a, e, times[k], h, w)]
  {
    assert times[..k + 1][..k] == times[..k];
  }

  /** Running totals of the loop; `calls` lists the steps that ran the shadow caster. */
  datatype Acc = Acc(
    shtot: Grid, shLocal: Grid, shWide: Grid, count: nat, calls: seq<nat>,
    zoomed: Option<Grid>, clipped: Option<Grid>)

  /** `calls` are, in increasing order, exactly the sun-up steps before `k`. */
  predicate CallsAreSunUpSteps(a: ShadingArgs, e: Engines, times: seq<TimeParams>, k: nat, calls: seq<nat>)
    requires k <= |times|
  {
    (forall x, y | 0 <= x < y < |calls| :: calls[x] < calls[y])
    && (forall j | j in calls :: j < k)
    && (forall j | 0 <= j < k :: j in calls <==> SunUp(a, e, times[j]))
  }

  lemma CallsExtend(a: ShadingArgs, e: Engines, times: seq<TimeParams>, k: nat, calls: seq<nat>)
    requires k < |times| && CallsAreSunUpSteps(a, e, times, k, calls) && SunUp(a, e, times[k])
    ensures CallsAreSunUpSteps(a, e, times, k + 1, calls + [k])
  {
    forall x | 0 <= x < |calls| ensures calls[x] < k {
      assert calls[x] in calls;
    }
  }

  /** Shapes and bounds of the totals after `count` sun-up steps. */
  predicate TotalsInv(a: ShadingArgs, acc: Acc, h: nat, w: nat)
  {
    HasShape(acc.shtot, h, w) && HasShape(acc.shLocal, h, w)
    && Bounded(acc.shtot, 0.0, acc.count as real)
    && (a.wide.None? ==> acc.shLocal == acc.shtot)
    && (a.wide.Some? ==>
          HasShape(acc.shWide, |a.wide.value.grid|, Cols(a.wide.value.grid))
          && Bounded(acc.shWide, 0.0, acc.count as real)
          && Bounded(acc.shLocal, 0.0, 2.0 * acc.count as real))
  }

  /**
   * The shapes and bounds of the totals, and the steps that called the
   * caster, after the first `k` steps. What the totals hold is `Sums`, which
   * `StepSums` and `LoopSums` carry along beside it.
   */
  predicate Inv(a: ShadingArgs, e: Engines, times: seq<TimeParams>, k: nat, acc: Acc, h: nat, w: nat)
    requires k <= |times|
  {
    TotalsInv(a, acc, h, w)
    && acc.count == |acc.calls|
    && CallsAreSunUpSteps(a, e, times, k, acc.calls)
  }

  /** One sun-up step without the wide area: the caster's grid goes into both totals. */
  function LocalStep(a: ShadingArgs, e: Engines, times: seq<TimeParams>, k: nat, acc: Acc, h: nat, w: nat): (r: Result<Acc>)
    requires WellFormed(a) && ValidEngines(e) && a.wide.None?
    requires k < |times| && Inv(a, e, times, k, acc, h, w) && SunUp(a, e, times[k])
    ensures r.Ok? <==> HasShape(a.local, h, w)
    ensures r.Err? ==> r.error == ShapeMismatch
    ensures r.Ok? ==> Inv(a, e, times, k + 1, r.value, h, w)
    // the step's caster grid is added to the total, which is also the local-only total
    ensures r.Ok? ==>
              SameShape(acc.shtot, LocalShadow(a, e, times[k]))
              && r.value.count == acc.count + 1 && r.value.calls == acc.calls + [k]
              && r.value.shtot == Add(acc.shtot, LocalShadow(a, e, times[k])) && r.value.shLocal == r.value.shtot
  {
    var sh := LocalShadow(a, e, times[k]);
    if !SameShape(acc.shLocal, sh) then Err(ShapeMismatch)
    else
      var total := Add(acc.shtot, sh);
      var next := Acc(total, total, acc.shWide, acc.count + 1, acc.calls + [k], acc.zoomed, acc.clipped);
      CallsExtend(a, e, times, k, acc.calls);
      AddBounded(acc.shtot, sh, acc.count as real, 1.0);
      Ok(next)
  }

  /** The local-only step appends the step's caster grid to the summed grids. */
  lemma LocalSums(a: ShadingArgs, e: Engines, times: seq<TimeParams>, k: nat, acc: Acc, next: Acc, h: nat, w: nat)
    requires a.wide.None? && k < |times| && SunUp(a, e, times[k])
    requires Sums(a, e, times[..k], acc, h, w) && HasShape(acc.shLocal, h, w)
    requires SameShape(acc.shtot, LocalShadow(a, e, times[k])) && SameShape(acc.shLocal, LocalShadow(a, e, times[k]))
    requires next.count == acc.count + 1 && next.shtot == Add(acc.shtot, LocalShadow(a, e, times[k])) && next.shLocal == next.shtot
    ensures Sums(a, e, times[..k + 1], next, h, w)
  {
    var sh := LocalShadow(a, e, times[k]);
    SameShapeHas(acc.shLocal, sh, h, w);
    RisenStep(a, e, times, k, h, w);
    SumGridSnoc(LocalShadows(a, e, times[..k]), sh, h, w);
  }

  /**
   * The wide-area part of a sun-up step: the coarse grid is shaded, zoomed by
   * extent size over grid size, and clipped to the local extent. Yields the
   * coarse shadow grid, the zoomed grid and the clip.
   */
  function WideGrids(wide: WideInput, local: Extent, e: Engines, sun: Sun, sh: Grid): (r: Result<(Grid, Grid, Grid)>)
    requires ValidEngines(e) && Rectangular(wide.grid) && Rectangular(sh)
    ensures r.Err? ==> r.error == ShapeMismatch || r.error == ZeroDivision
    ensures r.Ok? ==>
              r.value.0 == CoarseShadow(wide, e, sun)
              && HasShape(r.value.0, |wide.grid|, Cols(wide.grid)) && Bounded(r.value.0, 0.0, 1.0)
              && r.value.1 == Zoomed(wide, e, r.value.0)
              && r.value.2 == WideWindow(r.value.1, wide.extent, local)
              && SameShape(sh, r.value.2) && Bounded(r.value.2, 0.0, 1.0)
  {
    var shW := CoarseShadow(wide, e, sun);
    ShadowFits(e, wide.grid, sun.azimuth, sun.altitude, wide.scale);
    if Cols(shW) == 0 || |shW| == 0 then Err(ZeroDivision)
    else
      var fx, fy := wide.extent.width as real / Cols(shW) as real, wide.extent.height as real / |shW| as real;
      var zoomed := Zoomed(wide, e, shW);
      ZoomFits(e, shW, fx, fy);
      var clipped := WideWindow(zoomed, wide.extent, local);
      WindowBounded(zoomed, wide.extent, local);
      if !SameShape(sh, clipped) then Err(ShapeMismatch)
      else Ok((shW, zoomed, clipped))
  }

  lemma ShadowFits(e: Engines, g: Grid, azi: real, alt: real, scale: real)
    requires ValidEngines(e) && Rectangular(g)
    ensures HasShape(e.shadow(g, azi, alt, scale), |g|, Cols(g)) && Bounded(e.shadow(g, azi, alt, scale), 0.0, 1.0)
  {
  }

  lemma ZoomFits(e: Engines, g: Grid, fx: real, fy: real)
    requires ValidEngines(e) && Rectangular(g) && Bounded(g, 0.0, 1.0)
    ensures Rectangular(e.zoom(g, fx, fy)) && Bounded(e.zoom(g, fx, fy), 0.0, 1.0)
  {
  }

  lemma WindowBounded(z: Grid, wide: Extent, local: Extent)
    requires Bounded(z, 0.0, 1.0)
    ensures Bounded(WideWindow(z, wide, local), 0.0, 1.0)
  {
    ClipBounded(z, wide.ymax - local.ymax, wide.ymax - local.ymin, local.xmin - wide.xmin, local.xmax - wide.xmin, 0.0, 1.0);
  }

  /**
   * One sun-up step with the wide area: the clip multiplies the local grid
   * into the combined total, and the local-only total receives the local grid
   * twice.
   */
  function WideStep(a: ShadingArgs, e: Engines, times: seq<TimeParams>, k: nat, acc: Acc, h: nat, w: nat): (r: Result<Acc>)
    requires WellFormed(a) && ValidEngines(e) && a.wide.Some?
    requires k < |times| && Inv(a, e, times, k, acc, h, w) && SunUp(a, e, times[k])
    ensures r.Err? ==> r.error == ShapeMismatch || r.error == ZeroDivision
    ensures r.Ok? ==> Inv(a, e, times, k + 1, r.value, h, w)
    ensures r.Ok? ==>
              var sh := LocalShadow(a, e, times[k]);
              SameShape(acc.shLocal, sh) && r.value.shLocal == Add(Add(acc.shLocal, sh), sh)
  {
    var sun := SunAt(a, e, times[k]);
    var sh := LocalShadow(a, e, times[k]);
    if !SameShape(acc.shLocal, sh) then Err(ShapeMismatch)
    else
      var local1 := Add(acc.shLocal, sh);
      var (shW, zoomed, clipped) :- WideGrids(a.wide.value, a.localExtent, e, sun, sh);
      var next := Acc(Add(acc.shtot, Mul(sh, clipped)), Add(local1, sh), Add(acc.shWide, shW),
                      acc.count + 1, acc.calls + [k], Some(zoomed), Some(clipped));
      WideAccumulates(a, e, times, k, acc, h, w, sh, shW, clipped, next);
      Ok(next)
  }

  /**
   * A successful wide-area step adds the local grid times the wide-area
   * factor to the combined total and the coarse grid to the wide total.
   */
  lemma WideStepAdds(a: ShadingArgs, e: Engines, times: seq<TimeParams>, k: nat, acc: Acc, h: nat, w: nat)
    requires WellFormed(a) && ValidEngines(e) && a.wide.Some?
    requires k < |times| && Inv(a, e, times, k, acc, h, w) && SunUp(a, e, times[k])
    requires WideStep(a, e, times, k, acc, h, w).Ok?
    ensures var r := WideStep(a, e, times, k, acc, h, w);
            var sh, clip := LocalShadow(a, e, times[k]), WideFactor(a, e, times[k]);
            var shW := CoarseShadow(a.wide.value, e, SunAt(a, e, times[k]));
            SameShape(sh, clip) && SameShape(acc.shtot, sh) && SameShape(acc.shWide, shW)
            && HasShape(shW, |a.wide.value.grid|, Cols(a.wide.value.grid))
            && r.value.count == acc.count + 1 && r.value.calls == acc.calls + [k]
            && r.value.shtot == Add(acc.shtot, Mul(sh, clip)) && r.value.shWide == Add(acc.shWide, shW)
  {
  }

  lemma WideAccumulates(a: ShadingArgs, e: Engines, times: seq<TimeParams>, k: nat, acc: Acc, h: nat, w: nat,
                        sh: Grid, shW: Grid, clipped: Grid, next: Acc)
    requires a.wide.Some? && k < |times| && Inv(a, e, times, k, acc, h, w) && SunUp(a, e, times[k])
    requires SameShape(acc.shLocal, sh) && Bounded(sh, 0.0, 1.0)
    requires HasShape(shW, |a.wide.value.grid|, Cols(a.wide.value.grid)) && Bounded(shW, 0.0, 1.0)
    requires SameShape(sh, clipped) && Bounded(clipped, 0.0, 1.0)
    requires next.count == acc.count + 1 && next.calls == acc.calls + [k]
    requires next.shtot == Add(acc.shtot, Mul(sh, clipped))
    requires next.shLocal == Add(Add(acc.shLocal, sh), sh)
    requires next.shWide == Add(acc.shWide, shW)
    ensures Inv(a, e, times, k + 1, next, h, w)
  {
    CallsExtend(a, e, times, k, acc.calls);
    MulBounded(sh, clipped);
    AddBounded(acc.shWide, shW, acc.count as real, 1.0);
    AddBounded(acc.shtot, Mul(sh, clipped), acc.count as real, 1.0);
    AddBounded(acc.shLocal, sh, 2.0 * acc.count as real, 1.0);
    AddBounded(Add(acc.shLocal, sh), sh, 2.0 * acc.count as real + 1.0, 1.0);
  }

  /**
   * The wide-area step appends the step's combined grid, its local grid
   * (to the doubled sum) and its coarse grid to the summed grids.
   */
  lemma WideSums(a: ShadingArgs, e: Engines, times: seq<TimeParams>, k: nat, acc: Acc, h: nat, w: nat, next: Acc)
    requires a.wide.Some? && k < |times| && SunUp(a, e, times[k])
    requires Sums(a, e, times[..k], acc, h, w) && HasShape(acc.shLocal, h, w)
    requires SameShape(acc.shLocal, LocalShadow(a, e, times[k]))
    requires SameShape(LocalShadow(a, e, times[k]), WideFactor(a, e, times[k]))
    requires HasShape(CoarseShadow(a.wide.value, e, SunAt(a, e, times[k])), |a.wide.value.grid|, Cols(a.wide.value.grid))
    requires SameShape(acc.shtot, LocalShadow(a, e, times[k]))
    requires SameShape(acc.shWide, CoarseShadow(a.wide.value, e, SunAt(a, e, times[k])))
    requires next.count == acc.count + 1
    requires next.shtot == Add(acc.shtot, Mul(LocalShadow(a, e, times[k]), WideFactor(a, e, times[k])))
    requires next.shLocal == Add(Add(acc.shLocal, LocalShadow(a, e, times[k])), LocalShadow(a, e, times[k]))
    requires next.shWide == Add(acc.shWide, CoarseShadow(a.wide.value, e, SunAt(a, e, times[k])))
    ensures Sums(a, e, times[..k + 1], next, h, w)
  {
    var ts := times[..k];
    var sh, shW := LocalShadow(a, e, times[k]), CoarseShadow(a.wide.value, e, SunAt(a, e, times[k]));
    SameShapeHas(acc.shLocal, sh, h, w);
    RisenStep(a, e, times, k, h, w);
    CellMulIsMul(sh, WideFactor(a, e, times[k]), h, w);
    SumGridSnoc(CombinedShadows(a, e, ts, h, w), Combined(a, e, times[k], h, w), h, w);
    var s := SumGrid(LocalShadows(a, e, ts), h, w);
    SumGridSnoc(LocalShadows(a, e, ts), sh, h, w);
    TwiceAddTwice(s, sh);
    SumGridSnoc(CoarseShadows(a, e, ts), shW, |a.wide.value.grid|, Cols(a.wide.value.grid));
  }

  /** Step `k` of the loop: nothing happens while the sun is down. */
  function Step(a: ShadingArgs, e: Engines, times: seq<TimeParams>, k: nat, acc: Acc, h: nat, w: nat): (r: Result<Acc>)
    requires WellFormed(a) && ValidEngines(e)
    requires k < |times| && Inv(a, e, times, k, acc, h, w)
    ensures r.Ok? ==> Inv(a, e, times, k + 1, r.value, h, w)
    ensures !SunUp(a, e, times[k]) ==> r == Ok(acc)
  {
    if !SunUp(a, e, times[k]) then Ok(acc)
    else if a.wide.None? then LocalStep(a, e, times, k, acc, h, w)
    else WideStep(a, e, times, k, acc, h, w)
  }

  /** Steps `k..` of the loop over the day. */
  function Loop(a: ShadingArgs, e: Engines, times: seq<TimeParams>, k: nat, acc: Acc, h: nat, w: nat): (r: Result<Acc>)
    requires WellFormed(a) && ValidEngines(e)
    requires k <= |times| && Inv(a, e, times, k, acc, h, w)
    ensures r.Ok? ==> Inv(a, e, times, |times|, r.value, h, w)
    ensures a.wide.None? && HasShape(a.local, h, w) ==> r.Ok?
    ensures r.Err? ==> r.error == ShapeMismatch || r.error == ZeroDivision
    decreases |times| - k
  {
    if k == |times| then Ok(acc)
    else
      var next := Step(a, e, times, k, acc, h, w);
      if next.Err? then next else Loop(a, e, times, k + 1, next.value, h, w)
  }

  /**
   * A successful step extends the sums: a sun-down step adds nothing, and a
   * sun-up step adds its own grids, so the totals after step `k` are the sums
   * over the sun-up steps among the first `k + 1`.
   */
  lemma StepSums(a: ShadingArgs, e: Engines, times: seq<TimeParams>, k: nat, acc: Acc, h: nat, w: nat)
    requires WellFormed(a) && ValidEngines(e)
    requires k < |times| && Inv(a, e, times, k, acc, h, w) && Sums(a, e, times[..k], acc, h, w)
    requires Step(a, e, times, k, acc, h, w).Ok?
    ensures Sums(a, e, times[..k + 1], Step(a, e, times, k, acc, h, w).value, h, w)
  {
    var next := Step(a, e, times, k, acc, h, w).value;
    if !SunUp(a, e, times[k]) {
      QuietStep(a, e, times, k, h, w);
    } else if a.wide.None? {
      LocalSums(a, e, times, k, acc, next, h, w);
    } else {
      WideStepAdds(a, e, times, k, acc, h, w);
      WideSums(a, e, times, k, acc, h, w, next);
    }
  }

  /** After a successful loop from step `k`, the totals are the sums over all the sun-up steps of the day. */
  lemma {:induction false} LoopSums(a: ShadingArgs, e: Engines, times: seq<TimeParams>, k: nat, acc: Acc, h: nat, w: nat)
    requires WellFormed(a) && ValidEngines(e)
    requires k <= |times| && Inv(a, e, times, k, acc, h, w) && Sums(a, e, times[..k], acc, h, w)
    requires Loop(a, e, times, k, acc, h, w).Ok?
    ensures Sums(a, e, times, Loop(a, e, times, k, acc, h, w).value, h, w)
    decreases |times| - k
  {
    if k == |times| {
      assert times[..k] == times;
    } else {
      StepSums(a, e, times, k, acc, h, w);
      LoopSums(a, e, times, k + 1, Step(a, e, times, k, acc, h, w).value, h, w);
    }
  }

  /** A mean grid; numpy divides by a zero count into an all-NaN grid. */
  datatype Mean = AllNaN | Averaged(grid: Grid)

  function MeanOf(total: Grid, count: nat): (m: Mean)
    requires Rectangular(total)
    ensures m.AllNaN? <==> count == 0
  {
    if count == 0 then AllNaN else Averaged(Div(total, count as real))
  }

  /**
   * The result dictionary: the combined mean, the wide-area mean (absent
   * without the wide area), the local-only mean, the last zoomed and clipped
   * wide grids, and the steps that ran the shadow caster.
   */
  datatype ShadowResult = ShadowResult(
    shfinal: Mean, shwide: Option<Mean>, shlocal: Mean,
    zoomed: Option<Grid>, clipped: Option<Grid>, casterCalls: seq<nat>)

  /** The zero totals before the first step. */
  function Start(a: ShadingArgs, e: Engines, times: seq<TimeParams>, h: nat, w: nat): (acc: Acc)
    requires WellFormed(a)
    ensures Inv(a, e, times, 0, acc, h, w) && acc.calls == []
    ensures Sums(a, e, times[..0], acc, h, w)
  {
    var wideZeros :=
      if a.wide.Some? then
        SumGridEmpty(|a.wide.value.grid|, Cols(a.wide.value.grid));
        Zeros(|a.wide.value.grid|, Cols(a.wide.value.grid))
      else [];
    SumGridEmpty(h, w);
    TwiceZeros(h, w);
    Acc(Zeros(h, w), Zeros(h, w), wideZeros, 0, [], None, None)
  }

  /** The three means after the last step. */
  function Finish(a: ShadingArgs, acc: Acc, h: nat, w: nat): (r: ShadowResult)
    requires TotalsInv(a, acc, h, w) && acc.count == |acc.calls|
    ensures r.casterCalls == acc.calls
    ensures r.shfinal == MeanOf(acc.shtot, acc.count) && r.shlocal == MeanOf(acc.shLocal, acc.count)
    ensures a.wide.Some? ==> r.shwide == Some(MeanOf(acc.shWide, acc.count))
    ensures (r.shfinal.AllNaN? <==> |r.casterCalls| == 0) && (r.shlocal.AllNaN? <==> |r.casterCalls| == 0)
    ensures a.wide.None? ==> r.shlocal == r.shfinal && r.shwide.None?
    ensures a.wide.Some? ==> r.shwide.Some?
  {
    var n := acc.count;
    var shwide := if a.wide.Some? then Some(MeanOf(acc.shWide, n)) else None;
    ShadowResult(MeanOf(acc.shtot, n), shwide, MeanOf(acc.shLocal, n), acc.zoomed, acc.clipped, acc.calls)
  }

  /** Every mean is an average of values in [0, 1] per step (two per step for the wide run's local-only total). */
  lemma FinishBounded(a: ShadingArgs, acc: Acc, h: nat, w: nat)
    requires TotalsInv(a, acc, h, w) && acc.count == |acc.calls|
    ensures Finish(a, acc, h, w).shfinal.Averaged? ==>
              HasShape(Finish(a, acc, h, w).shfinal.grid, h, w) && Bounded(Finish(a, acc, h, w).shfinal.grid, 0.0, 1.0)
    ensures a.wide.Some? && Finish(a, acc, h, w).shlocal.Averaged? ==>
              Bounded(Finish(a, acc, h, w).shlocal.grid, 0.0, 2.0)
    ensures a.wide.Some? && Finish(a, acc, h, w).shwide.value.Averaged? ==>
              Bounded(Finish(a, acc, h, w).shwide.value.grid, 0.0, 1.0)
  {
    var n := acc.count;
    MeanInRange(acc.shtot, n, h, w, 1.0, n as real);
    if a.wide.Some? {
      var wide := a.wide.value.grid;
      MeanInRange(acc.shLocal, n, h, w, 2.0, 2.0 * n as real);
      MeanInRange(acc.shWide, n, |wide|, Cols(wide), 1.0, n as real);
    }
  }

  /** The mean of a total bounded by `c` per step lies in `[0, c]` and keeps the total's shape. */
  lemma MeanInRange(total: Grid, count: nat, h: nat, w: nat, c: real, bound: real)
    requires HasShape(total, h, w) && bound == c * count as real && Bounded(total, 0.0, bound)
    ensures MeanOf(total, count).Averaged? ==>
              HasShape(MeanOf(total, count).grid, h, w) && Bounded(MeanOf(total, count).grid, 0.0, c)
  {
    if count > 0 {
      DivBounded(total, c, count as real);
    }
  }

  /** The loop over the day's steps from zero totals, then the means. */
  function RunDay(a: ShadingArgs, e: Engines, times: seq<TimeParams>, h: nat, w: nat): (r: Result<ShadowResult>)
    requires WellFormed(a) && ValidEngines(e)
    ensures a.wide.None? && HasShape(a.local, h, w) ==> r.Ok?
    ensures r.Ok? ==>
              var acc := Loop(a, e, times, 0, Start(a, e, times, h, w), h, w);
              acc.Ok? && Inv(a, e, times, |times|, acc.value, h, w) && r.value == Finish(a, acc.value, h, w)
    ensures r.Ok? ==>
              |r.value.casterCalls| == |LocalShadows(a, e, times)|
              && r.value.shfinal == MeanOf(CombinedTotal(a, e, times, h, w), |r.value.casterCalls|)
              && r.value.shlocal == MeanOf(LocalOnlyTotal(a, e, times, h, w), |r.value.casterCalls|)
              && (a.wide.Some? ==> r.value.shwide == Some(MeanOf(WideTotal(a, e, times), |r.value.casterCalls|)))
  {
    var acc :- Loop(a, e, times, 0, Start(a, e, times, h, w), h, w);
    LoopSums(a, e, times, 0, Start(a, e, times, h, w), h, w);
    Ok(Finish(a, acc, h, w))
  }

  /** `dailyshading`. */
  function Run(a: ShadingArgs, e: Engines): (r: Result<ShadowResult>)
    requires WellFormed(a) && ValidEngines(e)
    ensures a.localExtent.height < 0 || a.localExtent.width < 0 ==> r == Err(NegativeDimension)
    ensures a.localExtent.height >= 0 && a.localExtent.width >= 0 ==>
              if StepTimes(a).Err? then r.Err?
              else r == RunDay(a, e, StepTimes(a).value, a.localExtent.height, a.localExtent.width)
  {
    if a.localExtent.height < 0 || a.localExtent.width < 0 then Err(NegativeDimension)
    else
      var times :- StepTimes(a);
      RunDay(a, e, times, a.localExtent.height, a.localExtent.width)
  }

  /**
   * What a successful run promises: the caster ran on exactly the sun-up
   * steps of the day's schedule; the combined mean is the sum of their local
   * grids (each times its wide-area factor in wide-area mode) divided by
   * their number, the local-only mean the sum of their local grids (twice in
   * wide-area mode) divided by it, and the wide mean the sum of their coarse
   * grids divided by it; with no sun-up step every mean is NaN. The combined
   * mean then has the local extent's shape and lies in [0, 1]; without the
   * wide area the local-only mean is the combined mean.
   */
  lemma RunOutcome(a: ShadingArgs, e: Engines)
    requires WellFormed(a) && ValidEngines(e) && Run(a, e).Ok?
    ensures StepTimes(a).Ok? && a.localExtent.height >= 0 && a.localExtent.width >= 0
    ensures CallsAreSunUpSteps(a, e, StepTimes(a).value, |StepTimes(a).value|, Run(a, e).value.casterCalls)
    ensures RunMeans(a, e, Run(a, e).value)
    ensures Run(a, e).value.shfinal.AllNaN? <==> |Run(a, e).value.casterCalls| == 0
    ensures Run(a, e).value.shlocal.AllNaN? <==> |Run(a, e).value.casterCalls| == 0
    ensures Run(a, e).value.shfinal.Averaged? ==>
              HasShape(Run(a, e).value.shfinal.grid, a.localExtent.height, a.localExtent.width)
              && Bounded(Run(a, e).value.shfinal.grid, 0.0, 1.0)
    ensures a.wide.None? ==> Run(a, e).value.shlocal == Run(a, e).value.shfinal && Run(a, e).value.shwide.None?
    ensures a.wide.Some? ==> Run(a, e).value.shwide.Some?
    ensures a.wide.Some? && Run(a, e).value.shlocal.Averaged? ==> Bounded(Run(a, e).value.shlocal.grid, 0.0, 2.0)
    ensures a.wide.Some? && Run(a, e).value.shwide.value.Averaged? ==>
              Bounded(Run(a, e).value.shwide.value.grid, 0.0, 1.0)
  {
    var h: nat, w: nat := a.localExtent.height, a.localExtent.width;
    var times := StepTimes(a).value;
    var acc := Loop(a, e, times, 0, Start(a, e, times, h, w), h, w).value;
    assert Run(a, e).value == Finish(a, acc, h, w);
    FinishBounded(a, acc, h, w);
  }

  /**
   * The means of a successful run `r` over the day's schedule: the sums of
   * the sun-up steps' grids divided by the number of those steps, which is
   * the number of caster calls.
   */
  predicate RunMeans(a: ShadingArgs, e: Engines, r: ShadowResult)
  {
    StepTimes(a).Ok? && a.localExtent.height >= 0 && a.localExtent.width >= 0
    && var ts, h, w := StepTimes(a).value, a.localExtent.height, a.localExtent.width;
    |r.casterCalls| == |LocalShadows(a, e, ts)|
    && r.shfinal == MeanOf(CombinedTotal(a, e, ts, h, w), |r.casterCalls|)
    && r.shlocal == MeanOf(LocalOnlyTotal(a, e, ts, h, w), |r.casterCalls|)
    && (a.wide.Some? ==> r.shwide == Some(MeanOf(WideTotal(a, e, ts), |r.casterCalls|)))
  }

  /** A successful run's means are the averaged sums. */
  lemma RunIsMeans(a: ShadingArgs, e: Engines)
    requires WellFormed(a) && ValidEngines(e) && Run(a, e).Ok?
    ensures RunMeans(a, e, Run(a, e).value)
  {
  }

  /** `2 * g`. */
  function Twice(g: Grid): (r: Grid)
    requires Rectangular(g)
    ensures HasShape(r, |g|, Cols(g)) && Rectangular(r)
  {
    Map1(g, x => 2.0 * x)
  }

  /**
   * The wide-area run adds every sun-up local grid to the local-only total
   * twice: its local-only mean is exactly twice the mean of the same run
   * without the wide area, whose result equals its combined mean.
   */
  lemma WideDoublesLocalMean(a: ShadingArgs, e: Engines)
    requires WellFormed(a) && ValidEngines(e) && a.wide.Some?
    requires Run(a, e).Ok?
    ensures Run(a.(wide := None), e).Ok?
    ensures Run(a.(wide := None), e).value.casterCalls == Run(a, e).value.casterCalls
    ensures Run(a, e).value.shlocal.Averaged? ==>
              Run(a.(wide := None), e).value.shlocal.Averaged? &&
              Run(a, e).value.shlocal.grid == Twice(Run(a.(wide := None), e).value.shlocal.grid)
  {
    var b := a.(wide := None);
    assert SiteOf(a) == SiteOf(b) && StepTimes(a) == StepTimes(b);
    var h: nat, w: nat := a.localExtent.height, a.localExtent.width;
    var times := StepTimes(a).value;
    var accA, accB := Start(a, e, times, h, w), Start(b, e, times, h, w);
    LoopsAlike(a, b, e, times, 0, accA, accB, h, w);
    RunIsMeans(a, e);
    RunIsMeans(b, e);
    LocalShadowsIgnoreWide(a, b, e, times);
    var n := |Run(a, e).value.casterCalls|;
    if n > 0 {
      TwiceDiv(SumGrid(LocalShadows(a, e, times), h, w), n as real);
    }
  }

  /** The local caster grids do not depend on the wide-area input. */
  lemma {:induction false} LocalShadowsIgnoreWide(a: ShadingArgs, b: ShadingArgs, e: Engines, ts: seq<TimeParams>)
    requires b == a.(wide := None)
    ensures LocalShadows(a, e, ts) == LocalShadows(b, e, ts)
    decreases |ts|
  {
    assert SiteOf(a) == SiteOf(b);
    if |ts| > 0 {
      LocalShadowsIgnoreWide(a, b, e, ts[..|ts| - 1]);
    }
  }

  lemma TwiceZeros(h: nat, w: nat)
    ensures Twice(Zeros(h, w)) == Zeros(h, w)
  {
    GridExt(Twice(Zeros(h, w)), Zeros(h, w));
  }

  lemma TwiceDiv(g: Grid, k: real)
    requires Rectangular(g) && k != 0.0
    ensures Div(Twice(g), k) == Twice(Div(g, k))
  {
    GridExt(Div(Twice(g), k), Twice(Div(g, k)));
  }

  lemma TwiceAddTwice(l: Grid, sh: Grid)
    requires SameShape(l, sh)
    ensures SameShape(Twice(l), sh)
    ensures Add(Add(Twice(l), sh), sh) == Twice(Add(l, sh))
  {
    var lhs := Add(Add(Twice(l), sh), sh);
    GridExt(lhs, Twice(Add(l, sh)));
  }

  /**
   * Run side by side, the wide-area loop and the local-only loop call the
   * caster on the same steps, and the local-only loop succeeds whenever the
   * wide-area one does.
   */
  lemma {:induction false} LoopsAlike(a: ShadingArgs, b: ShadingArgs, e: Engines, times: seq<TimeParams>,
                                      k: nat, accA: Acc, accB: Acc, h: nat, w: nat)
    requires WellFormed(a) && ValidEngines(e) && a.wide.Some? && b == a.(wide := None)
    requires k <= |times| && Inv(a, e, times, k, accA, h, w) && Inv(b, e, times, k, accB, h, w)
    requires accA.calls == accB.calls
    requires Loop(a, e, times, k, accA, h, w).Ok?
    ensures Loop(b, e, times, k, accB, h, w).Ok?
    ensures Loop(a, e, times, k, accA, h, w).value.calls == Loop(b, e, times, k, accB, h, w).value.calls
    decreases |times| - k
  {
    assert SiteOf(a) == SiteOf(b);
    assert WellFormed(b);
    if k < |times| {
      StepsAlike(a, b, e, times, k, accA, accB, h, w);
      var na := Step(a, e, times, k, accA, h, w);
      var nb := Step(b, e, times, k, accB, h, w);
      LoopsAlike(a, b, e, times, k + 1, na.value, nb.value, h, w);
    }
  }

  /** One step of the side-by-side run: both succeed and call alike. */
  lemma StepsAlike(a: ShadingArgs, b: ShadingArgs, e: Engines, times: seq<TimeParams>,
                   k: nat, accA: Acc, accB: Acc, h: nat, w: nat)
    requires WellFormed(a) && WellFormed(b) && ValidEngines(e) && a.wide.Some? && b == a.(wide := None)
    requires SiteOf(a) == SiteOf(b)
    requires k < |times| && Inv(a, e, times, k, accA, h, w) && Inv(b, e, times, k, accB, h, w)
    requires accA.calls == accB.calls
    requires Step(a, e, times, k, accA, h, w).Ok?
    ensures Step(b, e, times, k, accB, h, w).Ok?
    ensures Step(a, e, times, k, accA, h, w).value.calls == Step(b, e, times, k, accB, h, w).value.calls
  {
    assert SunAt(a, e, times[k]) == SunAt(b, e, times[k]);
    if SunUp(a, e, times[k]) {
      WideOkLocalOk(a, b, e, times, k, accA, accB, h, w);
    }
  }

  /** Where the wide-area step succeeds, so does the local-only one: the caster grid has the local shape. */
  lemma WideOkLocalOk(a: ShadingArgs, b: ShadingArgs, e: Engines, times: seq<TimeParams>,
                      k: nat, accA: Acc, accB: Acc, h: nat, w: nat)
    requires WellFormed(a) && WellFormed(b) && ValidEngines(e) && a.wide.Some? && b == a.(wide := None)
    requires k < |times| && SunUp(a, e, times[k]) && SunUp(b, e, times[k])
    requires LocalShadow(a, e, times[k]) == LocalShadow(b, e, times[k])
    requires Inv(a, e, times, k, accA, h, w) && Inv(b, e, times, k, accB, h, w)
    requires WideStep(a, e, times, k, accA, h, w).Ok?
    ensures LocalStep(b, e, times, k, accB, h, w).Ok?
  {
    var sun := SunAt(a, e, times[k]);
    var sh := LocalShadow(a, e, times[k]);
    ShadowFits(e, a.local, sun.azimuth, sun.altitude, a.scale);
    SameShapeHas(accA.shLocal, sh, h, w);
  }
}

=== FILE: dsm_preprocess.dfy ===
/**
 * The raster pre-processing both the shadow generator and SEBE apply to a
 * digital surface model: nodata cells become 0, the grid is lifted by the
 * magnitude of its minimum when that minimum is negative, and the GDAL
 * geotransform gives the pixel scale and the reference corner.
 */
module DsmPreprocess {
  import opened Common
  import opened Grids

  /** GDAL's affine geotransform `(gt[0], ..., gt[5])`. */
  datatype GeoTransform = GeoTransform(g0: real, g1: real, g2: real, g3: real, g4: real, g5: real)

  /** A raster as GDAL opens it: band 1 cells, its nodata value (if any), size and geotransform. */
  datatype RasterSource = RasterSource(cells: Grid, nodata: Option<real>, xSize: int, ySize: int, gt: GeoTransform)

  /** Cell value after `dsm[dsm == nd] = 0`; a band without nodata value matches no cell. */
  function ZeroIfNodata(x: real, nd: Option<real>): real
  {
    if nd.Some? && x == nd.value then 0.0 else x
  }

  /** `dsm[dsm == nd] = 0.`, applied in place to the caller's array. */
  function ZeroNodata(g: Grid, nd: Option<real>): (r: Grid)
    requires Rectangular(g)
    ensures HasShape(r, |g|, Cols(g))
    // no nodata cell survives (unless the nodata value is 0 itself) and other cells are untouched
    ensures forall i, j | 0 <= i < |g| && 0 <= j < Cols(g) ::
              (nd.Some? && g[i][j] == nd.value ==> r[i][j] == 0.0) &&
              (nd.None? || g[i][j] != nd.value ==> r[i][j] == g[i][j])
  {
    Map1(g, x => ZeroIfNodata(x, nd))
  }

  /** Zeroing nodata twice changes nothing more. */
  lemma ZeroNodataIdempotent(g: Grid, nd: Option<real>)
    requires Rectangular(g)
    ensures ZeroNodata(ZeroNodata(g, nd), nd) == ZeroNodata(g, nd)
  {
    var once := ZeroNodata(g, nd);
    GridExt(ZeroNodata(once, nd), once);
  }

  /**
   * `if dsm.min() < 0: dsm = dsm + np.abs(dsm.min())`; `min()` of a
   * zero-size array fails.
   */
  function ShiftByMin(g: Grid): (r: Result<Grid>)
    requires Rectangular(g)
    ensures r.Ok? <==> |Flatten(g)| > 0
    ensures r.Err? ==> r.error == EmptyReduction
    ensures r.Ok? ==> HasShape(r.value, |g|, Cols(g))
    ensures r.Ok? ==> forall i, j | 0 <= i < |g| && 0 <= j < Cols(g) :: r.value[i][j] >= 0.0
    ensures r.Ok? && GridMin(g).value >= 0.0 ==> r.value == g
    ensures r.Ok? && GridMin(g).value < 0.0 ==>
              (forall i, j | 0 <= i < |g| && 0 <= j < Cols(g) :: r.value[i][j] == g[i][j] - GridMin(g).value)
              && 0.0 in Flatten(r.value)
  {
    var m :- GridMin(g);
    if m >= 0.0 then Ok(g)
    else
      var lifted := Map1(g, x => x + Abs(m));
      ShiftHitsZero(g, m, lifted);
      Ok(lifted)
  }

  lemma ShiftHitsZero(g: Grid, m: real, lifted: Grid)
    requires Rectangular(g) && m in Flatten(g) && m < 0.0
    requires HasShape(lifted, |g|, Cols(g))
    requires forall i, j | 0 <= i < |g| && 0 <= j < Cols(g) :: lifted[i][j] == g[i][j] + Abs(m)
    ensures 0.0 in Flatten(lifted)
  {
    FlattenMembers(g);
    var i, j :| 0 <= i < |g| && 0 <= j < |g[i]| && m == g[i][j];
    assert lifted[i][j] == 0.0;
  }

  /** `1 / gt[1]`: metres per pixel inverted. */
  function Scale(gt: GeoTransform): (r: Result<real>)
    ensures r.Err? <==> gt.g1 == 0.0
    ensures r.Err? ==> r.error == ZeroDivision
    ensures r.Ok? ==> r.value * gt.g1 == 1.0
  {
    if gt.g1 == 0.0 then Err(ZeroDivision) else Ok(1.0 / gt.g1)
  }

  /**
   * The reference corner `(gt[0], gt[3] + width·gt[4] + height·gt[5])`: the
   * image's left edge and the ground y reached after `width` columns and
   * `height` rows.
   */
  function Corner(gt: GeoTransform, width: int, height: int): (r: (real, real))
    ensures r.0 == gt.g0
    ensures r.1 == gt.g3 + width as real * gt.g4 + height as real * gt.g5
  {
    (gt.g0, gt.g3 + width as real * gt.g4 + height as real * gt.g5)
  }

  /**
   * For a north-up raster (no rotation, rows going south) the corner is the
   * lower-left one: `height` pixel heights below the top edge.
   */
  lemma CornerIsLowerLeft(gt: GeoTransform, width: int, height: nat)
    requires gt.g4 == 0.0 && gt.g5 < 0.0
    ensures Corner(gt, width, height).1 == gt.g3 - height as real * -gt.g5
    ensures Corner(gt, width, height).1 <= gt.g3
  {
  }
}

=== FILE: features.dfy ===
/**
 * Vector-layer features as the result steps see them: an optional
 * geometry and one attribute value per field of the layer, read and
 * written by field name, and rendered as one line of the CSV output.
 */
module Features {
  import opened Common
  import Csv

  /** An attribute value: the QVariant kinds the steps write. */
  datatype Value = IntV(i: int) | RealV(r: real) | TextV(s: string) | NullV

  /** What the steps use of a polygon: its planar area and the centroid the host computes. */
  datatype Geometry = Geometry(area: real, centroid: (real, real))

  /** A feature; a missing geometry is the null geometry that tests false. */
  datatype Feature = Feature(geometry: Option<Geometry>, attrs: seq<Value>)

  /** The feature carries one value for each of the layer's fields. */
  predicate Fits(fields: seq<string>, f: Feature)
  {
    |f.attrs| == |fields|
  }

  /** `fields.indexFromName(name)`: the first field of that name. */
  function FieldIndex(fields: seq<string>, name: string): (r: Option<nat>)
    ensures r.None? <==> name !in fields
    ensures r.Some? ==> r.value < |fields| && fields[r.value] == name &&
                        forall m | 0 <= m < r.value :: fields[m] != name
  {
    if |fields| == 0 then None
    else if fields[0] == name then Some(0)
    else
      var r := FieldIndex(fields[1..], name);
      assert forall m | 1 <= m < |fields| :: fields[m] == fields[1..][m - 1];
      if r.None? then None else Some(r.value + 1)
  }

  /** `feature[name]`, a KeyError for a field the layer lacks. */
  function Get(fields: seq<string>, f: Feature, name: string): (r: Result<Value>)
    requires Fits(fields, f)
    ensures r.Err? <==> name !in fields
    ensures r.Err? ==> r.error == MissingAttribute(name)
    ensures r.Ok? ==> r.value == f.attrs[FieldIndex(fields, name).value]
  {
    match FieldIndex(fields, name)
    case None => Err(MissingAttribute(name))
    case Some(k) => Ok(f.attrs[k])
  }

  /** `feature[name] = v`, a KeyError for a field the layer lacks. */
  function Set(fields: seq<string>, f: Feature, name: string, v: Value): (r: Result<Feature>)
    requires Fits(fields, f)
    ensures r.Err? <==> name !in fields
    ensures r.Err? ==> r.error == MissingAttribute(name)
    ensures r.Ok? ==> Fits(fields, r.value) && r.value.geometry == f.geometry
  {
    match FieldIndex(fields, name)
    case None => Err(MissingAttribute(name))
    case Some(k) => Ok(f.(attrs := f.attrs[k := v]))
  }

  /** Reading a field back gives what was written to it, and every other field is unchanged. */
  lemma GetAfterSet(fields: seq<string>, f: Feature, name: string, v: Value, other: string)
    requires Fits(fields, f) && name in fields
    ensures Get(fields, Set(fields, f, name, v).value, name) == Ok(v)
    ensures other != name ==> Get(fields, Set(fields, f, name, v).value, other) == Get(fields, f, other)
  {
    var k := FieldIndex(fields, name).value;
    if other != name && other in fields {
      assert FieldIndex(fields, other).value != k;
    }
  }

  /** With distinct field names, each name is found at its own position. */
  lemma IndexOfDistinct(fields: seq<string>, k: nat)
    requires k < |fields|
    requires forall a, b | 0 <= a < b < |fields| :: fields[a] != fields[b]
    ensures FieldIndex(fields, fields[k]) == Some(k)
  {
    var m := FieldIndex(fields, fields[k]).value;
    assert !(m < k) && !(k < m);
  }

  /** The values `feature[name] for name in fieldNames`. */
  function Row(fields: seq<string>, f: Feature): (vs: seq<Value>)
    requires Fits(fields, f)
    ensures |vs| == |fields|
    ensures forall k | 0 <= k < |fields| :: Get(fields, f, fields[k]) == Ok(vs[k])
  {
    seq(|fields|, k requires 0 <= k < |fields| => f.attrs[FieldIndex(fields, fields[k]).value])
  }

  /** With distinct field names the row is exactly the attribute list. */
  lemma RowOfDistinctFields(fields: seq<string>, f: Feature)
    requires Fits(fields, f)
    requires forall a, b | 0 <= a < b < |fields| :: fields[a] != fields[b]
    ensures Row(fields, f) == f.attrs
  {
    forall k | 0 <= k < |fields| ensures FieldIndex(fields, fields[k]) == Some(k) {
      IndexOfDistinct(fields, k);
    }
  }

  /** The header line: the field names joined by commas. */
  function Header(fields: seq<string>): string
  {
    Csv.Line(fields)
  }

  /** A feature's CSV line, each value rendered by `show` (Python's `str`). */
  function CsvLine(fields: seq<string>, f: Feature, show: Value -> string): (s: string)
    requires Fits(fields, f)
  {
    var vs := Row(fields, f);
    Csv.Line(seq(|vs|, k requires 0 <= k < |vs| => show(vs[k])))
  }

  /** Without commas in the names, the header parses back into the field names. */
  lemma HeaderParses(fields: seq<string>)
    requires |fields| >= 1 && forall k | 0 <= k < |fields| :: ',' !in fields[k]
    ensures var s := Header(fields); Csv.Split(s[..|s| - 1], ',') == fields
  {
    Csv.SplitJoin(fields, ',');
  }

  /**
   * When no rendered value holds a comma, the line parses back into one
   * field per header name, holding the rendered value of that field.
   */
  lemma CsvLineParses(fields: seq<string>, f: Feature, show: Value -> string)
    requires Fits(fields, f) && |fields| >= 1
    requires forall k | 0 <= k < |fields| :: ',' !in show(f.attrs[k])
    ensures var s := CsvLine(fields, f, show); |Csv.Split(s[..|s| - 1], ',')| == |fields|
    ensures var s := CsvLine(fields, f, show);
            forall k | 0 <= k < |fields| :: Csv.Split(s[..|s| - 1], ',')[k] == show(Row(fields, f)[k])
  {
    var vs := Row(fields, f);
    var shown := seq(|vs|, k requires 0 <= k < |vs| => show(vs[k]));
    forall k | 0 <= k < |fields| ensures ',' !in shown[k] {
      assert vs[k] == f.attrs[FieldIndex(fields, fields[k]).value];
    }
    Csv.SplitJoin(shown, ',');
  }
}

=== FILE: grids.dfy ===
/**
 * Numeric grids as numpy holds them: row-major sequences of rows of reals,
 * with the elementwise operations and reductions the shading and solar code
 * applies to them.
 */
module Grids {
  import opened Common

  type Grid = seq<seq<real>>

  /** `g` has shape `(rows, cols)`. */
  predicate HasShape(g: Grid, rows: nat, cols: nat)
  {
    |g| == rows && forall i | 0 <= i < |g| :: |g[i]| == cols
  }

  function Cols(g: Grid): nat
  {
    if |g| == 0 then 0 else |g[0]|
  }

  predicate Rectangular(g: Grid)
  {
    HasShape(g, |g|, Cols(g))
  }

  predicate SameShape(a: Grid, b: Grid)
  {
    Rectangular(a) && Rectangular(b) && |a| == |b| && Cols(a) == Cols(b)
  }

  /** Every cell of `g` lies in `[lo, hi]`. */
  predicate Bounded(g: Grid, lo: real, hi: real)
  {
    forall i, j | 0 <= i < |g| && 0 <= j < |g[i]| :: lo <= g[i][j] <= hi
  }

  /** `np.zeros((rows, cols))`. */
  function Zeros(rows: nat, cols: nat): (r: Grid)
    ensures HasShape(r, rows, cols) && Bounded(r, 0.0, 0.0)
  {
    seq(rows, _ => seq(cols, _ => 0.0))
  }

  function Map2(a: Grid, b: Grid, f: (real, real) -> real): (r: Grid)
    requires SameShape(a, b)
    ensures HasShape(r, |a|, Cols(a))
    ensures forall i, j | 0 <= i < |a| && 0 <= j < Cols(a) :: r[i][j] == f(a[i][j], b[i][j])
  {
    seq(|a|, i requires 0 <= i < |a| => seq(Cols(a), j requires 0 <= j < Cols(a) => f(a[i][j], b[i][j])))
  }

  function Map1(a: Grid, f: real -> real): (r: Grid)
    requires Rectangular(a)
    ensures HasShape(r, |a|, Cols(a))
    ensures forall i, j | 0 <= i < |a| && 0 <= j < Cols(a) :: r[i][j] == f(a[i][j])
  {
    seq(|a|, i requires 0 <= i < |a| => seq(Cols(a), j requires 0 <= j < Cols(a) => f(a[i][j])))
  }

  /** numpy `a + b` on equal shapes. */
  function Add(a: Grid, b: Grid): (r: Grid)
    requires SameShape(a, b)
    ensures HasShape(r, |a|, Cols(a))
    ensures forall i, j | 0 <= i < |a| && 0 <= j < Cols(a) :: r[i][j] == a[i][j] + b[i][j]
  {
    Map2(a, b, (x, y) => x + y)
  }

  /** numpy `a * b` on equal shapes. */
  function Mul(a: Grid, b: Grid): (r: Grid)
    requires SameShape(a, b)
    ensures HasShape(r, |a|, Cols(a))
    ensures forall i, j | 0 <= i < |a| && 0 <= j < Cols(a) :: r[i][j] == a[i][j] * b[i][j]
  {
    Map2(a, b, (x, y) => x * y)
  }

  /** numpy `a / k` for a non-zero scalar. */
  function Div(a: Grid, k: real): (r: Grid)
    requires Rectangular(a) && k != 0.0
    ensures HasShape(r, |a|, Cols(a))
    ensures forall i, j | 0 <= i < |a| && 0 <= j < Cols(a) :: r[i][j] == a[i][j] / k
  {
    Map1(a, x => x / k)
  }

  /** Grids of the same shape that agree cell by cell are equal. */
  lemma GridExt(a: Grid, b: Grid)
    requires SameShape(a, b)
    requires forall i, j | 0 <= i < |a| && 0 <= j < Cols(a) :: a[i][j] == b[i][j]
    ensures a == b
  {
    forall i | 0 <= i < |a| ensures a[i] == b[i] {
      assert |a[i]| == |b[i]| == Cols(a);
    }
  }

  /** A grid with the shape of an `(h, w)` grid has that shape. */
  lemma SameShapeHas(a: Grid, b: Grid, h: nat, w: nat)
    requires HasShape(a, h, w) && SameShape(a, b)
    ensures HasShape(b, h, w)
  {
    if h > 0 {
      assert Cols(b) == Cols(a) == |a[0]| == w;
    }
  }

  /** Cell `(i, j)` of `g`, and 0 outside it. */
  function Cell(g: Grid, i: nat, j: nat): real
  {
    if i < |g| && j < |g[i]| then g[i][j] else 0.0
  }

  /** The sum over the grids `gs` of their cell `(i, j)`. */
  function CellSum(gs: seq<Grid>, i: nat, j: nat): real
  {
    if |gs| == 0 then 0.0 else CellSum(gs[..|gs| - 1], i, j) + Cell(gs[|gs| - 1], i, j)
  }

  /**
   * The `(h, w)` grid whose every cell is the sum of that cell over `gs`:
   * the reference for a numpy running total started from `np.zeros((h, w))`.
   */
  function SumGrid(gs: seq<Grid>, h: nat, w: nat): (r: Grid)
    ensures HasShape(r, h, w) && Rectangular(r)
    ensures forall i, j | 0 <= i < h && 0 <= j < w :: r[i][j] == CellSum(gs, i, j)
  {
    seq(h, i requires 0 <= i < h => seq(w, j requires 0 <= j < w => CellSum(gs, i, j)))
  }

  /** Nothing summed yet is the grid of zeros. */
  lemma SumGridEmpty(h: nat, w: nat)
    ensures SumGrid([], h, w) == Zeros(h, w)
  {
    GridExt(SumGrid([], h, w), Zeros(h, w));
  }

  /** Adding one more `(h, w)` grid to the running total is summing it with the others. */
  lemma SumGridSnoc(gs: seq<Grid>, g: Grid, h: nat, w: nat)
    requires HasShape(g, h, w)
    ensures SameShape(SumGrid(gs, h, w), g)
    ensures SumGrid(gs + [g], h, w) == Add(SumGrid(gs, h, w), g)
  {
    var s := SumGrid(gs, h, w);
    assert (gs + [g])[..|gs|] == gs;
    assert h > 0 ==> Cols(g) == w;
    GridExt(SumGrid(gs + [g], h, w), Add(s, g));
  }

  /** The cellwise product of `a` and `b` over an `(h, w)` window, 0 outside either grid. */
  function CellMul(a: Grid, b: Grid, h: nat, w: nat): (r: Grid)
    ensures HasShape(r, h, w)
  {
    seq(h, i requires 0 <= i < h => seq(w, j requires 0 <= j < w => Cell(a, i, j) * Cell(b, i, j)))
  }

  /** On two `(h, w)` grids the cellwise product is numpy's `a * b`. */
  lemma CellMulIsMul(a: Grid, b: Grid, h: nat, w: nat)
    requires HasShape(a, h, w) && SameShape(a, b)
    ensures CellMul(a, b, h, w) == Mul(a, b)
  {
    SameShapeHas(a, b, h, w);
    var c, m := CellMul(a, b, h, w), Mul(a, b);
    forall i, j | 0 <= i < h && 0 <= j < w ensures c[i][j] == m[i][j] {
      assert Cell(a, i, j) == a[i][j] && Cell(b, i, j) == b[i][j];
    }
    assert h > 0 ==> Cols(a) == w;
    GridExt(c, m);
  }

  lemma AddBounded(a: Grid, b: Grid, ca: real, cb: real)
    requires SameShape(a, b) && Bounded(a, 0.0, ca) && Bounded(b, 0.0, cb)
    ensures Bounded(Add(a, b), 0.0, ca + cb)
  {
  }

  lemma MulBounded(a: Grid, b: Grid)
    requires SameShape(a, b) && Bounded(a, 0.0, 1.0) && Bounded(b, 0.0, 1.0)
    ensures Bounded(Mul(a, b), 0.0, 1.0)
  {
    var r := Mul(a, b);
    forall i, j | 0 <= i < |r| && 0 <= j < |r[i]| ensures 0.0 <= r[i][j] <= 1.0 {
      var x, y := a[i][j], b[i][j];
      assert 0.0 <= x * y;
      assert x * y <= 1.0 * y;
    }
  }

  lemma DivBounded(a: Grid, c: real, k: real)
    requires Rectangular(a) && k > 0.0 && Bounded(a, 0.0, c * k)
    ensures Bounded(Div(a, k), 0.0, c)
  {
    var r := Div(a, k);
    forall i, j | 0 <= i < |r| && 0 <= j < |r[i]| ensures 0.0 <= r[i][j] <= c {
      var x := a[i][j];
      assert r[i][j] == x / k;
      assert x / k * k == x;
    }
  }

  /** All cells of `g`, row after row (numpy's flattening order). */
  function Flatten(g: Grid): (r: seq<real>)
    ensures forall i, j | 0 <= i < |g| && 0 <= j < |g[i]| :: g[i][j] in r
    ensures Rectangular(g) ==> |r| == |g| * Cols(g)
  {
    if |g| == 0 then []
    else
      var init := g[..|g| - 1];
      var r := Flatten(init) + g[|g| - 1];
      assert forall i | 0 <= i < |g| - 1 :: init[i] == g[i];
      assert Rectangular(g) ==> Rectangular(init) && (|init| > 0 ==> Cols(init) == Cols(g));
      assert |g| * Cols(g) == (|g| - 1) * Cols(g) + Cols(g);
      r
  }

  /** Every flattened value is a cell of the grid. */
  lemma {:induction false} FlattenMembers(g: Grid)
    ensures forall x | x in Flatten(g) :: exists i, j | 0 <= i < |g| && 0 <= j < |g[i]| :: x == g[i][j]
  {
    if |g| > 0 {
      var init := g[..|g| - 1];
      FlattenMembers(init);
      assert forall i | 0 <= i < |g| - 1 :: init[i] == g[i];
      assert Flatten(g) == Flatten(init) + g[|g| - 1];
      forall x | x in Flatten(g) ensures exists i, j | 0 <= i < |g| && 0 <= j < |g[i]| :: x == g[i][j] {
        if x in Flatten(init) {
          var i, j :| 0 <= i < |init| && 0 <= j < |init[i]| && x == init[i][j];
          assert x == g[i][j];
        } else {
          var j :| 0 <= j < |g[|g| - 1]| && x == g[|g| - 1][j];
          assert x == g[|g| - 1][j];
        }
      }
    }
  }

  /** Smallest element of a non-empty sequence. */
  function MinOf(s: seq<real>): (m: real)
    requires |s| > 0
    ensures m in s && forall x | x in s :: m <= x
  {
    if |s| == 1 then s[0]
    else
      var rest := MinOf(s[1..]);
      assert s == [s[0]] + s[1..];
      if s[0] <= rest then s[0] else rest
  }

  /** `g.min()`: a reduction that fails on a zero-size array. */
  function GridMin(g: Grid): (r: Result<real>)
    ensures r.Ok? <==> |Flatten(g)| > 0
    ensures r.Ok? ==> r.value in Flatten(g) && forall x | x in Flatten(g) :: r.value <= x
    ensures r.Err? ==> r.error == EmptyReduction
  {
    var f := Flatten(g);
    if |f| == 0 then Err(EmptyReduction) else Ok(MinOf(f))
  }

  predicate SortedAsc(s: seq<real>)
  {
    forall i, j | 0 <= i < j < |s| :: s[i] <= s[j]
  }

  function InsertAsc(x: real, s: seq<real>): (r: seq<real>)
    requires SortedAsc(s)
    ensures SortedAsc(r) && multiset(r) == multiset(s) + multiset{x}
  {
    if |s| == 0 then [x]
    else if x <= s[0] then [x] + s
    else
      var t := InsertAsc(x, s[1..]);
      assert s == [s[0]] + s[1..];
      LowerBound(s[0], s[1..], x, t);
      ConsSorted(s[0], t);
      [s[0]] + t
  }

  /** A bound below `x` and below every element of `s` is below every element of `s` with `x` added. */
  lemma LowerBound(lo: real, s: seq<real>, x: real, t: seq<real>)
    requires lo <= x && (forall k | 0 <= k < |s| :: lo <= s[k])
    requires multiset(t) == multiset(s) + multiset{x}
    ensures forall k | 0 <= k < |t| :: lo <= t[k]
  {
    forall k | 0 <= k < |t| ensures lo <= t[k] {
      assert t[k] in multiset(t);
      if t[k] != x {
        assert t[k] in s;
        var m :| 0 <= m < |s| && s[m] == t[k];
      }
    }
  }

  /** Putting a lower bound in front of an ascending sequence keeps it ascending. */
  lemma ConsSorted(a: real, t: seq<real>)
    requires SortedAsc(t) && forall k | 0 <= k < |t| :: a <= t[k]
    ensures SortedAsc([a] + t)
  {
    forall i, j | 0 <= i < j < |t| + 1 ensures ([a] + t)[i] <= ([a] + t)[j] {
      assert ([a] + t)[j] == t[j - 1];
      if i > 0 {
        assert ([a] + t)[i] == t[i - 1];
      }
    }
  }

  function SortAsc(s: seq<real>): (r: seq<real>)
    ensures SortedAsc(r) && multiset(r) == multiset(s)
  {
    if |s| == 0 then []
    else
      assert s == s[..|s| - 1] + [s[|s| - 1]];
      InsertAsc(s[|s| - 1], SortAsc(s[..|s| - 1]))
  }

  /**
   * `np.median`: the middle of the sorted values, or the mean of the two
   * middle ones; `None` stands for the NaN numpy returns on an empty array.
   */
  function Median(s: seq<real>): Option<real>
  {
    var t := SortAsc(s);
    var n := |t|;
    if n == 0 then None
    else if n % 2 == 1 then Some(t[n / 2])
    else Some((t[n / 2 - 1] + t[n / 2]) / 2.0)
  }

  /** The median lies between the smallest and the largest value. */
  lemma MedianWithinBounds(s: seq<real>, lo: real, hi: real)
    requires forall x | x in s :: lo <= x <= hi
    ensures Median(s).Some? ==> lo <= Median(s).value <= hi
  {
    var t := SortAsc(s);
    var n := |t|;
    forall i | 0 <= i < n ensures lo <= t[i] <= hi {
      assert t[i] in multiset(t);
      assert t[i] in s;
    }
    if n > 0 && n % 2 == 0 {
      assert lo <= t[n / 2 - 1] <= hi && lo <= t[n / 2] <= hi;
    }
  }

  /** The median of a non-empty sequence is a number, and not below a lower bound of its values. */
  lemma MedianAtLeast(s: seq<real>, lo: real)
    requires |s| > 0 && forall x | x in s :: lo <= x
    ensures Median(s).Some? && lo <= Median(s).value
  {
    var t := SortAsc(s);
    assert |multiset(t)| == |multiset(s)|;
    var n := |t|;
    forall i | 0 <= i < n ensures lo <= t[i] {
      assert t[i] in multiset(t);
      assert t[i] in s;
    }
    if n % 2 == 0 {
      assert lo <= t[n / 2 - 1] && lo <= t[n / 2];
    }
  }
}

=== FILE: metdata.dfy ===
/**
 * `MetdataProcessor.epw2umep`: an EnergyPlus weather table (one row per
 * hour, 35 columns) becomes the 24-column UMEP meteorological table, and
 * `preprocessMetData`'s guard on the output path.
 *
 * The conversion is written column by column, in the order the numpy
 * assignments run; the contract states the resulting table cell by cell.
 */
module Metdata {
  import opened Common
  import opened Grids
  import opened Calendar
  import Sebe

  /** Width of the UMEP table and the value of every column nothing assigns. */
  const UmepColumns: nat := 24
  const Missing: real := -999.0

  /** The highest EPW column read (precipitation). */
  const EpwRainColumn: nat := 33

  /** The EPW value that marks missing precipitation. */
  const EpwNoRain: real := 999.0

  /**
   * Direct copies `(UMEP column, EPW column)`: air temperature, relative
   * humidity, longwave down, Kdown, direct and diffuse shortwave, wind
   * direction and wind speed.
   */
  const CopiedColumns: seq<(nat, nat)> := [(11, 6), (10, 8), (16, 12), (14, 13), (22, 14), (21, 15), (23, 20), (9, 21)]

  /** UMEP columns nothing assigns. */
  const Unassigned: set<nat> := {4, 5, 6, 7, 8, 15, 17, 18, 19, 20}

  function Column(g: Grid, c: nat): (v: seq<real>)
    requires Rectangular(g) && c < Cols(g)
    ensures |v| == |g| && forall i | 0 <= i < |g| :: v[i] == g[i][c]
  {
    seq(|g|, i requires 0 <= i < |g| => g[i][c])
  }

  /** `g[:, c] = v`. */
  function SetColumn(g: Grid, c: nat, v: seq<real>): (r: Grid)
    requires Rectangular(g) && c < Cols(g) && |v| == |g|
    ensures HasShape(r, |g|, Cols(g))
    ensures forall i, k | 0 <= i < |g| && 0 <= k < Cols(g) :: r[i][k] == if k == c then v[i] else g[i][k]
  {
    seq(|g|, i requires 0 <= i < |g| => g[i][c := v[i]])
  }

  /** `g[i, c] = x`. */
  function SetCell(g: Grid, i: nat, c: nat, x: real): (r: Grid)
    requires Rectangular(g) && i < |g| && c < Cols(g)
    ensures HasShape(r, |g|, Cols(g))
    ensures forall u, k | 0 <= u < |g| && 0 <= k < Cols(g) :: r[u][k] == if u == i && k == c then x else g[u][k]
  {
    g[i := g[i][c := x]]
  }

  /** `np.zeros((n, 24)) - 999`. */
  function Blank(n: nat): (r: Grid)
    ensures HasShape(r, n, UmepColumns)
    ensures forall i, k | 0 <= i < n && 0 <= k < UmepColumns :: r[i][k] == Missing
  {
    seq(n, _ => seq(UmepColumns, _ => Missing))
  }

  /**
   * The loop's day number before the midnight correction: the days of the
   * months before `int(mm - 1) + 1` (a Python slice of the month table of
   * year `yy`) plus the EPW day.
   */
  function DayNumber(yy: int, mm: real, dd: real): real
  {
    Sum(PySlice(DaysPerMonth(IsLeap(yy)), 0, Trunc(mm - 1.0))) as real + dd
  }

  /** For a whole month number the loop agrees with `day_of_year` of the shading code. */
  lemma DayNumberIsDayOfYear(yy: int, month: int, dd: real)
    requires 1 <= month <= 12
    ensures DayNumber(yy, month as real, dd) == DayOfYear(yy, month, 0) as real + dd
  {
    TruncIntegral(month as real - 1.0);
  }

  /** The converted hour of EPW row `i`: column 3, with hour 24 written as 0. */
  function Hour(met: Grid, i: nat): real
    requires Rectangular(met) && i < |met| && Cols(met) > EpwRainColumn
  {
    if met[i][3] == 24.0 then 0.0 else met[i][3]
  }

  /**
   * Cell `(i, k)` of the UMEP table, column by column: the year, the day of
   * year (1 on the last row, one later at midnight), hour, minute, the
   * meteorological variables, and -999 everywhere else.
   */
  function UmepCell(met: Grid, i: nat, k: nat): real
    requires Rectangular(met) && i < |met| && Cols(met) > EpwRainColumn
  {
    var last := i == |met| - 1;
    match k
    case 0 => if last then 1986.0 else 1985.0
    case 1 => if last then 1.0 else DayNumber(1985, met[i][1], met[i][2]) + (if Hour(met, i) == 0.0 then 1.0 else 0.0)
    case 2 => Hour(met, i)
    case 3 => 0.0
    case 9 => met[i][21]
    case 10 => met[i][8]
    case 11 => met[i][6]
    case 12 => met[i][9] / 1000.0
    case 13 => if met[i][EpwRainColumn] == EpwNoRain then 0.0 else met[i][EpwRainColumn]
    case 14 => met[i][13]
    case 16 => met[i][12]
    case 21 => met[i][15]
    case 22 => met[i][14]
    case 23 => met[i][20]
    case _ => Missing
  }

  /** Year and hour columns, in the order the conversion assigns them. */
  function YearHourColumns(met: Grid): (r: Grid)
    requires Rectangular(met) && |met| > 0 && Cols(met) > EpwRainColumn
    ensures HasShape(r, |met|, UmepColumns)
    ensures forall i, k | 0 <= i < |met| && 0 <= k < UmepColumns ::
              r[i][k] == if k == 0 || k == 2 then UmepCell(met, i, k) else Missing
  {
    var n := |met|;
    var years := SetCell(SetColumn(Blank(n), 0, seq(n, _ => 1985.0)), n - 1, 0, 1986.0);
    var hours := SetColumn(years, 2, Column(met, 3));
    SetColumn(hours, 2, seq(n, i requires 0 <= i < n => if hours[i][2] == 24.0 then 0.0 else hours[i][2]))
  }

  /** Then the day-of-year column, computed from each row's year and converted hour. */
  function DayColumn(met: Grid): (r: Grid)
    requires Rectangular(met) && |met| > 0 && Cols(met) > EpwRainColumn
    ensures HasShape(r, |met|, UmepColumns)
    ensures forall i, k | 0 <= i < |met| && 0 <= k < UmepColumns ::
              r[i][k] == if k <= 2 then UmepCell(met, i, k) else Missing
  {
    var n := |met|;
    var hours := YearHourColumns(met);
    YearsReadBack(met, hours);
    var days := MidnightShift(Days(met, hours), hours);
    SetCell(SetColumn(hours, 1, days), n - 1, 1, 1.0)
  }

  /** The loop over the rows: the day of year from the row's year cell, month and day. */
  function Days(met: Grid, hours: Grid): (v: seq<real>)
    requires Rectangular(met) && Cols(met) > EpwRainColumn && HasShape(hours, |met|, UmepColumns)
    ensures |v| == |met|
    ensures forall i | 0 <= i < |met| :: v[i] == DayNumber(Trunc(hours[i][0]), met[i][1], met[i][2])
  {
    seq(|met|, i requires 0 <= i < |met| => DayNumber(Trunc(hours[i][0]), met[i][1], met[i][2]))
  }

  /** The `np.where` step: one more day on the rows whose hour is 0. */
  function MidnightShift(days: seq<real>, hours: Grid): (v: seq<real>)
    requires HasShape(hours, |days|, UmepColumns)
    ensures |v| == |days|
    ensures forall i | 0 <= i < |days| :: v[i] == if hours[i][2] == 0.0 then days[i] + 1.0 else days[i]
  {
    seq(|days|, i requires 0 <= i < |days| => if hours[i][2] == 0.0 then days[i] + 1.0 else days[i])
  }

  /** Then the minute column. */
  function DateColumns(met: Grid): (r: Grid)
    requires Rectangular(met) && |met| > 0 && Cols(met) > EpwRainColumn
    ensures HasShape(r, |met|, UmepColumns)
    ensures forall i, k | 0 <= i < |met| && 0 <= k < UmepColumns ::
              r[i][k] == if k <= 3 then UmepCell(met, i, k) else Missing
  {
    SetColumn(DayColumn(met), 3, seq(|met|, _ => 0.0))
  }

  /** The year cells hold whole numbers, so `int()` reads back 1985 or 1986. */
  lemma YearsReadBack(met: Grid, g: Grid)
    requires Rectangular(met) && |met| > 0 && Cols(met) > EpwRainColumn && HasShape(g, |met|, UmepColumns)
    requires forall i | 0 <= i < |met| :: g[i][0] == (if i == |met| - 1 then 1986.0 else 1985.0)
    ensures forall i | 0 <= i < |met| :: Trunc(g[i][0]) == (if i == |met| - 1 then 1986 else 1985)
  {
    assert Trunc(1985.0) == 1985 && Trunc(1986.0) == 1986;
  }

  /** Temperature, humidity, pressure, longwave and Kdown. */
  function FirstVariables(g: Grid, met: Grid): (r: Grid)
    requires HasShape(g, |met|, UmepColumns) && Rectangular(met) && Cols(met) > EpwRainColumn
    ensures HasShape(r, |g|, UmepColumns)
    ensures forall i, k | 0 <= i < |g| && 0 <= k < UmepColumns ::
              r[i][k] == if k in {10, 11, 12, 14, 16} then UmepCell(met, i, k) else g[i][k]
  {
    var g1 := SetColumn(g, 11, Column(met, 6));
    var g2 := SetColumn(g1, 10, Column(met, 8));
    var g3 := SetColumn(g2, 12, seq(|met|, i requires 0 <= i < |met| => met[i][9] / 1000.0));
    var g4 := SetColumn(g3, 16, Column(met, 12));
    SetColumn(g4, 14, Column(met, 13))
  }

  /** Direct and diffuse shortwave, wind, and precipitation with 999 read as none. */
  function LastVariables(g: Grid, met: Grid): (r: Grid)
    requires HasShape(g, |met|, UmepColumns) && Rectangular(met) && Cols(met) > EpwRainColumn
    ensures HasShape(r, |g|, UmepColumns)
    ensures forall i, k | 0 <= i < |g| && 0 <= k < UmepColumns ::
              r[i][k] == if k in {9, 13, 21, 22, 23} then UmepCell(met, i, k) else g[i][k]
  {
    var g6 := SetColumn(g, 22, Column(met, 14));
    var g7 := SetColumn(g6, 21, Column(met, 15));
    var g8 := SetColumn(g7, 23, Column(met, 20));
    var g9 := SetColumn(g8, 9, Column(met, 21));
    var g10 := SetColumn(g9, 13, Column(met, EpwRainColumn));
    SetColumn(g10, 13, seq(|met|, i requires 0 <= i < |met| => if g10[i][13] == EpwNoRain then 0.0 else g10[i][13]))
  }

  /**
   * `epw2umep`. The last-row assignments index row `-1`, which fails on an
   * empty table, and reading EPW column 33 fails on a narrower one.
   */
  function Epw2Umep(met: Grid): (r: Result<Grid>)
    requires Rectangular(met)
    ensures r.Ok? <==> |met| > 0 && Cols(met) > EpwRainColumn
    ensures r.Err? ==> r.error == IndexOutOfRange
    ensures r.Ok? ==> HasShape(r.value, |met|, UmepColumns)
    ensures r.Ok? ==> forall i, k | 0 <= i < |met| && 0 <= k < UmepColumns :: r.value[i][k] == UmepCell(met, i, k)
  {
    if |met| == 0 || Cols(met) <= EpwRainColumn then Err(IndexOutOfRange)
    else Ok(LastVariables(FirstVariables(DateColumns(met), met), met))
  }

  /** The copy table agrees with the cell definition, and the unassigned columns hold -999. */
  lemma CellsFollowColumnMap(met: Grid, i: nat)
    requires Rectangular(met) && i < |met| && Cols(met) > EpwRainColumn
    ensures forall m | 0 <= m < |CopiedColumns| :: UmepCell(met, i, CopiedColumns[m].0) == met[i][CopiedColumns[m].1]
    ensures forall k | k in Unassigned :: UmepCell(met, i, k) == Missing
  {
  }

  /**
   * On every row but the last, a whole EPW month in 1..12 gives the
   * common-year day of year, one later at midnight.
   */
  lemma DayOfYearColumn(met: Grid, i: nat, month: int)
    requires Rectangular(met) && Cols(met) > EpwRainColumn && i < |met| - 1
    requires 1 <= month <= 12 && met[i][1] == month as real
    ensures UmepCell(met, i, 1) ==
              CommonYearStarts[month - 1] as real + met[i][2] + (if Hour(met, i) == 0.0 then 1.0 else 0.0)
  {
    DayNumberIsDayOfYear(1985, month, met[i][2]);
    DayOfYearClosedForm(1985, month, 0);
  }

  /** The converted Kdown column is the one the meteorological reader range-checks, copied from EPW column 13. */
  lemma KdownFeedsReader(met: Grid, i: nat)
    requires Rectangular(met) && Cols(met) > EpwRainColumn && i < |met|
    ensures UmepCell(met, i, Sebe.KdownColumn) == met[i][13]
    ensures UmepColumns == Sebe.MetColumns
  {
  }

  /**
   * `preprocessMetData` up to the conversion: an empty output path raises,
   * but the exception class it names is not imported, so the raise itself
   * fails with a NameError.
   */
  function PreprocessMetData(outputFile: string, data: Grid): (r: Result<Grid>)
    requires Rectangular(data)
    ensures |outputFile| == 0 ==> r == Err(NameNotDefined("SolarException"))
    ensures |outputFile| > 0 ==> r == Epw2Umep(data)
  {
    if |outputFile| == 0 then Err(NameNotDefined("SolarException"))
    else Epw2Umep(data)
  }
}

=== FILE: reclassify.dfy ===
/**
 * The raster engine's reclassify-by-table as the plugin configures it:
 * rows `(min, max, value)` where an empty bound is unbounded, range mode 0
 * (`min < x <= max`), the first matching row wins, and a value no row
 * matches is kept (no nodata for missing values).
 */
module Reclassify {
  import opened Common
  import opened Grids

  datatype Row = Row(lo: Option<real>, hi: Option<real>, value: real)

  /** Range mode 0: the lower bound is excluded, the upper bound included. */
  predicate InRow(r: Row, x: real)
  {
    (r.lo.None? || r.lo.value < x) && (r.hi.None? || x <= r.hi.value)
  }

  function Reclass(table: seq<Row>, x: real): (y: real)
    // the first matching row gives the value; with no match the value is kept
    ensures (forall k | 0 <= k < |table| :: !InRow(table[k], x)) ==> y == x
    ensures forall k | 0 <= k < |table| && InRow(table[k], x) ::
              (forall m | 0 <= m < k :: !InRow(table[m], x)) ==> y == table[k].value
  {
    if |table| == 0 then x
    else if InRow(table[0], x) then table[0].value
    else Reclass(table[1..], x)
  }

  /** The table applied to every cell. */
  function ReclassGrid(table: seq<Row>, g: Grid): (r: Grid)
    requires Rectangular(g)
    ensures HasShape(r, |g|, Cols(g))
    ensures forall i, j | 0 <= i < |g| && 0 <= j < Cols(g) :: r[i][j] == Reclass(table, g[i][j])
  {
    Map1(g, x => Reclass(table, x))
  }

  /** Rows whose ranges do not overlap: then the row order does not matter. */
  ghost predicate Disjoint(table: seq<Row>)
  {
    forall k, m, x | 0 <= k < m < |table| :: !(InRow(table[k], x) && InRow(table[m], x))
  }

  /** In a table of disjoint rows, any matching row gives the value. */
  lemma {:induction false} DisjointAnyMatch(table: seq<Row>, k: nat, x: real)
    requires Disjoint(table) && k < |table| && InRow(table[k], x)
    ensures Reclass(table, x) == table[k].value
  {
    if m :| 0 <= m < k && InRow(table[m], x) {
      assert false;
    }
  }

  /** The nodata value the plugin writes and the tables map to. */
  const NoData: real := -9999.0

  function Between(lo: real, hi: real, value: real): Row { Row(Some(lo), Some(hi), value) }
  function AtMost(hi: real, value: real): Row { Row(None, Some(hi), value) }
  function Above(lo: real, value: real): Row { Row(Some(lo), None, value) }

  /** The two-row binarisation table of one shading date: `[0, t, 0, t, 1, 1]`. */
  function ShadowTable(t: real): seq<Row> { [Between(0.0, t, 0.0), Between(t, 1.0, 1.0)] }

  /**
   * The binarisation at threshold `t` in (0, 1): (0, t] becomes 0, (t, 1]
   * becomes 1, and anything else (0 itself included) is kept.
   */
  lemma ShadowTableCases(t: real, x: real)
    requires 0.0 < t < 1.0
    ensures 0.0 < x <= t ==> Reclass(ShadowTable(t), x) == 0.0
    ensures t < x <= 1.0 ==> Reclass(ShadowTable(t), x) == 1.0
    ensures x <= 0.0 || x > 1.0 ==> Reclass(ShadowTable(t), x) == x
  {
  }

  /** A sunlit fraction in [0, 1] binarises to 0 or 1, to 1 exactly above the threshold. */
  lemma ShadowTableBinary(t: real, x: real)
    requires 0.0 < t < 1.0 && 0.0 <= x <= 1.0
    ensures Reclass(ShadowTable(t), x) == 0.0 || Reclass(ShadowTable(t), x) == 1.0
    ensures Reclass(ShadowTable(t), x) == 1.0 <==> x > t
  {
    ShadowTableCases(t, x);
  }
}

=== FILE: roof_classes.dfy ===
/**
 * The raster tables of the roof processor: the 2 m height mask, the aspect
 * and slope class tables, and the sine/cosine grids of the aspect. The
 * aspect and slope themselves come from the raster engine (`gdal:aspect`,
 * `gdal:slope`) and are parameters here, as are `sin` and `cos`.
 */
module RoofClasses {
  import opened Common
  import opened Grids
  import opened Reclassify

  /** `['', 2, -9999]`: everything up to 2 m above the terrain becomes nodata. */
  const HeightTable: seq<Row> := [AtMost(2.0, NoData)]

  /** Four compass classes, north (class 1) split across 0/360, and nodata outside (0, 360]. */
  const AspectTable: seq<Row> := [
    Between(0.0, 45.0, 1.0), Between(45.0, 135.0, 2.0), Between(135.0, 225.0, 3.0),
    Between(225.0, 315.0, 4.0), Between(315.0, 360.0, 1.0),
    AtMost(0.0, NoData), Above(360.0, NoData)]

  /** Three slope classes of 20 degrees each, and nodata outside (0, 60]. */
  const SlopeTable: seq<Row> := [
    Between(0.0, 20.0, 1.0), Between(20.0, 40.0, 2.0), Between(40.0, 60.0, 3.0),
    AtMost(0.0, NoData), Above(60.0, NoData)]

  /** The compass class of an aspect in degrees, written as quadrants centred on N, E, S and W. */
  function Compass(x: real): real
  {
    if x <= 0.0 || x > 360.0 then NoData
    else if x <= 45.0 || x > 315.0 then 1.0
    else if x <= 135.0 then 2.0
    else if x <= 225.0 then 3.0
    else 4.0
  }

  /** The slope class: one per started 20 degrees up to 60. */
  function SlopeBand(x: real): real
  {
    if x <= 0.0 || x > 60.0 then NoData
    else if x <= 20.0 then 1.0
    else if x <= 40.0 then 2.0
    else 3.0
  }

  /** The aspect table computes the compass class. */
  lemma AspectTableIsCompass(x: real)
    ensures Reclass(AspectTable, x) == Compass(x)
  {
    var k := if x <= 0.0 then 5 else if x <= 45.0 then 0 else if x <= 135.0 then 1 else if x <= 225.0 then 2
             else if x <= 315.0 then 3 else if x <= 360.0 then 4 else 6;
    assert InRow(AspectTable[k], x) && forall m | 0 <= m < k :: !InRow(AspectTable[m], x);
  }

  /** Every aspect in (0, 360] gets exactly one of the classes 1..4; north shares class 1 across 0/360. */
  lemma AspectClassesCover(x: real, y: real)
    requires 0.0 < x <= 360.0
    ensures Reclass(AspectTable, x) in {1.0, 2.0, 3.0, 4.0}
    ensures 0.0 < x <= 45.0 && 315.0 < y <= 360.0 ==> Reclass(AspectTable, x) == Reclass(AspectTable, y) == 1.0
  {
    AspectTableIsCompass(x);
    AspectTableIsCompass(y);
  }

  /** Aspects of 0 or below, or above 360, become nodata. */
  lemma AspectOutsideIsNoData(x: real)
    requires x <= 0.0 || x > 360.0
    ensures Reclass(AspectTable, x) == NoData
  {
    AspectTableIsCompass(x);
  }

  /** No two rows of the aspect table overlap. */
  lemma AspectTableDisjoint()
    ensures Disjoint(AspectTable)
  {
  }

  lemma SlopeTableIsBand(x: real)
    ensures Reclass(SlopeTable, x) == SlopeBand(x)
  {
    var k := if x <= 0.0 then 3 else if x <= 20.0 then 0 else if x <= 40.0 then 1 else if x <= 60.0 then 2 else 4;
    assert InRow(SlopeTable[k], x) && forall m | 0 <= m < k :: !InRow(SlopeTable[m], x);
  }

  /** Only heights above 2 m survive the mask, unchanged. */
  lemma HeightMaskCases(x: real)
    ensures x <= 2.0 ==> Reclass(HeightTable, x) == NoData
    ensures x > 2.0 ==> Reclass(HeightTable, x) == x
  {
  }

  /** The engine's slope and aspect rasters have the size of their input. */
  ghost predicate KeepsShape(f: Grid -> Grid)
  {
    forall g: Grid | Rectangular(g) :: HasShape(f(g), |g|, Cols(g))
  }

  /** The aspect table applied to every cell. */
  function AspectClasses(a: Grid): (r: Grid)
    requires Rectangular(a)
    ensures HasShape(r, |a|, Cols(a))
    ensures forall i, j | 0 <= i < |a| && 0 <= j < Cols(a) :: r[i][j] == Compass(a[i][j])
  {
    var r := ReclassGrid(AspectTable, a);
    forall i, j | 0 <= i < |a| && 0 <= j < Cols(a) ensures r[i][j] == Compass(a[i][j]) {
      AspectTableIsCompass(a[i][j]);
    }
    r
  }

  /** The slope table applied to every cell. */
  function SlopeClasses(s: Grid): (r: Grid)
    requires Rectangular(s)
    ensures HasShape(r, |s|, Cols(s))
    ensures forall i, j | 0 <= i < |s| && 0 <= j < Cols(s) :: r[i][j] == SlopeBand(s[i][j])
  {
    var r := ReclassGrid(SlopeTable, s);
    forall i, j | 0 <= i < |s| && 0 <= j < Cols(s) ensures r[i][j] == SlopeBand(s[i][j]) {
      SlopeTableIsBand(s[i][j]);
    }
    r
  }

  /** The height mask applied to every cell. */
  function AboveTwoMetres(h: Grid): (r: Grid)
    requires Rectangular(h)
    ensures HasShape(r, |h|, Cols(h))
    ensures forall i, j | 0 <= i < |h| && 0 <= j < Cols(h) :: r[i][j] == (if h[i][j] <= 2.0 then NoData else h[i][j])
  {
    ReclassGrid(HeightTable, h)
  }

  /** What the roof processor derives from the height-above-terrain and aspect rasters. */
  datatype RoofRasters = RoofRasters(aboveTwo: Grid, aspectClass: Grid, slopeClass: Grid, aspectSin: Grid, aspectCos: Grid)

  /**
   * One cell of the raster calculator's `f(A * pi / 180)`: a nodata input
   * cell stays nodata (the engine's aspect marks flat cells and the border
   * with -9999), any other cell is converted to radians and mapped.
   */
  function TrigCell(f: real -> real, a: real, pi: real): real
  {
    if a == NoData then NoData else f(a * pi / 180.0)
  }

  /** The raster calculator's `f(A * pi / 180)` over a whole grid. */
  function TrigGrid(f: real -> real, aspect: Grid, pi: real): (r: Grid)
    requires Rectangular(aspect)
    ensures HasShape(r, |aspect|, Cols(aspect))
    ensures forall i, j | 0 <= i < |aspect| && 0 <= j < Cols(aspect) && aspect[i][j] != NoData ::
              r[i][j] == f(aspect[i][j] * pi / 180.0)
    ensures forall i, j | 0 <= i < |aspect| && 0 <= j < Cols(aspect) && aspect[i][j] == NoData :: r[i][j] == NoData
  {
    Map1(aspect, a => TrigCell(f, a, pi))
  }

  /**
   * The roof processor's raster steps: mask below 2 m, classify the aspect
   * and slope the engine computes from the masked heights, and take sine
   * and cosine of the separately computed, unmasked aspect.
   */
  function ClassifyRoofs(height: Grid, aspect: Grid, aspectOf: Grid -> Grid, slopeOf: Grid -> Grid,
                         sin: real -> real, cos: real -> real, pi: real): (r: RoofRasters)
    requires Rectangular(height) && Rectangular(aspect)
    requires KeepsShape(aspectOf) && KeepsShape(slopeOf)
    ensures r.aboveTwo == AboveTwoMetres(height)
    ensures r.aspectClass == AspectClasses(aspectOf(r.aboveTwo))
    ensures r.slopeClass == SlopeClasses(slopeOf(r.aboveTwo))
    // the trigonometric grids read the unmasked aspect, in radians, and keep its nodata cells
    ensures HasShape(r.aspectSin, |aspect|, Cols(aspect)) && HasShape(r.aspectCos, |aspect|, Cols(aspect))
    ensures forall i, j | 0 <= i < |aspect| && 0 <= j < Cols(aspect) && aspect[i][j] != NoData ::
              r.aspectSin[i][j] == sin(aspect[i][j] * pi / 180.0) && r.aspectCos[i][j] == cos(aspect[i][j] * pi / 180.0)
    ensures forall i, j | 0 <= i < |aspect| && 0 <= j < Cols(aspect) && aspect[i][j] == NoData ::
              r.aspectSin[i][j] == NoData && r.aspectCos[i][j] == NoData
  {
    var aboveTwo := AboveTwoMetres(height);
    var sinGrid, cosGrid := TrigGrid(sin, aspect, pi), TrigGrid(cos, aspect, pi);
    RoofRasters(aboveTwo, AspectClasses(aspectOf(aboveTwo)), SlopeClasses(slopeOf(aboveTwo)),
                sinGrid, cosGrid)
  }
}

=== FILE: roof_energy.dfy ===
/**
 * The roof energy calculator: for every roof plane with a geometry, the
 * mean aspect from the mean sine and cosine, the true area from the plan
 * area and the slope, the four-way suitability test, and for a suitable
 * roof the number of panels and the yearly output, written as a numbered
 * feature and a CSV line while a running total is kept.
 *
 * `atan` and `cos` are parameters: only their ranges and signs matter.
 */
module RoofEnergy {
  import opened Common
  import opened Features
  import Csv

  const FlatPanelFitFactor: real := 0.7
  const PanelFitFactor: real := 0.7284
  /** Square metres of one panel, and of one panel with its gaps. */
  const RealPanelArea: real := 1.65
  const EffectivePanelArea: real := 1.75
  const PanelYield: real := 0.2
  const PanelEfficiency: real := 0.789
  const MinimumUsefulArea: real := 16.0
  const MaximumUsefulSlope: real := 60.0

  /** `math.pi`, `math.atan` and `math.cos`. */
  datatype Trig = Trig(pi: real, atan: real -> real, cos: real -> real)

  /** `pi` is about 3.14, and `atan` lies in (-pi/2, pi/2) with the sign of its argument. */
  ghost predicate ValidTrig(t: Trig)
  {
    3.1 < t.pi < 3.2 &&
    forall x: real :: -t.pi / 2.0 < t.atan(x) < t.pi / 2.0 && (t.atan(x) > 0.0 <==> x > 0.0) && (t.atan(x) == 0.0 <==> x == 0.0)
  }

  /** `RADIANS_TO_DEGREES`. */
  function RadiansToDegrees(t: Trig): real
    requires t.pi > 0.0
  {
    180.0 / t.pi
  }

  /** `a * pi` in radians is `a * 180` in degrees. */
  lemma InDegrees(rad: real, a: real, pi: real)
    requires pi > 0.0 && rad == a * pi
    ensures rad * (180.0 / pi) == a * 180.0
  {
  }

  /** The mean aspect in degrees from the mean cosine `c` and sine `s`; `s / c` divides by zero when `c` is 0. */
  function AspectDegrees(c: real, s: real, t: Trig): (r: Result<real>)
    requires ValidTrig(t)
    ensures r.Err? <==> c == 0.0
    ensures r.Err? ==> r.error == ZeroDivision
    ensures r.Ok? ==> 0.0 < r.value <= 360.0
    // the quadrant of (c, s), measured clockwise from north
    ensures r.Ok? && c > 0.0 && s > 0.0 ==> r.value < 90.0
    ensures r.Ok? && c < 0.0 && s > 0.0 ==> 90.0 < r.value < 180.0
    ensures r.Ok? && c < 0.0 && s == 0.0 ==> r.value == 180.0
    ensures r.Ok? && c < 0.0 && s < 0.0 ==> 180.0 < r.value < 270.0
    ensures r.Ok? && c > 0.0 && s < 0.0 ==> 270.0 < r.value < 360.0
    // due north is 360, not 0
    ensures r.Ok? && c > 0.0 && s == 0.0 ==> r.value == 360.0
  {
    if c == 0.0 then Err(ZeroDivision)
    else
      var a := t.atan(s / c);
      var rad := if c > 0.0 && s > 0.0 then a else if c < 0.0 then a + t.pi else a + t.pi * 2.0;
      var turns := rad / t.pi;
      InDegrees(rad, turns, t.pi);
      assert s / c > 0.0 <==> (c > 0.0 && s > 0.0) || (c < 0.0 && s < 0.0);
      assert s / c == 0.0 <==> s == 0.0;
      Ok(rad * RadiansToDegrees(t))
  }

  /** The cosine of the slope, the slope read in degrees. */
  function SlopeCosine(slope: real, t: Trig): real
    requires t.pi > 0.0
  {
    t.cos(slope / RadiansToDegrees(t))
  }

  /** `areaTrue`: the plan area over the cosine of the slope; a zero cosine divides by zero. */
  function TrueArea(plan: real, slope: real, t: Trig): (r: Result<real>)
    requires t.pi > 0.0
    ensures r.Err? <==> SlopeCosine(slope, t) == 0.0
    ensures r.Err? ==> r.error == ZeroDivision
    // projecting the true area back onto the plane gives the plan area
    ensures r.Ok? ==> r.value * SlopeCosine(slope, t) == plan
  {
    var k := SlopeCosine(slope, t);
    if k == 0.0 then Err(ZeroDivision) else Ok(plan / k)
  }

  /** `aspectFilter`: a pitched roof facing between 292.5 and 67.5 degrees through north. */
  predicate FacesNorth(slope: real, aspect: real)
  {
    slope > 10.0 && (aspect < 67.5 || aspect > 292.5)
  }

  /** A roof worth fitting: big enough, not too steep, not facing north, not too shaded. */
  predicate Suitable(areaTrue: real, slope: real, aspect: real, shade: real)
  {
    areaTrue > MinimumUsefulArea && slope <= MaximumUsefulSlope && !FacesNorth(slope, aspect) && shade >= 0.5
  }

  /** A suitable pitched roof faces east-north-east to west-north-west through south. */
  lemma SuitablePitchedFacesSouth(areaTrue: real, slope: real, aspect: real, shade: real)
    requires Suitable(areaTrue, slope, aspect, shade) && slope > 10.0
    ensures 67.5 <= aspect <= 292.5 && 10.0 < slope <= 60.0
  {
  }

  predicate IsFlat(slope: real) { slope < 10.0 }

  function FitFactor(slope: real): real
  {
    if IsFlat(slope) then FlatPanelFitFactor else PanelFitFactor
  }

  /** `floor(areaTrue * fitFactor / EFFECTIVE_PANEL_AREA)`: the whole panels that fit. */
  function Panels(areaTrue: real, slope: real): (n: int)
    ensures n as real * EffectivePanelArea <= areaTrue * FitFactor(slope) < (n + 1) as real * EffectivePanelArea
  {
    (areaTrue * FitFactor(slope) / EffectivePanelArea).Floor
  }

  /** Every roof above the minimum area takes at least six panels. */
  lemma SuitableHasSixPanels(areaTrue: real, slope: real)
    requires areaTrue > MinimumUsefulArea
    ensures Panels(areaTrue, slope) >= 6
  {
    var n := Panels(areaTrue, slope);
    assert areaTrue * FitFactor(slope) > 16.0 * 0.7;
    assert (n + 1) as real * EffectivePanelArea > 11.2;
  }

  /** `roofOutput` in kWh. */
  function Output(panels: int, irradiation: real): real
  {
    RealPanelArea * panels as real * PanelYield * PanelEfficiency * irradiation
  }

  /** Under positive irradiation the output grows with every panel, and six panels give a positive output. */
  lemma OutputGrows(panels: int, irradiation: real)
    requires irradiation > 0.0
    ensures Output(panels + 1, irradiation) > Output(panels, irradiation)
    ensures panels >= 6 ==> Output(panels, irradiation) >= Output(6, irradiation) > 0.0
  {
    var k := RealPanelArea * PanelYield * PanelEfficiency * irradiation;
    assert k > 0.0;
    assert Output(panels + 1, irradiation) == k * (panels + 1) as real;
    assert Output(panels, irradiation) == k * panels as real;
    if panels >= 6 {
      assert k * panels as real >= k * 6.0;
    }
  }

  /** `float(value)`: numbers convert, NULL does not; text is treated as not a number. */
  function ToFloat(v: Value): (r: Result<real>)
    ensures r.Ok? <==> v.RealV? || v.IntV?
    ensures v.RealV? ==> r == Ok(v.r)
    ensures v.IntV? ==> r == Ok(v.i as real)
  {
    match v
    case RealV(x) => Ok(x)
    case IntV(i) => Ok(i as real)
    case _ => Err(NotANumber)
  }

  /** A numeric attribute of the input feature. */
  function Number(fields: seq<string>, f: Feature, name: string): (r: Result<real>)
    requires Fits(fields, f)
  {
    var v :- Get(fields, f, name);
    ToFloat(v)
  }

  /** A roof written to the suitable-roofs layer. */
  datatype SuitableRoof = SuitableRoof(
    id: int, geometry: Geometry, areaTrue: real, aspect: real, slope: real,
    shade: real, irradiation: Value, panels: int, flat: bool, output: real)

  /** What one roof plane yields: nothing, or a roof waiting for its id. */
  function Assess(fields: seq<string>, f: Feature, t: Trig): (r: Result<Option<SuitableRoof>>)
    requires Fits(fields, f) && ValidTrig(t)
    ensures f.geometry.None? ==> r == Ok(None)
    ensures r.Ok? && r.value.Some? ==> f.geometry.Some? && r.value.value.geometry == f.geometry.value
    ensures r.Ok? && r.value.Some? ==> AssessedRoof(r.value.value)
  {
    if f.geometry.None? then Ok(None)
    else
      var c :- Number(fields, f, "C_mean");
      var s :- Number(fields, f, "S_mean");
      var aspect :- AspectDegrees(c, s, t);
      var slope :- Number(fields, f, "Slope_mean");
      var areaTrue :- TrueArea(f.geometry.value.area, slope, t);
      var shade :- Number(fields, f, "Shade_mean");
      if Suitable(areaTrue, slope, aspect, shade) then
        var energy :- Get(fields, f, "Irrad_mean");
        var irradiation :- ToFloat(energy);
        var panels := Panels(areaTrue, slope);
        SuitableHasSixPanels(areaTrue, slope);
        Ok(Some(SuitableRoof(0, f.geometry.value, areaTrue, aspect, slope, shade, energy, panels,
                             IsFlat(slope), Output(panels, irradiation))))
      else Ok(None)
  }

  /** What every written roof satisfies, whatever its id. */
  predicate AssessedRoof(roof: SuitableRoof)
  {
    Suitable(roof.areaTrue, roof.slope, roof.aspect, roof.shade) &&
    0.0 < roof.aspect <= 360.0 && roof.panels >= 6 && roof.panels == Panels(roof.areaTrue, roof.slope) &&
    (roof.flat <==> roof.slope < 10.0)
  }

  /** What each feature yields, in order. */
  function Outcomes(fields: seq<string>, fs: seq<Feature>, t: Trig): (outs: seq<Result<Option<SuitableRoof>>>)
    requires ValidTrig(t) && forall k | 0 <= k < |fs| :: Fits(fields, fs[k])
    ensures |outs| == |fs| && forall k | 0 <= k < |fs| :: outs[k] == Assess(fields, fs[k], t)
  {
    seq(|fs|, k requires 0 <= k < |fs| => Assess(fields, fs[k], t))
  }

  /** Every roof among the outcomes passed the assessment. */
  predicate AllAssessed(outs: seq<Result<Option<SuitableRoof>>>)
  {
    forall k | 0 <= k < |outs| :: outs[k].Ok? && outs[k].value.Some? ==> AssessedRoof(outs[k].value.value)
  }

  /**
   * The roofs written from the outcomes, numbered from 1 in order; the
   * first outcome that is an error ends everything.
   */
  function Numbered(outs: seq<Result<Option<SuitableRoof>>>): (r: Result<seq<SuitableRoof>>)
    ensures r.Ok? ==> |r.value| <= |outs|
    ensures r.Ok? ==> forall m | 0 <= m < |r.value| :: r.value[m].id == m + 1
    decreases |outs|
  {
    if |outs| == 0 then Ok([])
    else
      var before :- Numbered(outs[..|outs| - 1]);
      var found :- outs[|outs| - 1];
      if found.Some? then Ok(before + [found.value.(id := |before| + 1)]) else Ok(before)
  }

  /** The roofs the loop writes for the features `fs`. */
  function Roofs(fields: seq<string>, fs: seq<Feature>, t: Trig): (r: Result<seq<SuitableRoof>>)
    requires ValidTrig(t) && forall k | 0 <= k < |fs| :: Fits(fields, fs[k])
    ensures r.Ok? ==> |r.value| <= |fs|
    ensures r.Ok? ==> forall m | 0 <= m < |r.value| :: r.value[m].id == m + 1 && AssessedRoof(r.value[m])
  {
    var outs := Outcomes(fields, fs, t);
    NumberedAssessed(outs);
    Numbered(outs)
  }

  /** When every outcome passed the assessment, so does every roof written from them. */
  lemma {:induction false} NumberedAssessed(outs: seq<Result<Option<SuitableRoof>>>)
    requires AllAssessed(outs)
    ensures Numbered(outs).Ok? ==> forall m | 0 <= m < |Numbered(outs).value| :: AssessedRoof(Numbered(outs).value[m])
    decreases |outs|
  {
    if |outs| > 0 {
      NumberedAssessed(outs[..|outs| - 1]);
    }
  }

  /** The roofs of a prefix of the features are those of the same prefix of the outcomes. */
  lemma RoofsPrefix(fields: seq<string>, fs: seq<Feature>, t: Trig, k: nat)
    requires ValidTrig(t) && forall m | 0 <= m < |fs| :: Fits(fields, fs[m])
    requires k <= |fs|
    ensures Roofs(fields, fs[..k], t) == Numbered(Outcomes(fields, fs, t)[..k])
  {
    assert Outcomes(fields, fs[..k], t) == Outcomes(fields, fs, t)[..k];
  }

  /** The running total: the sum of the outputs written. */
  function TotalOutput(roofs: seq<SuitableRoof>): real
  {
    if |roofs| == 0 then 0.0 else TotalOutput(roofs[..|roofs| - 1]) + roofs[|roofs| - 1].output
  }

  /** The features the loop reaches: all of them, or those before the first cancellation. */
  function Reached(isCanceled: nat -> bool, n: nat): (k: nat)
    ensures k <= n
    ensures forall m | 0 <= m < k :: !isCanceled(m)
    ensures k < n ==> isCanceled(k)
  {
    ReachedFrom(isCanceled, 0, n)
  }

  function ReachedFrom(isCanceled: nat -> bool, i: nat, n: nat): (k: nat)
    requires i <= n
    ensures i <= k <= n
    ensures forall m | i <= m < k :: !isCanceled(m)
    ensures k < n ==> isCanceled(k)
    decreases n - i
  {
    if i == n || isCanceled(i) then i else ReachedFrom(isCanceled, i + 1, n)
  }

  /** The fields of the suitable-roofs layer, in order. */
  const NewFields: seq<string> := [
    "id", "latitude", "longitude", "area_plan", "area_true", "Aspect_mean", "Slope_mean",
    "Shade_mean", "Irrad_mean", "Num_panels", "Roof_flat", "Output_kwh"]

  /** The written feature; `latitude` and `longitude` hold the centroid's x and y. */
  function RoofFeature(roof: SuitableRoof): (f: Feature)
    ensures Fits(NewFields, f) && f.geometry == Some(roof.geometry)
  {
    Feature(Some(roof.geometry), [
      IntV(roof.id), RealV(roof.geometry.centroid.0), RealV(roof.geometry.centroid.1),
      RealV(roof.geometry.area), RealV(roof.areaTrue), RealV(roof.aspect), RealV(roof.slope),
      RealV(roof.shade), roof.irradiation, IntV(roof.panels), TextV(if roof.flat then "Y" else "N"),
      RealV(roof.output)])
  }

  /** The CSV line of a written roof: its twelve values in field order, each rendered by `show`. */
  function RoofLine(roof: SuitableRoof, show: Value -> string): string
  {
    var attrs := RoofFeature(roof).attrs;
    Csv.Line(seq(|attrs|, k requires 0 <= k < |attrs| => show(attrs[k])))
  }

  /** Reading the roof's fields by name, as the calculator does, gives the same line. */
  lemma RoofLineIsCsvLine(roof: SuitableRoof, show: Value -> string)
    ensures RoofLine(roof, show) == CsvLine(NewFields, RoofFeature(roof), show)
  {
    RowOfDistinctFields(NewFields, RoofFeature(roof));
  }

  /** The progress shown before feature `current` of `n`: `int(current * 100.0 / n)`. */
  function Progress(current: nat, n: nat): (p: int)
    ensures current < n ==> 0 <= p < 100
  {
    var step := if n > 0 then 100.0 / n as real else 0.0;
    if current < n then
      assert current as real * step < 100.0 by {
        assert current as real * step == 100.0 * (current as real / n as real);
      }
      Trunc(current as real * step)
    else Trunc(current as real * step)
  }

  datatype EnergyRun = EnergyRun(roofs: seq<SuitableRoof>, total: real, csv: seq<string>, progress: seq<int>)

  /**
   * The per-feature loop of the calculator: the output layer's features,
   * the CSV lines after the header, the total it logs, and the progress it
   * reports. Any exception in the loop becomes a processing exception.
   */
  method CalculateRoofEnergy(fields: seq<string>, fs: seq<Feature>, isCanceled: nat -> bool, t: Trig, show: Value -> string)
    returns (r: Result<EnergyRun>)
    requires ValidTrig(t) && forall k | 0 <= k < |fs| :: Fits(fields, fs[k])
    ensures var stop := Reached(isCanceled, |fs|);
            r.Ok? <==> Roofs(fields, fs[..stop], t).Ok?
    ensures var stop := Reached(isCanceled, |fs|);
            r.Err? ==> r.error == Processing(Roofs(fields, fs[..stop], t).error)
    ensures var stop := Reached(isCanceled, |fs|);
            r.Ok? ==> r.value.roofs == Roofs(fields, fs[..stop], t).value && |r.value.progress| == stop
    ensures r.Ok? ==> r.value.total == TotalOutput(r.value.roofs)
    ensures r.Ok? ==> |r.value.csv| == |r.value.roofs| + 1 && r.value.csv[0] == Header(NewFields)
    ensures r.Ok? ==> forall m | 0 <= m < |r.value.roofs| :: r.value.csv[m + 1] == RoofLine(r.value.roofs[m], show)
    ensures r.Ok? ==> forall k | 0 <= k < |r.value.progress| :: r.value.progress[k] == Progress(k, |fs|) && 0 <= r.value.progress[k] < 100
  {
    var stop := Reached(isCanceled, |fs|);
    var line := roof => RoofLine(roof, show);
    var at := (k: nat) => if k < |fs| then Assess(fields, fs[k], t) else Ok(None);
    r := Sweep(|fs|, isCanceled, at, Header(NewFields), line, Outcomes(fields, fs, t));
    RoofsPrefix(fields, fs, t, stop);
  }

  /**
   * The loop itself, over `n` features whose assessments `at(k)` are
   * listed in `outs`, for any line renderer.
   */
  method Sweep(n: nat, isCanceled: nat -> bool, at: nat -> Result<Option<SuitableRoof>>, header: string,
               line: SuitableRoof -> string, ghost outs: seq<Result<Option<SuitableRoof>>>)
    returns (r: Result<EnergyRun>)
    requires |outs| == n && forall k | 0 <= k < n :: outs[k] == at(k)
    ensures var stop := Reached(isCanceled, n);
            r.Ok? <==> Numbered(outs[..stop]).Ok?
    ensures var stop := Reached(isCanceled, n);
            r.Err? ==> r.error == Processing(Numbered(outs[..stop]).error)
    ensures var stop := Reached(isCanceled, n);
            r.Ok? ==> Numbered(outs[..stop]) == Ok(r.value.roofs) && |r.value.progress| == stop
    ensures r.Ok? ==> r.value.total == TotalOutput(r.value.roofs) && r.value.csv == Lines(header, r.value.roofs, line)
    ensures r.Ok? ==> forall k | 0 <= k < |r.value.progress| :: r.value.progress[k] == Progress(k, n)
  {
    var roofs: seq<SuitableRoof> := [];
    var total := 0.0;
    var csv := [header];
    var progress: seq<int> := [];
    var k := 0;
    ghost var stop := Reached(isCanceled, n);
    assert outs[..0] == [];
    while k < n
      invariant k <= stop
      invariant Swept(outs, k, roofs, total, csv, header, line)
      invariant |progress| == k && forall m | 0 <= m < k :: progress[m] == Progress(m, n)
    {
      if isCanceled(k) {
        break;
      }
      assert k < stop;
      progress := progress + [Progress(k, n)];
      var next := Visit(at(k), roofs, total, csv, header, line, outs, k);
      if next.Err? {
        NumberedPrefixFails(outs, k + 1, stop);
        return Err(Processing(next.error));
      }
      roofs, total, csv := next.value.0, next.value.1, next.value.2;
      k := k + 1;
    }
    assert k == stop;
    r := Ok(EnergyRun(roofs, total, csv, progress));
  }

  /** The loop's state after the first `k` outcomes: the roofs, their total and the file so far. */
  predicate Swept(outs: seq<Result<Option<SuitableRoof>>>, k: nat, roofs: seq<SuitableRoof>, total: real,
                  csv: seq<string>, header: string, line: SuitableRoof -> string)
  {
    k <= |outs| && Numbered(outs[..k]) == Ok(roofs) && total == TotalOutput(roofs) && csv == Lines(header, roofs, line)
  }

  /**
   * One pass of the loop body on `found`, the assessment of feature `k`:
   * a suitable roof gets the next id, is added to the total and gets its
   * CSV line.
   */
  method Visit(found: Result<Option<SuitableRoof>>, roofs: seq<SuitableRoof>, total: real,
               csv: seq<string>, header: string, line: SuitableRoof -> string,
               ghost outs: seq<Result<Option<SuitableRoof>>>, ghost k: nat)
    returns (r: Result<(seq<SuitableRoof>, real, seq<string>)>)
    requires k < |outs| && outs[k] == found
    requires Swept(outs, k, roofs, total, csv, header, line)
    ensures r.Err? <==> Numbered(outs[..k + 1]).Err?
    ensures r.Err? ==> r.error == Numbered(outs[..k + 1]).error
    ensures r.Ok? ==> Swept(outs, k + 1, r.value.0, r.value.1, r.value.2, header, line)
  {
    assert outs[..k + 1][..k] == outs[..k] && outs[..k + 1][k] == found;
    if found.Err? {
      return Err(found.error);
    }
    if found.value.Some? {
      var roof := found.value.value.(id := |roofs| + 1);
      TotalSnoc(roofs, roof);
      assert (roofs + [roof])[..|roofs|] == roofs;
      return Ok((roofs + [roof], total + roof.output, csv + [line(roof)]));
    }
    return Ok((roofs, total, csv));
  }

  /** The written file: the header, then one line per roof as `line` renders it. */
  function Lines(header: string, roofs: seq<SuitableRoof>, line: SuitableRoof -> string): (csv: seq<string>)
    ensures |csv| == |roofs| + 1 && csv[0] == header
    ensures forall m | 0 <= m < |roofs| :: csv[m + 1] == line(roofs[m])
  {
    if |roofs| == 0 then [header]
    else Lines(header, roofs[..|roofs| - 1], line) + [line(roofs[|roofs| - 1])]
  }

  lemma TotalSnoc(roofs: seq<SuitableRoof>, roof: SuitableRoof)
    ensures TotalOutput(roofs + [roof]) == TotalOutput(roofs) + roof.output
  {
    assert (roofs + [roof])[..|roofs|] == roofs;
  }

  /** Once a prefix of the outcomes fails, every longer prefix fails with the same error. */
  lemma {:induction false} NumberedPrefixFails(outs: seq<Result<Option<SuitableRoof>>>, k: nat, n: nat)
    requires k <= n <= |outs| && Numbered(outs[..k]).Err?
    ensures Numbered(outs[..n]) == Numbered(outs[..k])
    decreases n - k
  {
    if k < n {
      assert outs[..k + 1][..k] == outs[..k];
      NumberedPrefixFails(outs, k + 1, n);
    }
  }
}

=== FILE: seasonal_shadow.dfy ===
/**
 * The seasonal shadow step: the daily mean sunlit fraction of the roofs on
 * the two equinoxes and the two solstices of 2020, each binarised at its own
 * threshold, and the product of the four binaries, which is 1 exactly where
 * a cell is lit well enough on every one of the four days.
 *
 * The rasters are handed between the steps as files; here they are values.
 * A day on which the sun never rises has an all-NaN mean, and NaN survives
 * both the reclassification (no row matches it) and the product.
 */
module Seasonal {
  import opened Common
  import opened Grids
  import opened SolarConstants
  import opened DsmPreprocess
  import opened Calendar
  import opened Reclassify
  import opened DailyShading
  import opened ShadowGenerator

  /** One shading day of 2020 and whether summer time is in force on it. */
  datatype ShadingDate = ShadingDate(month: int, day: int, dst: int)

  const ShadingYear: int := 2020

  /** March, June, September and December, in the order they are shaded. */
  const Dates: seq<ShadingDate> := [ShadingDate(3, 20, 0), ShadingDate(6, 21, 1), ShadingDate(9, 23, 1), ShadingDate(12, 22, 0)]

  /** What every shading call shares: the rasters, the switch and both extents. */
  datatype Inputs = Inputs(dsm: RasterSource, wide: RasterSource, useWideArea: bool, wideExtent: Extent, localExtent: Extent)

  predicate WellFormedInputs(ins: Inputs)
  {
    Rectangular(ins.dsm.cells) && Rectangular(ins.wide.cells)
  }

  /** The request for one day: from midnight, hourly, UTC, all day long. */
  function Request(ins: Inputs, d: ShadingDate): (q: ShadowRequest)
    ensures q.year == ShadingYear && q.month == d.month && q.day == d.day && q.dst == d.dst
    ensures q.hour == 0 && q.minu == 0 && q.sec == 0 && q.utc == 0 && q.interval == 60 && q.onetime == 0
    ensures q.useWideArea == ins.useWideArea && q.wideExtent == ins.wideExtent && q.localExtent == ins.localExtent
  {
    ShadowRequest(ins.useWideArea, ins.wideExtent, ins.localExtent, ShadingYear, d.month, d.day, 0, 0, 0, 0, 60, d.dst, 0)
  }

  /** Every shading day is cut into the 24 hourly steps of `dailyshading`. */
  lemma RequestIsHourly(ins: Inputs, d: ShadingDate, toLonLat: ((real, real)) -> (real, real))
    requires WellFormedInputs(ins)
    requires AssembleArgs(ins.dsm, ins.wide, Request(ins, d), toLonLat).Ok?
    ensures StepTimes(AssembleArgs(ins.dsm, ins.wide, Request(ins, d), toLonLat).value).Ok?
    ensures |StepTimes(AssembleArgs(ins.dsm, ins.wide, Request(ins, d), toLonLat).value).value| == 24
  {
    HourlySteps();
  }

  /** The shading of one day, with what the shading loop guarantees about its mean. */
  function ShadeDate(ins: Inputs, d: ShadingDate, toLonLat: ((real, real)) -> (real, real), e: Engines): (r: Result<ShadowResult>)
    requires WellFormedInputs(ins) && ValidEngines(e)
    ensures r == CalculateShadowRaster(ins.dsm, ins.wide, Request(ins, d), toLonLat, e)
    ensures r.Ok? ==> (r.value.shfinal.AllNaN? <==> |r.value.casterCalls| == 0)
    ensures r.Ok? ==> ins.localExtent.height >= 0 && ins.localExtent.width >= 0
    ensures r.Ok? && r.value.shfinal.Averaged? ==>
              HasShape(r.value.shfinal.grid, ins.localExtent.height, ins.localExtent.width) &&
              Bounded(r.value.shfinal.grid, 0.0, 1.0)
  {
    CalculateShadowRaster(ins.dsm, ins.wide, Request(ins, d), toLonLat, e)
  }

  /** One reclassification call: the day whose raster it reads, and the new threshold it puts into the table, if any. */
  datatype ReclassCall = ReclassCall(date: nat, newThreshold: Option<real>)

  /**
   * The calls in the order they run, sharing one parameter dictionary:
   * March sets 0.5, September replaces only the input raster, June sets
   * 0.6 and December 0.4.
   */
  const ReclassCalls: seq<ReclassCall> := [
    ReclassCall(0, Some(0.5)), ReclassCall(2, None), ReclassCall(1, Some(0.6)), ReclassCall(3, Some(0.4))]

  /** The threshold each call binarises with: its own, or the one left in the dictionary by the call before. */
  function Thresholds(calls: seq<ReclassCall>, current: real): (ts: seq<real>)
    ensures |ts| == |calls|
    ensures forall k | 0 <= k < |calls| && calls[k].newThreshold.Some? :: ts[k] == calls[k].newThreshold.value
    ensures forall k | 0 < k < |calls| && calls[k].newThreshold.None? :: ts[k] == ts[k - 1]
    ensures |calls| > 0 && calls[0].newThreshold.None? ==> ts[0] == current
  {
    if |calls| == 0 then []
    else
      var t := if calls[0].newThreshold.Some? then calls[0].newThreshold.value else current;
      [t] + Thresholds(calls[1..], t)
  }

  /** The call that reads each day, in the order of `Dates`. */
  const CallOfDate: seq<nat> := [0, 2, 1, 3]

  /** The threshold of each day, in the order of `Dates`. */
  const DateThresholds: seq<real> := [0.5, 0.6, 0.5, 0.4]

  /**
   * The calls read every day once, and each with the threshold of that day:
   * September inherits March's 0.5, whatever the dictionary held before.
   */
  lemma CallsUseDateThresholds(init: real)
    ensures forall k | 0 <= k < |ReclassCalls| :: ReclassCalls[k].date < |Dates|
    ensures forall d | 0 <= d < |Dates| :: CallOfDate[d] < |ReclassCalls| && ReclassCalls[CallOfDate[d]].date == d
    ensures forall k | 0 <= k < |ReclassCalls| :: Thresholds(ReclassCalls, init)[k] == DateThresholds[ReclassCalls[k].date]
  {
    var ts := Thresholds(ReclassCalls, init);
    assert ts[1] == ts[0] == 0.5;
  }

  /** Every threshold lies strictly between 0 and 1. */
  lemma ThresholdsInside(init: real)
    ensures forall k | 0 <= k < |ReclassCalls| :: 0.0 < Thresholds(ReclassCalls, init)[k] < 1.0
  {
    CallsUseDateThresholds(init);
  }

  /** The reclassification of a mean sunlit fraction at threshold `t`. */
  function Binary(g: Grid, t: real): (r: Grid)
    requires Rectangular(g)
    ensures HasShape(r, |g|, Cols(g))
    ensures 0.0 < t < 1.0 && Bounded(g, 0.0, 1.0) ==>
              forall i, j | 0 <= i < |g| && 0 <= j < Cols(g) ::
                (r[i][j] == 0.0 || r[i][j] == 1.0) && (r[i][j] == 1.0 <==> g[i][j] > t)
  {
    var r := ReclassGrid(ShadowTable(t), g);
    if 0.0 < t < 1.0 && Bounded(g, 0.0, 1.0) then
      forall i, j | 0 <= i < |g| && 0 <= j < Cols(g)
        ensures (r[i][j] == 0.0 || r[i][j] == 1.0) && (r[i][j] == 1.0 <==> g[i][j] > t)
      {
        ShadowTableBinary(t, g[i][j]);
      }
      r
    else r
  }

  /** The raster calculator's `A * B * C * D`. */
  function Composite(a: Grid, b: Grid, c: Grid, d: Grid): (r: Grid)
    requires SameShape(a, b) && SameShape(a, c) && SameShape(a, d)
    ensures HasShape(r, |a|, Cols(a))
  {
    Mul(Mul(Mul(a, b), c), d)
  }

  /** On 0/1 grids the product is the conjunction: 1 exactly where all four are 1, 0 elsewhere. */
  lemma CompositeIsConjunction(a: Grid, b: Grid, c: Grid, d: Grid, i: nat, j: nat)
    requires SameShape(a, b) && SameShape(a, c) && SameShape(a, d)
    requires i < |a| && j < Cols(a)
    requires a[i][j] in {0.0, 1.0} && b[i][j] in {0.0, 1.0} && c[i][j] in {0.0, 1.0} && d[i][j] in {0.0, 1.0}
    ensures Composite(a, b, c, d)[i][j] in {0.0, 1.0}
    ensures Composite(a, b, c, d)[i][j] == 1.0 <==> a[i][j] == 1.0 && b[i][j] == 1.0 && c[i][j] == 1.0 && d[i][j] == 1.0
  {
    var ab := Mul(a, b);
    var abc := Mul(ab, c);
    assert ab[i][j] in {0.0, 1.0} && (ab[i][j] == 1.0 <==> a[i][j] == 1.0 && b[i][j] == 1.0);
    assert abc[i][j] in {0.0, 1.0} && (abc[i][j] == 1.0 <==> ab[i][j] == 1.0 && c[i][j] == 1.0);
  }

  /** A product of two fractions is a fraction no larger than either. */
  lemma FractionProduct(x: real, y: real, p: real)
    requires 0.0 <= x <= 1.0 && 0.0 <= y <= 1.0 && p == x * y
    ensures 0.0 <= p <= x && p <= y
  {
    if x == 0.0 || y == 0.0 {
      assert p == 0.0;
    } else {
      assert 0.0 < x * y;
      assert x - p == x * (1.0 - y) && (y == 1.0 || 0.0 < x * (1.0 - y));
      assert y - p == (1.0 - x) * y && (x == 1.0 || 0.0 < (1.0 - x) * y);
    }
  }

  /** A product of four fractions is a fraction no larger than any factor. */
  lemma FractionChain(x: real, y: real, z: real, v: real, p: real)
    requires 0.0 <= x <= 1.0 && 0.0 <= y <= 1.0 && 0.0 <= z <= 1.0 && 0.0 <= v <= 1.0
    requires p == ((x * y) * z) * v
    ensures 0.0 <= p <= 1.0 && p <= x && p <= y && p <= z && p <= v
  {
    var xy := x * y;
    FractionProduct(x, y, xy);
    var xyz := xy * z;
    FractionProduct(xy, z, xyz);
    FractionProduct(xyz, v, p);
  }

  /** On grids of fractions the product lies in [0, 1] and below each factor. */
  lemma CompositeBelowEach(a: Grid, b: Grid, c: Grid, d: Grid, i: nat, j: nat)
    requires SameShape(a, b) && SameShape(a, c) && SameShape(a, d)
    requires i < |a| && j < Cols(a)
    requires 0.0 <= a[i][j] <= 1.0 && 0.0 <= b[i][j] <= 1.0 && 0.0 <= c[i][j] <= 1.0 && 0.0 <= d[i][j] <= 1.0
    ensures 0.0 <= Composite(a, b, c, d)[i][j] <= 1.0
    ensures Composite(a, b, c, d)[i][j] <= a[i][j] && Composite(a, b, c, d)[i][j] <= b[i][j]
    ensures Composite(a, b, c, d)[i][j] <= c[i][j] && Composite(a, b, c, d)[i][j] <= d[i][j]
  {
    CompositeCell(a, b, c, d, i, j);
    FractionChain(a[i][j], b[i][j], c[i][j], d[i][j], Composite(a, b, c, d)[i][j]);
  }

  /** A cell of the product is the product of the four cells, multiplied left to right. */
  lemma CompositeCell(a: Grid, b: Grid, c: Grid, d: Grid, i: nat, j: nat)
    requires SameShape(a, b) && SameShape(a, c) && SameShape(a, d)
    requires i < |a| && j < Cols(a)
    ensures Composite(a, b, c, d)[i][j] == ((a[i][j] * b[i][j]) * c[i][j]) * d[i][j]
  {
    var ab := Mul(a, b);
    var abc := Mul(ab, c);
    assert ab[i][j] == a[i][j] * b[i][j];
    assert abc[i][j] == ab[i][j] * c[i][j];
    assert Mul(abc, d)[i][j] == abc[i][j] * d[i][j];
  }

  /** The four daily means have the local shape and hold fractions, where they are numbers at all. */
  predicate MeansFit(means: seq<Mean>, h: nat, w: nat)
  {
    |means| == |Dates| &&
    forall d | 0 <= d < |means| && means[d].Averaged? :: HasShape(means[d].grid, h, w) && Bounded(means[d].grid, 0.0, 1.0)
  }

  /** The binary raster of reclassification call `k`. */
  function CallBinary(means: seq<Mean>, h: nat, w: nat, k: nat): (r: Grid)
    requires MeansFit(means, h, w) && k < |ReclassCalls|
    requires means[ReclassCalls[k].date].Averaged?
    ensures HasShape(r, h, w)
  {
    Binary(means[ReclassCalls[k].date].grid, Thresholds(ReclassCalls, 0.5)[k])
  }

  /** The binary raster of day `d`, made by the call that reads it. */
  function DayBinary(means: seq<Mean>, h: nat, w: nat, d: nat): (r: Grid)
    requires MeansFit(means, h, w) && d < |Dates| && means[d].Averaged?
    ensures HasShape(r, h, w)
  {
    CallsUseDateThresholds(0.5);
    CallBinary(means, h, w, CallOfDate[d])
  }

  /** A cell of day `d`'s binary is 0 or 1, and 1 exactly above that day's threshold. */
  lemma DayBinaryCell(means: seq<Mean>, h: nat, w: nat, d: nat, i: nat, j: nat)
    requires MeansFit(means, h, w) && d < |Dates| && means[d].Averaged? && i < h && j < w
    ensures DayBinary(means, h, w, d)[i][j] in {0.0, 1.0}
    ensures DayBinary(means, h, w, d)[i][j] == 1.0 <==> means[d].grid[i][j] > DateThresholds[d]
  {
    CallsUseDateThresholds(0.5);
    ThresholdsInside(0.5);
  }

  /**
   * The shadow binary `A * B * C * D` with A March, B June, C September and
   * D December, each read from the binary of the call that reclassified it.
   * One NaN day makes it NaN.
   */
  function ShadowBinary(means: seq<Mean>, h: nat, w: nat): (r: Mean)
    requires MeansFit(means, h, w)
    ensures r.AllNaN? <==> exists d | 0 <= d < |means| :: means[d].AllNaN?
    ensures r.Averaged? ==> HasShape(r.grid, h, w)
  {
    if exists d | 0 <= d < |means| :: means[d].AllNaN? then AllNaN
    else
      Averaged(Composite(DayBinary(means, h, w, 0), DayBinary(means, h, w, 1),
                         DayBinary(means, h, w, 2), DayBinary(means, h, w, 3)))
  }

  /**
   * A cell of the shadow binary is 0 or 1, and 1 exactly when the cell's
   * mean sunlit fraction exceeds the day's threshold on all four days.
   */
  lemma ShadowBinaryMeaning(means: seq<Mean>, h: nat, w: nat, i: nat, j: nat)
    requires MeansFit(means, h, w) && ShadowBinary(means, h, w).Averaged? && i < h && j < w
    ensures ShadowBinary(means, h, w).grid[i][j] in {0.0, 1.0}
    ensures ShadowBinary(means, h, w).grid[i][j] == 1.0 <==>
              forall d | 0 <= d < |Dates| :: means[d].grid[i][j] > DateThresholds[d]
  {
    assert means[0].Averaged? && means[1].Averaged? && means[2].Averaged? && means[3].Averaged?;
    var mar, jun, sep, dec := DayBinary(means, h, w, 0), DayBinary(means, h, w, 1), DayBinary(means, h, w, 2), DayBinary(means, h, w, 3);
    assert ShadowBinary(means, h, w).grid == Composite(mar, jun, sep, dec);
    DayBinaryCell(means, h, w, 0, i, j);
    DayBinaryCell(means, h, w, 1, i, j);
    DayBinaryCell(means, h, w, 2, i, j);
    DayBinaryCell(means, h, w, 3, i, j);
    CompositeIsConjunction(mar, jun, sep, dec, i, j);
    AllFourDays(means, i, j);
  }

  /** A property of all four days is the conjunction of the four. */
  lemma AllFourDays(means: seq<Mean>, i: nat, j: nat)
    requires |means| == |Dates| && means[0].Averaged? && means[1].Averaged? && means[2].Averaged? && means[3].Averaged?
    requires i < |means[0].grid| && i < |means[1].grid| && i < |means[2].grid| && i < |means[3].grid|
    requires j < |means[0].grid[i]| && j < |means[1].grid[i]| && j < |means[2].grid[i]| && j < |means[3].grid[i]|
    ensures (forall d | 0 <= d < |Dates| :: means[d].grid[i][j] > DateThresholds[d]) <==>
              means[0].grid[i][j] > DateThresholds[0] && means[1].grid[i][j] > DateThresholds[1] &&
              means[2].grid[i][j] > DateThresholds[2] && means[3].grid[i][j] > DateThresholds[3]
  {
  }

  /** What the shading loop guarantees about one day's result, for the local extent `h` by `w`. */
  predicate DayFits(r: Result<ShadowResult>, h: int, w: int)
  {
    r.Ok? ==>
      h >= 0 && w >= 0 && (r.value.shfinal.AllNaN? <==> |r.value.casterCalls| == 0) &&
      (r.value.shfinal.Averaged? ==> HasShape(r.value.shfinal.grid, h, w) && Bounded(r.value.shfinal.grid, 0.0, 1.0))
  }

  /** The four days' results, in the order of `Dates`. */
  function DayResults(ins: Inputs, toLonLat: ((real, real)) -> (real, real), e: Engines): (rs: seq<Result<ShadowResult>>)
    requires WellFormedInputs(ins) && ValidEngines(e)
    ensures |rs| == |Dates|
    ensures forall d | 0 <= d < |Dates| ::
              rs[d] == ShadeDate(ins, Dates[d], toLonLat, e) && DayFits(rs[d], ins.localExtent.height, ins.localExtent.width)
  {
    seq(|Dates|, d requires 0 <= d < |Dates| => ShadeDate(ins, Dates[d], toLonLat, e))
  }

  /** The days run one after the other, and the first failing day ends the step with its error. */
  function Collect(rs: seq<Result<ShadowResult>>): (r: Result<seq<ShadowResult>>)
    ensures r.Ok? <==> forall d | 0 <= d < |rs| :: rs[d].Ok?
    ensures r.Ok? ==> |r.value| == |rs| && forall d | 0 <= d < |rs| :: r.value[d] == rs[d].value
    ensures r.Err? ==> exists k | 0 <= k < |rs| :: rs[k] == Err(r.error) && forall m | 0 <= m < k :: rs[m].Ok?
  {
    if |rs| == 0 then Ok([])
    else if rs[0].Err? then Err(rs[0].error)
    else
      var rest := Collect(rs[1..]);
      assert forall d | 1 <= d < |rs| :: rs[d] == rs[1..][d - 1];
      if rest.Err? then
        var k :| 0 <= k < |rs[1..]| && rs[1..][k] == Err(rest.error) && forall m | 0 <= m < k :: rs[1..][m].Ok?;
        assert rs[k + 1] == Err(rest.error) && forall m | 0 <= m < k + 1 :: rs[m].Ok?;
        Err(rest.error)
      else Ok([rs[0].value] + rest.value)
  }

  /** The outcome of the step: the four days' shading, in date order, and the shadow binary. */
  datatype SeasonalResult = SeasonalResult(days: seq<ShadowResult>, binary: Mean)

  function Finals(days: seq<ShadowResult>): (ms: seq<Mean>)
    ensures |ms| == |days| && forall d | 0 <= d < |days| :: ms[d] == days[d].shfinal
  {
    seq(|days|, d requires 0 <= d < |days| => days[d].shfinal)
  }

  /**
   * The step after the shading: all four days must succeed, and then the
   * binary has no numbers exactly when the sun stays down all day on one of
   * them.
   */
  function Combine(rs: seq<Result<ShadowResult>>, h: int, w: int): (r: Result<SeasonalResult>)
    requires |rs| == |Dates| && forall d | 0 <= d < |rs| :: DayFits(rs[d], h, w)
    ensures r.Ok? <==> forall d | 0 <= d < |rs| :: rs[d].Ok?
    ensures r.Err? ==> Collect(rs).Err? && r.error == Collect(rs).error
    ensures r.Ok? ==> |r.value.days| == |rs| && forall d | 0 <= d < |rs| :: r.value.days[d] == rs[d].value
    ensures r.Ok? ==> (r.value.binary.AllNaN? <==> exists d | 0 <= d < |rs| :: |rs[d].value.casterCalls| == 0)
    ensures r.Ok? ==> (r.value.binary.AllNaN? <==> exists d | 0 <= d < |r.value.days| :: |r.value.days[d].casterCalls| == 0)
    ensures r.Ok? && r.value.binary.Averaged? ==> h >= 0 && w >= 0 && HasShape(r.value.binary.grid, h, w)
  {
    var days :- Collect(rs);
    var means := Finals(days);
    FinalsFit(rs, days, h, w);
    Ok(SeasonalResult(days, ShadowBinary(means, h, w)))
  }

  /** Four successful days give a non-negative shape, and their final means fit it. */
  lemma FinalsFit(rs: seq<Result<ShadowResult>>, days: seq<ShadowResult>, h: int, w: int)
    requires |rs| == |Dates| && forall d | 0 <= d < |rs| :: DayFits(rs[d], h, w)
    requires Collect(rs) == Ok(days)
    ensures h >= 0 && w >= 0 && MeansFit(Finals(days), h, w)
    ensures (exists d | 0 <= d < |Finals(days)| :: Finals(days)[d].AllNaN?) <==>
              exists d | 0 <= d < |rs| :: |rs[d].value.casterCalls| == 0
  {
    assert rs[0].Ok? && DayFits(rs[0], h, w);
    var means := Finals(days);
    assert forall d | 0 <= d < |rs| :: means[d] == rs[d].value.shfinal && DayFits(rs[d], h, w);
    forall d | 0 <= d < |means| && means[d].Averaged?
      ensures HasShape(means[d].grid, h, w) && Bounded(means[d].grid, 0.0, 1.0)
    {
      assert means[d] == rs[d].value.shfinal && DayFits(rs[d], h, w);
    }
  }

  /**
   * The seasonal shadow step: the four days shaded in order, then binarised
   * and multiplied. It succeeds exactly when every day does.
   */
  function SeasonalShadow(ins: Inputs, toLonLat: ((real, real)) -> (real, real), e: Engines): (r: Result<SeasonalResult>)
    requires WellFormedInputs(ins) && ValidEngines(e)
    ensures r.Ok? <==> forall d | 0 <= d < |Dates| :: ShadeDate(ins, Dates[d], toLonLat, e).Ok?
    ensures r.Ok? && r.value.binary.Averaged? ==>
              ins.localExtent.height >= 0 && ins.localExtent.width >= 0
              && HasShape(r.value.binary.grid, ins.localExtent.height, ins.localExtent.width)
  {
    Combine(DayResults(ins, toLonLat, e), ins.localExtent.height, ins.localExtent.width)
  }

  /** A successful step keeps the four days' results in date order. */
  lemma SeasonalShadowDays(ins: Inputs, toLonLat: ((real, real)) -> (real, real), e: Engines)
    requires WellFormedInputs(ins) && ValidEngines(e) && SeasonalShadow(ins, toLonLat, e).Ok?
    ensures var days := SeasonalShadow(ins, toLonLat, e).value.days;
            |days| == |Dates| && forall d | 0 <= d < |Dates| :: ShadeDate(ins, Dates[d], toLonLat, e) == Ok(days[d])
  {
    var rs := DayResults(ins, toLonLat, e);
    var r := Combine(rs, ins.localExtent.height, ins.localExtent.width);
    assert SeasonalShadow(ins, toLonLat, e) == r;
    var days := r.value.days;
    forall d | 0 <= d < |Dates| ensures ShadeDate(ins, Dates[d], toLonLat, e) == Ok(days[d]) {
      assert rs[d] == ShadeDate(ins, Dates[d], toLonLat, e) && rs[d].Ok?;
      assert days[d] == rs[d].value;
    }
  }

  /** A successful step's binary has no numbers exactly when the sun stays down all day on one of the dates. */
  lemma SeasonalShadowNaN(ins: Inputs, toLonLat: ((real, real)) -> (real, real), e: Engines)
    requires WellFormedInputs(ins) && ValidEngines(e) && SeasonalShadow(ins, toLonLat, e).Ok?
    ensures var r := SeasonalShadow(ins, toLonLat, e).value;
            r.binary.AllNaN? <==> exists d | 0 <= d < |r.days| :: |r.days[d].casterCalls| == 0
  {
    var rs := DayResults(ins, toLonLat, e);
    var r := Combine(rs, ins.localExtent.height, ins.localExtent.width);
    assert SeasonalShadow(ins, toLonLat, e) == r;
  }

  /** A failed step fails with the error of the first failing day. */
  lemma SeasonalShadowFirstError(ins: Inputs, toLonLat: ((real, real)) -> (real, real), e: Engines)
    requires WellFormedInputs(ins) && ValidEngines(e) && SeasonalShadow(ins, toLonLat, e).Err?
    ensures exists k | 0 <= k < |Dates| ::
              ShadeDate(ins, Dates[k], toLonLat, e) == Err(SeasonalShadow(ins, toLonLat, e).error)
              && forall m | 0 <= m < k :: ShadeDate(ins, Dates[m], toLonLat, e).Ok?
  {
    var rs := DayResults(ins, toLonLat, e);
    var r := Combine(rs, ins.localExtent.height, ins.localExtent.width);
    assert SeasonalShadow(ins, toLonLat, e) == r;
    var k :| 0 <= k < |rs| && rs[k] == Err(r.error) && forall m | 0 <= m < k :: rs[m].Ok?;
    assert forall m | 0 <= m < k :: rs[m] == ShadeDate(ins, Dates[m], toLonLat, e);
  }

  /** Cell `(i, j)` of mean `m` is a number above `t`. */
  predicate Above(m: Mean, i: nat, j: nat, t: real)
  {
    m.Averaged? && i < |m.grid| && j < |m.grid[i]| && m.grid[i][j] > t
  }

  /**
   * A cell of the seasonal shadow binary is 0 or 1, and 1 exactly when the
   * cell's mean sunlit fraction exceeds the day's threshold on all four days.
   */
  lemma SeasonalShadowCells(ins: Inputs, toLonLat: ((real, real)) -> (real, real), e: Engines, i: nat, j: nat)
    requires WellFormedInputs(ins) && ValidEngines(e)
    requires SeasonalShadow(ins, toLonLat, e).Ok? && SeasonalShadow(ins, toLonLat, e).value.binary.Averaged?
    requires i < ins.localExtent.height && j < ins.localExtent.width
    ensures SeasonalShadow(ins, toLonLat, e).value.binary.grid[i][j] in {0.0, 1.0}
    ensures SeasonalShadow(ins, toLonLat, e).value.binary.grid[i][j] == 1.0 <==>
              forall d | 0 <= d < |Dates| :: Above(SeasonalShadow(ins, toLonLat, e).value.days[d].shfinal, i, j, DateThresholds[d])
  {
    var rs := DayResults(ins, toLonLat, e);
    var h: nat, w: nat := ins.localExtent.height, ins.localExtent.width;
    var days := SeasonalShadow(ins, toLonLat, e).value.days;
    assert Collect(rs) == Ok(days);
    FinalsFit(rs, days, h, w);
    var means := Finals(days);
    assert SeasonalShadow(ins, toLonLat, e).value.binary == ShadowBinary(means, h, w);
    ShadowBinaryMeaning(means, h, w, i, j);
    forall d | 0 <= d < |Dates|
      ensures Above(days[d].shfinal, i, j, DateThresholds[d]) <==> means[d].grid[i][j] > DateThresholds[d]
    {
      assert means[d] == days[d].shfinal && means[d].Averaged?;
    }
  }

  /** Without the wide area, one day's shading reads neither the wide raster nor the wide extent. */
  lemma ShadeDateWideUnread(ins: Inputs, wide: RasterSource, wideExtent: Extent, d: ShadingDate,
                            toLonLat: ((real, real)) -> (real, real), e: Engines)
    requires WellFormedInputs(ins) && ValidEngines(e) && Rectangular(wide.cells) && !ins.useWideArea
    ensures ShadeDate(ins.(wide := wide, wideExtent := wideExtent), d, toLonLat, e) == ShadeDate(ins, d, toLonLat, e)
  {
    var ins' := ins.(wide := wide, wideExtent := wideExtent);
    assert AssembleArgs(ins'.dsm, ins'.wide, Request(ins', d), toLonLat) == AssembleArgs(ins.dsm, ins.wide, Request(ins, d), toLonLat);
  }

  /** Without the wide area, the step reads neither the wide raster nor the wide extent. */
  lemma WideInputsUnread(ins: Inputs, wide: RasterSource, wideExtent: Extent,
                         toLonLat: ((real, real)) -> (real, real), e: Engines)
    requires WellFormedInputs(ins) && ValidEngines(e) && Rectangular(wide.cells) && !ins.useWideArea
    ensures SeasonalShadow(ins.(wide := wide, wideExtent := wideExtent), toLonLat, e) == SeasonalShadow(ins, toLonLat, e)
  {
    var ins' := ins.(wide := wide, wideExtent := wideExtent);
    forall d | 0 <= d < |Dates| ensures DayResults(ins', toLonLat, e)[d] == DayResults(ins, toLonLat, e)[d] {
      ShadeDateWideUnread(ins, wide, wideExtent, Dates[d], toLonLat, e);
    }
    assert DayResults(ins', toLonLat, e) == DayResults(ins, toLonLat, e);
  }
}

=== FILE: sebe.dfy ===
/**
 * The two SEBE steps the solar calculation drives directly:
 * `readMeteorologicalData`, which loads the 24-column meteorological table
 * and rejects it on a bad global-radiation (Kdown) value or a wrong column
 * count, and `calculateSebeParameters`, which pre-processes the surface
 * model and derives the values the irradiance worker needs.
 */
module Sebe {
  import opened Common
  import opened Grids
  import opened DsmPreprocess

  /** Column of the global shortwave radiation (Kdown) in the table. */
  const KdownColumn: nat := 14
  const MaxKdown: real := 1300.0
  const MetColumns: nat := 24

  /** A table row read as numbers; rows of different lengths are a load failure. */
  type Table = seq<seq<real>>

  predicate KdownOutOfBounds(row: seq<real>)
    requires |row| > KdownColumn
  {
    row[KdownColumn] < 0.0 || row[KdownColumn] > MaxKdown
  }

  /** The 1-based numbers of rows `0..n-1` whose Kdown is out of range, in increasing order. */
  function BadKdownRows(t: Table, n: nat): (r: seq<nat>)
    requires n <= |t| && forall i | 0 <= i < |t| :: |t[i]| > KdownColumn
    ensures forall x, y | 0 <= x < y < |r| :: r[x] < r[y]
    ensures forall k | k in r :: 1 <= k <= n
    ensures forall k | 1 <= k <= n :: k in r <==> KdownOutOfBounds(t[k - 1])
  {
    if n == 0 then []
    else
      var prefix := BadKdownRows(t, n - 1);
      assert forall x | 0 <= x < |prefix| :: prefix[x] in prefix;
      if KdownOutOfBounds(t[n - 1]) then prefix + [n] else prefix
  }

  /**
   * `readMeteorologicalData` on the rows after the header. A file with a
   * single data row (or a single column) loads as a one-dimensional array,
   * so its column 14 does not exist.
   */
  function ReadMeteorologicalData(t: Table): (r: Result<Table>)
    ensures !Rectangular(t) ==> r == Err(ImportFailure)
    ensures Rectangular(t) && (|t| <= 1 || Cols(t) <= KdownColumn) ==> r == Err(IndexOutOfRange)
    ensures r.Ok? <==>
              Rectangular(t) && |t| >= 2 && Cols(t) == MetColumns &&
              forall i | 0 <= i < |t| :: 0.0 <= t[i][KdownColumn] <= MaxKdown
    ensures r.Ok? ==> r.value == t
    // the Kdown check comes first and names every offending row (1-based)
    ensures r.Err? && r.error.KdownOutOfRange? ==>
              |r.error.rows| > 0 &&
              forall k :: k in r.error.rows <==> 1 <= k <= |t| && KdownOutOfBounds(t[k - 1])
    ensures (Rectangular(t) && |t| >= 2 && Cols(t) > KdownColumn &&
             exists i | 0 <= i < |t| :: KdownOutOfBounds(t[i])) ==> r.Err? && r.error.KdownOutOfRange?
    ensures r.Err? && r.error.WrongColumnCount? ==> r.error.cols == Cols(t) != MetColumns
  {
    if !Rectangular(t) then Err(ImportFailure)
    else if |t| <= 1 || Cols(t) <= KdownColumn then Err(IndexOutOfRange)
    else
      var bad := BadKdownRows(t, |t|);
      assert |bad| == 0 <==> forall i | 0 <= i < |t| :: !KdownOutOfBounds(t[i]) by {
        if |bad| > 0 {
          assert bad[0] in bad;
        } else {
          forall i | 0 <= i < |t| ensures !KdownOutOfBounds(t[i]) {
            assert (i + 1 in bad) <==> KdownOutOfBounds(t[i]);
          }
        }
      }
      if |bad| > 0 then Err(KdownOutOfRange(bad))
      else if Cols(t) != MetColumns then Err(WrongColumnCount(Cols(t)))
      else Ok(t)
  }

  /** Both range ends are accepted. */
  lemma KdownBoundsInclusive(row0: seq<real>, row1: seq<real>)
    requires |row0| == |row1| == MetColumns
    requires row0[KdownColumn] == 0.0 && row1[KdownColumn] == MaxKdown
    ensures ReadMeteorologicalData([row0, row1]) == Ok([row0, row1])
  {
    var t := [row0, row1];
    assert Cols(t) == MetColumns;
  }

  datatype Site = Site(longitude: real, latitude: real, altitude: real)

  /** The values `calculateSebeParameters` hands to the irradiance worker. */
  datatype SebeParams = SebeParams(
    slope: Grid, aspect: Grid, scale: real, voxelheight: real, sizey: nat, sizex: nat,
    site: Site, dsm: Grid)

  /**
   * `calculateSebeParameters`. `toLonLat` is the transform to WGS 84 and
   * `ders` the slope/aspect routine `get_ders`. The returned `dsm` is the
   * caller's array, which the nodata zeroing changed in place; the lift by
   * the minimum rebinds `self.dsm` only, and the median height and the
   * derivatives are taken of the lifted grid.
   */
  function CalculateSebeParameters(src: RasterSource, toLonLat: ((real, real)) -> (real, real),
                                   ders: (Grid, real) -> (Grid, Grid)): (r: Result<SebeParams>)
    requires Rectangular(src.cells)
    ensures r.Ok? <==> |Flatten(src.cells)| > 0 && src.gt.g1 != 0.0
    ensures r.Err? ==> r.error == (if |Flatten(src.cells)| == 0 then EmptyReduction else ZeroDivision)
    ensures r.Ok? ==> r.value.dsm == ZeroNodata(src.cells, src.nodata)
    ensures r.Ok? ==> r.value.sizex == |src.cells| && r.value.sizey == Cols(src.cells)
    ensures r.Ok? ==> r.value.voxelheight == src.gt.g1 != 0.0 && r.value.scale == 1.0 / r.value.voxelheight
    ensures r.Ok? ==>
              var lifted := ShiftByMin(ZeroNodata(src.cells, src.nodata)).value;
              (r.value.slope, r.value.aspect) == ders(lifted, r.value.scale) &&
              Median(Flatten(lifted)) == Some(r.value.site.altitude)
    ensures r.Ok? ==> (r.value.site.longitude, r.value.site.latitude) == toLonLat(Corner(src.gt, src.xSize, src.ySize))
  {
    var dsm := ZeroNodata(src.cells, src.nodata);
    var lifted :- ShiftByMin(dsm);
    var scale :- Scale(src.gt);
    var (lon, lat) := toLonLat(Corner(src.gt, src.xSize, src.ySize));
    MedianOfNonNegative(lifted);
    var alt := Median(Flatten(lifted)).value;
    var alt' := if alt < 0.0 then 3.0 else alt;
    var (slope, aspect) := ders(lifted, scale);
    Ok(SebeParams(slope, aspect, scale, src.gt.g1, Cols(src.cells), |src.cells|, Site(lon, lat, alt'), dsm))
  }

  /** A lifted grid is non-negative, so its median exists and is not negative. */
  lemma MedianOfNonNegative(g: Grid)
    requires Rectangular(g) && |Flatten(g)| > 0
    requires forall i, j | 0 <= i < |g| && 0 <= j < Cols(g) :: g[i][j] >= 0.0
    ensures Median(Flatten(g)).Some? && Median(Flatten(g)).value >= 0.0
  {
    FlattenMembers(g);
    var f := Flatten(g);
    forall x | x in f ensures 0.0 <= x {
      var i, j :| 0 <= i < |g| && 0 <= j < |g[i]| && x == g[i][j];
    }
    MedianAtLeast(f, 0.0);
  }

  /** The `alt < 0` fallback to 3 m never fires: the site altitude is the plain median, at least 0. */
  lemma AltitudeFallbackUnreachable(src: RasterSource, toLonLat: ((real, real)) -> (real, real),
                                    ders: (Grid, real) -> (Grid, Grid))
    requires Rectangular(src.cells) && CalculateSebeParameters(src, toLonLat, ders).Ok?
    ensures CalculateSebeParameters(src, toLonLat, ders).value.site.altitude >= 0.0
  {
    var dsm := ZeroNodata(src.cells, src.nodata);
    MedianOfNonNegative(ShiftByMin(dsm).value);
  }
}

=== FILE: shadow_generator.dfy ===
/**
 * `ShadowGenerator.calculateShadowRaster` and `calculateScaleParameters`:
 * the rasters are read, pre-processed, measured, and handed to
 * `dailyshading` together with the date and both extents.
 *
 * `calculateScaleParameters` zeroes nodata cells in the caller's own array
 * but lifts a grid by its minimum only in a local variable it then drops, so
 * the grid `dailyshading` receives is nodata-zeroed and not lifted. The
 * lift still runs, and its `min()` still fails on an empty grid.
 */
module ShadowGenerator {
  import opened Common
  import opened Grids
  import opened Calendar
  import opened SolarConstants
  import opened DsmPreprocess
  import opened DailyShading

  /** What `calculateScaleParameters` returns besides the change to the caller's array. */
  datatype ScaleParams = ScaleParams(scale: real, lonlat: (real, real), sizex: nat, sizey: nat, gt: GeoTransform)

  /**
   * `calculateScaleParameters`; yields the caller's array after the call
   * together with the returned values. `toLonLat` is the coordinate
   * transform to WGS 84.
   */
  function CalculateScaleParameters(src: RasterSource, toLonLat: ((real, real)) -> (real, real)): (r: Result<(Grid, ScaleParams)>)
    requires Rectangular(src.cells)
    ensures r.Ok? <==> |Flatten(src.cells)| > 0 && src.gt.g1 != 0.0
    ensures r.Err? ==> r.error == (if |Flatten(src.cells)| == 0 then EmptyReduction else ZeroDivision)
    ensures r.Ok? ==> r.value.0 == ZeroNodata(src.cells, src.nodata)
    ensures r.Ok? ==> r.value.1.sizex == Cols(src.cells) && r.value.1.sizey == |src.cells|
    ensures r.Ok? ==> r.value.1.scale * src.gt.g1 == 1.0 && r.value.1.gt == src.gt
    ensures r.Ok? ==> r.value.1.lonlat == toLonLat(Corner(src.gt, src.xSize, src.ySize))
  {
    var dsm := ZeroNodata(src.cells, src.nodata);
    var _ :- ShiftByMin(dsm);
    var scale :- Scale(src.gt);
    Ok((dsm, ScaleParams(scale, toLonLat(Corner(src.gt, src.xSize, src.ySize)), Cols(dsm), |dsm|, src.gt)))
  }

  /** The date and time fields of one shading call. */
  datatype ShadowRequest = ShadowRequest(
    useWideArea: bool, wideExtent: Extent, localExtent: Extent,
    year: int, month: int, day: int, hour: int, minu: int, sec: int,
    utc: int, interval: int, dst: int, onetime: int)

  /**
   * The wide-area input of `dailyshading`: read and measured only when the
   * wide area is used.
   */
  function WideArg(wide: RasterSource, q: ShadowRequest, toLonLat: ((real, real)) -> (real, real)): (r: Result<Option<WideInput>>)
    requires Rectangular(wide.cells)
    ensures !q.useWideArea ==> r == Ok(None)
    ensures q.useWideArea ==> (r.Ok? <==> CalculateScaleParameters(wide, toLonLat).Ok?)
    ensures r.Ok? && q.useWideArea ==>
              r.value.Some? && Rectangular(r.value.value.grid) &&
              r.value.value.grid == ZeroNodata(wide.cells, wide.nodata) &&
              r.value.value.scale * wide.gt.g1 == 1.0 && r.value.value.extent == q.wideExtent
    ensures r.Err? ==> r.error == EmptyReduction || r.error == ZeroDivision
  {
    if q.useWideArea then
      var (wgrid, wparams) :- CalculateScaleParameters(wide, toLonLat);
      Ok(Some(WideInput(wgrid, wparams.scale, q.wideExtent)))
    else Ok(None)
  }

  /** The arguments `calculateShadowRaster` passes to `dailyshading`. */
  function AssembleArgs(dsm: RasterSource, wide: RasterSource, q: ShadowRequest,
                        toLonLat: ((real, real)) -> (real, real)): (r: Result<ShadingArgs>)
    requires Rectangular(dsm.cells) && Rectangular(wide.cells)
    ensures r.Ok? <==> CalculateScaleParameters(dsm, toLonLat).Ok? && WideArg(wide, q, toLonLat).Ok?
    ensures r.Ok? ==> WellFormed(r.value) && r.value.wide == WideArg(wide, q, toLonLat).value
    // the local grid is nodata-zeroed but not lifted
    ensures r.Ok? ==> r.value.local == ZeroNodata(dsm.cells, dsm.nodata)
    ensures r.Ok? ==> r.value.scale * dsm.gt.g1 == 1.0
    ensures r.Ok? ==> r.value.lonlat == toLonLat(Corner(dsm.gt, dsm.xSize, dsm.ySize))
    ensures r.Ok? ==> r.value.tv == TimeVector(q.year, q.month, q.day, q.hour, q.minu, q.sec)
    ensures r.Ok? ==> r.value.localExtent == q.localExtent && r.value.utc == q.utc &&
                      r.value.interval == q.interval && r.value.onetime == q.onetime && r.value.dst == q.dst
  {
    var (grid, params) :- CalculateScaleParameters(dsm, toLonLat);
    var wideInput :- WideArg(wide, q, toLonLat);
    Ok(ShadingArgs(grid, wideInput, params.lonlat, params.scale, q.localExtent,
                   TimeVector(q.year, q.month, q.day, q.hour, q.minu, q.sec),
                   q.utc, q.interval, q.onetime, q.dst))
  }

  /**
   * `calculateShadowRaster`: the assembled arguments go to `dailyshading`.
   * A failure reading or measuring a raster is the result's failure; a
   * negative local extent always fails; without the wide area a schedule of
   * known length over a DSM of the local extent's shape always succeeds. A
   * success ran the caster on exactly the sun-up steps of the day the
   * request names, and its means are the averaged sums of those steps'
   * grids: NaN when the sun never rose, otherwise of the local extent's
   * shape and within [0, 1]; without the wide area the local-only mean is
   * the combined mean.
   */
  function CalculateShadowRaster(dsm: RasterSource, wide: RasterSource, q: ShadowRequest,
                                 toLonLat: ((real, real)) -> (real, real), e: Engines): (r: Result<ShadowResult>)
    requires Rectangular(dsm.cells) && Rectangular(wide.cells) && ValidEngines(e)
    ensures AssembleArgs(dsm, wide, q, toLonLat).Err? ==> r == Err(AssembleArgs(dsm, wide, q, toLonLat).error)
    ensures q.localExtent.height < 0 || q.localExtent.width < 0 ==> r.Err?
    ensures (AssembleArgs(dsm, wide, q, toLonLat).Ok? && !q.useWideArea
             && q.localExtent.height >= 0 && q.localExtent.width >= 0
             && StepsPerDay(q.onetime, q.interval).Ok? && StepsPerDay(q.onetime, q.interval).value >= 0
             && HasShape(dsm.cells, q.localExtent.height, q.localExtent.width)) ==> r.Ok?
    ensures r.Ok? ==>
              AssembleArgs(dsm, wide, q, toLonLat).Ok?
              && var args := AssembleArgs(dsm, wide, q, toLonLat).value;
              StepTimes(args).Ok?
              && CallsAreSunUpSteps(args, e, StepTimes(args).value, |StepTimes(args).value|, r.value.casterCalls)
              && RunMeans(args, e, r.value)
    ensures r.Ok? ==> (r.value.shfinal.AllNaN? <==> |r.value.casterCalls| == 0)
    ensures r.Ok? && r.value.shfinal.Averaged? ==>
              HasShape(r.value.shfinal.grid, q.localExtent.height, q.localExtent.width)
              && Bounded(r.value.shfinal.grid, 0.0, 1.0)
    ensures r.Ok? && !q.useWideArea ==> r.value.shlocal == r.value.shfinal && r.value.shwide.None?
    ensures r.Ok? && q.useWideArea ==> r.value.shwide.Some?
  {
    var args :- AssembleArgs(dsm, wide, q, toLonLat);
    var r := Run(args, e);
    if q.localExtent.height >= 0 && q.localExtent.width >= 0
       && HasShape(dsm.cells, q.localExtent.height, q.localExtent.width) then
      ZeroNodataShape(dsm, q.localExtent.height, q.localExtent.width);
      if r.Ok? then RunOutcome(args, e); r else r
    else
    if r.Ok? then RunOutcome(args, e); r else r
  }

  /** The nodata-zeroed DSM keeps the shape of the DSM. */
  lemma ZeroNodataShape(dsm: RasterSource, h: nat, w: nat)
    requires Rectangular(dsm.cells) && HasShape(dsm.cells, h, w)
    ensures HasShape(ZeroNodata(dsm.cells, dsm.nodata), h, w)
  {
    if h > 0 {
      assert Cols(dsm.cells) == |dsm.cells[0]|;
    }
  }
}

=== FILE: solar_constants.dfy ===
/**
 * Global constants of the solar pipeline and the `Extent` value class:
 * the integer bounding box of a raster layer, used to align the coarse
 * wide-area grid with the fine local grid.
 */
module SolarConstants {
  import opened Common

  /**
   * Debug switch: always off, so every branch guarded by a call `isDebug()`
   * is dead. A branch guarded by the bare function object `isDebug` is not:
   * a function object is true.
   */
  function IsDebug(): (r: bool)
    ensures !r
  {
    false
  }

  const WallLimit: int := 3
  const UtcOffset: int := 0
  const Albedo: real := 0.15
  /** Ground-reflection transmissivity (3% transmission). */
  const Psi: real := 0.03
  /** Resolution of the wide-area grid after resampling, in metres. */
  const ScaleFactor: int := 10
  /** Nodata sentinel written into every derived raster. */
  const NoData: real := -9999.0

  /** Floating-point bounds of a raster layer as the host reports them. */
  datatype LayerBounds = LayerBounds(xMinimum: real, xMaximum: real, yMinimum: real, yMaximum: real)

  datatype Extent = Extent(xmin: int, xmax: int, ymin: int, ymax: int, width: int, height: int)

  /** The `Extent(rasterLayer)` constructor. */
  function MakeExtent(b: LayerBounds): (e: Extent)
    ensures e.xmin == Trunc(b.xMinimum) && e.xmax == Trunc(b.xMaximum)
    ensures e.ymin == Trunc(b.yMinimum) && e.ymax == Trunc(b.yMaximum)
    // each bound lies within one unit of the host's bound, on the side of zero
    ensures Abs(b.xMinimum - e.xmin as real) < 1.0 && Abs(b.xMaximum - e.xmax as real) < 1.0
    ensures Abs(b.yMinimum - e.ymin as real) < 1.0 && Abs(b.yMaximum - e.ymax as real) < 1.0
    ensures Abs(e.xmin as real) <= Abs(b.xMinimum) && Abs(e.xmax as real) <= Abs(b.xMaximum)
    ensures Abs(e.ymin as real) <= Abs(b.yMinimum) && Abs(e.ymax as real) <= Abs(b.yMaximum)
    ensures e.width == e.xmax - e.xmin && e.height == e.ymax - e.ymin
  {
    var xmin := Trunc(b.xMinimum);
    var xmax := Trunc(b.xMaximum);
    var ymin := Trunc(b.yMinimum);
    var ymax := Trunc(b.yMaximum);
    Extent(xmin, xmax, ymin, ymax, xmax - xmin, ymax - ymin)
  }

  /** Ordered host bounds give a non-negative width and height. */
  lemma ExtentSizeNonNegative(b: LayerBounds)
    requires b.xMinimum <= b.xMaximum && b.yMinimum <= b.yMaximum
    ensures MakeExtent(b).width >= 0 && MakeExtent(b).height >= 0
  {
    TruncMonotone(b.xMinimum, b.xMaximum);
    TruncMonotone(b.yMinimum, b.yMaximum);
  }

  /** Integral host bounds are kept exactly, so width/height are the true sizes. */
  lemma ExtentExactOnIntegralBounds(b: LayerBounds)
    requires IsIntegral(b.xMinimum) && IsIntegral(b.xMaximum)
    requires IsIntegral(b.yMinimum) && IsIntegral(b.yMaximum)
    ensures MakeExtent(b).width as real == b.xMaximum - b.xMinimum
    ensures MakeExtent(b).height as real == b.yMaximum - b.yMinimum
  {
    TruncIntegral(b.xMinimum);
    TruncIntegral(b.xMaximum);
    TruncIntegral(b.yMinimum);
    TruncIntegral(b.yMaximum);
  }
}

=== FILE: sort_results.dfy ===
/**
 * The ranking step: the suitable roofs sorted by yearly output, highest
 * first, roofs of equal output in input order; then renumbered from 1 and
 * written, in that order, to the sink and to a CSV file under the layer's
 * own field names.
 */
module SortResults {
  import opened Common
  import opened Features

  const IdField: string := "id"
  /** `ROOF_ENERGY_ATTRIBUTE_NAME`. */
  const EnergyField: string := "Output_kwh"

  /** The order of an energy value: numbers compare, anything else does not. */
  function Key(v: Value): Option<real>
  {
    match v
    case IntV(i) => Some(i as real)
    case RealV(x) => Some(x)
    case _ => None
  }

  /** Every feature's energy value is a number. */
  predicate AllNumeric(fields: seq<string>, fs: seq<Feature>)
    requires EnergyField in fields && forall k | 0 <= k < |fs| :: Fits(fields, fs[k])
  {
    forall k | 0 <= k < |fs| :: Key(Get(fields, fs[k], EnergyField).value).Some?
  }

  /**
   * `getEnergy` on every feature, as `sorted` calls it: a KeyError when the
   * layer has no output field, and with two or more features a value
   * without an order makes the comparison raise. A lone feature is never
   * compared, so its key does not matter.
   */
  function Keys(fields: seq<string>, fs: seq<Feature>): (r: Result<seq<real>>)
    requires forall k | 0 <= k < |fs| :: Fits(fields, fs[k])
    ensures r.Err? <==> |fs| >= 1 && (EnergyField !in fields || (|fs| >= 2 && !AllNumeric(fields, fs)))
    ensures r.Err? ==> r.error == (if EnergyField !in fields then MissingAttribute(EnergyField) else Unorderable)
    ensures r.Ok? ==> |r.value| == |fs|
    ensures r.Ok? && |fs| >= 2 ==> forall k | 0 <= k < |fs| :: Key(Get(fields, fs[k], EnergyField).value) == Some(r.value[k])
  {
    if |fs| == 0 then Ok([])
    else if EnergyField !in fields then Err(MissingAttribute(EnergyField))
    else if |fs| >= 2 && !AllNumeric(fields, fs) then Err(Unorderable)
    else
      Ok(seq(|fs|, k requires 0 <= k < |fs| =>
        match Key(Get(fields, fs[k], EnergyField).value)
        case Some(x) => x
        case None => 0.0))
  }

  /** `a` comes before `b` in `sorted(..., reverse=True)`: a higher key, or an equal key and an earlier position. */
  predicate Before(keys: seq<real>, a: nat, b: nat)
    requires a < |keys| && b < |keys|
  {
    keys[a] > keys[b] || (keys[a] == keys[b] && a < b)
  }

  /** Positions into `keys`, each strictly before the next. */
  predicate Ordered(keys: seq<real>, s: seq<nat>)
  {
    (forall i | 0 <= i < |s| :: s[i] < |keys|) &&
    forall i, j | 0 <= i < j < |s| :: Before(keys, s[i], s[j])
  }

  /** The positions `0 .. n-1` in order. */
  function Range(n: nat): (s: seq<nat>)
    ensures |s| == n && forall i | 0 <= i < n :: s[i] == i
  {
    seq(n, i requires 0 <= i < n => i)
  }

  /** Insertion of a position behind every element with a key at least as high. */
  function Insert(keys: seq<real>, xs: seq<nat>, x: nat): (r: seq<nat>)
    requires x < |keys| && forall i | 0 <= i < |xs| :: xs[i] < |keys|
    ensures multiset(r) == multiset(xs) + multiset{x}
    ensures |r| == |xs| + 1
  {
    if |xs| == 0 then [x]
    else if keys[xs[0]] < keys[x] then [x] + xs
    else
      assert xs == [xs[0]] + xs[1..];
      [xs[0]] + Insert(keys, xs[1..], x)
  }

  /** Inserting a position later than all others keeps the sequence ordered. */
  lemma {:induction false} InsertOrdered(keys: seq<real>, xs: seq<nat>, x: nat)
    requires x < |keys| && Ordered(keys, xs)
    requires forall i | 0 <= i < |xs| :: xs[i] < x
    ensures Ordered(keys, Insert(keys, xs, x))
  {
    if |xs| == 0 {
    } else if keys[xs[0]] < keys[x] {
      InsertInFront(keys, xs, x);
    } else {
      var tail := Insert(keys, xs[1..], x);
      InsertOrdered(keys, xs[1..], x);
      forall j | 0 <= j < |tail| ensures Before(keys, xs[0], tail[j]) {
        assert tail[j] in multiset(tail);
        if tail[j] != x {
          assert tail[j] in multiset(xs[1..]);
          var m :| 0 <= m < |xs[1..]| && xs[1..][m] == tail[j];
          assert Before(keys, xs[0], xs[m + 1]);
        }
      }
      Cons(keys, xs[0], tail);
    }
  }

  /** A position with a higher key than the first goes in front. */
  lemma InsertInFront(keys: seq<real>, xs: seq<nat>, x: nat)
    requires x < |keys| && Ordered(keys, xs) && |xs| > 0 && keys[xs[0]] < keys[x]
    ensures Ordered(keys, [x] + xs)
  {
    forall j | 0 <= j < |xs| ensures Before(keys, x, xs[j]) {
      if j > 0 {
        assert Before(keys, xs[0], xs[j]);
      }
    }
    Cons(keys, x, xs);
  }

  /** An element before every element of an ordered sequence can go in front of it. */
  lemma Cons(keys: seq<real>, x: nat, xs: seq<nat>)
    requires x < |keys| && Ordered(keys, xs)
    requires forall j | 0 <= j < |xs| :: Before(keys, x, xs[j])
    ensures Ordered(keys, [x] + xs)
  {
    var r := [x] + xs;
    forall i, j | 0 <= i < j < |r| ensures Before(keys, r[i], r[j]) {
      assert r[j] == xs[j - 1];
      if i > 0 {
        assert r[i] == xs[i - 1];
      }
    }
  }

  lemma RangeSnoc(m: nat)
    ensures multiset(Range(m + 1)) == multiset(Range(m)) + multiset{m}
  {
    assert Range(m + 1) == Range(m) + [m];
  }

  /** A permutation of `0 .. n-1` holds only positions below `n`. */
  lemma Below(s: seq<nat>, n: nat)
    requires multiset(s) == multiset(Range(n))
    ensures forall i | 0 <= i < |s| :: s[i] < n
  {
    forall i | 0 <= i < |s| ensures s[i] < n {
      assert s[i] in multiset(Range(n));
      var k :| 0 <= k < n && Range(n)[k] == s[i];
    }
  }

  /** `sorted(range(n), key=keys, reverse=True)` by insertion of each position in turn. */
  function Sort(keys: seq<real>, n: nat): (s: seq<nat>)
    requires n <= |keys|
    ensures |s| == n && multiset(s) == multiset(Range(n))
    ensures Ordered(keys, s)
  {
    if n == 0 then []
    else
      var before := Sort(keys, n - 1);
      SortStep(keys, before, n - 1);
      Insert(keys, before, n - 1)
  }

  /** Inserting position `m` into an ordered permutation of `0 .. m-1` gives one of `0 .. m`. */
  lemma SortStep(keys: seq<real>, before: seq<nat>, m: nat)
    requires m < |keys| && multiset(before) == multiset(Range(m)) && Ordered(keys, before)
    ensures forall i | 0 <= i < |before| :: before[i] < |keys|
    ensures var s := Insert(keys, before, m);
            multiset(s) == multiset(Range(m + 1)) && Ordered(keys, s)
  {
    Below(before, m);
    InsertOrdered(keys, before, m);
    RangeSnoc(m);
  }

  /** The head of an ordered sequence comes before each of its other elements. */
  lemma HeadBefore(keys: seq<real>, s: seq<nat>, y: nat)
    requires Ordered(keys, s) && |s| > 0 && y in multiset(s) && y != s[0]
    ensures y < |keys| && Before(keys, s[0], y)
  {
    var i :| 0 <= i < |s| && s[i] == y;
  }

  /** Dropping the head keeps the order and removes one occurrence of the head. */
  lemma Tail(keys: seq<real>, s: seq<nat>)
    requires Ordered(keys, s) && |s| > 0
    ensures Ordered(keys, s[1..]) && multiset(s[1..]) == multiset(s) - multiset{s[0]}
  {
    assert s == [s[0]] + s[1..];
  }

  /** Two ordered arrangements of the same positions are the same: the order leaves no choice. */
  lemma {:induction false} OrderedUnique(keys: seq<real>, a: seq<nat>, b: seq<nat>)
    requires Ordered(keys, a) && Ordered(keys, b) && multiset(a) == multiset(b)
    ensures a == b
    decreases |a|
  {
    assert |a| == |multiset(a)| == |b|;
    if |a| > 0 {
      SameHead(keys, a, b);
      Tail(keys, a);
      Tail(keys, b);
      OrderedUnique(keys, a[1..], b[1..]);
      assert a == [a[0]] + a[1..] && b == [b[0]] + b[1..];
    }
  }

  /** Two ordered arrangements of the same positions start with the same position. */
  lemma SameHead(keys: seq<real>, a: seq<nat>, b: seq<nat>)
    requires Ordered(keys, a) && Ordered(keys, b) && multiset(a) == multiset(b) && |a| > 0 && |b| > 0
    ensures a[0] == b[0]
  {
    if a[0] != b[0] {
      assert b[0] in multiset(a) && a[0] in multiset(b);
      HeadBefore(keys, a, b[0]);
      HeadBefore(keys, b, a[0]);
      assert false;
    }
  }

  /** The sort is exactly the permutation that `sorted(..., reverse=True)` promises: by key descending, ties in input order. */
  lemma SortIsStableDescending(keys: seq<real>, s: seq<nat>)
    requires multiset(s) == multiset(Range(|keys|)) && Ordered(keys, s)
    ensures s == Sort(keys, |keys|)
  {
    OrderedUnique(keys, s, Sort(keys, |keys|));
  }

  /** The renumbered features: `feature["id"] = p + 1` on the `p`-th feature of the order. */
  function Renumber(fields: seq<string>, fs: seq<Feature>, order: seq<nat>): (r: seq<Feature>)
    requires IdField in fields && forall k | 0 <= k < |fs| :: Fits(fields, fs[k])
    requires forall p | 0 <= p < |order| :: order[p] < |fs|
    ensures |r| == |order|
    ensures forall p | 0 <= p < |order| ::
              Fits(fields, r[p]) && r[p].geometry == fs[order[p]].geometry && Get(fields, r[p], IdField) == Ok(IntV(p + 1))
    // every other attribute is the input feature's
    ensures forall p, name | 0 <= p < |order| && name != IdField :: Get(fields, r[p], name) == Get(fields, fs[order[p]], name)
  {
    var r := seq(|order|, p requires 0 <= p < |order| => Set(fields, fs[order[p]], IdField, IntV(p + 1)).value);
    forall p, name | 0 <= p < |order|
      ensures Get(fields, r[p], IdField) == Ok(IntV(p + 1))
      ensures name != IdField ==> Get(fields, r[p], name) == Get(fields, fs[order[p]], name)
    {
      GetAfterSet(fields, fs[order[p]], IdField, IntV(p + 1), name);
    }
    r
  }

  /** The CSV file: the header, then one line per feature in sink order. */
  function Written(fields: seq<string>, features: seq<Feature>, show: Value -> string): (csv: seq<string>)
    requires forall p | 0 <= p < |features| :: Fits(fields, features[p])
    ensures |csv| == |features| + 1 && csv[0] == Header(fields)
    ensures forall p | 0 <= p < |features| :: csv[p + 1] == CsvLine(fields, features[p], show)
  {
    [Header(fields)] + seq(|features|, p requires 0 <= p < |features| => CsvLine(fields, features[p], show))
  }

  /** The sorted order of the input features and the renumbered features, in that order. */
  datatype Arrangement = Arrangement(order: seq<nat>, features: seq<Feature>)

  /**
   * `sorted(features, key=getEnergy, reverse=True)` followed by the
   * renumbering; either raises before anything is written to the sink.
   */
  function Arrange(fields: seq<string>, fs: seq<Feature>): (r: Result<Arrangement>)
    requires forall k | 0 <= k < |fs| :: Fits(fields, fs[k])
    ensures r.Err? <==> Keys(fields, fs).Err? || (|fs| >= 1 && IdField !in fields)
    ensures r.Err? ==> r.error == (if Keys(fields, fs).Err? then Keys(fields, fs).error else MissingAttribute(IdField))
    // a permutation of the input, ordered by output descending and stable
    ensures r.Ok? ==> |r.value.order| == |fs| && multiset(r.value.order) == multiset(Range(|fs|))
    ensures r.Ok? ==> Ordered(Keys(fields, fs).value, r.value.order)
    // renumbered 1..n in output order
    ensures r.Ok? ==> |r.value.features| == |fs| && forall p | 0 <= p < |fs| :: Fits(fields, r.value.features[p])
    ensures r.Ok? && |fs| > 0 ==> r.value.features == Renumber(fields, fs, r.value.order)
  {
    var sorted :- Keys(fields, fs);
    if |fs| >= 1 && IdField !in fields then Err(MissingAttribute(IdField))
    else
      var order := Sort(sorted, |fs|);
      Below(order, |fs|);
      Ok(Arrangement(order, if |fs| == 0 then [] else Renumber(fields, fs, order)))
  }

  /** What the step writes: the order of the input features, the sink's features, and the CSV lines. */
  datatype Ranking = Ranking(order: seq<nat>, features: seq<Feature>, csv: seq<string>)

  /**
   * The sort step: the arranged features go to the sink and, in the same
   * order, to the CSV file after its header. Errors become a processing
   * exception.
   */
  function Rank(fields: seq<string>, fs: seq<Feature>, show: Value -> string): (r: Result<Ranking>)
    requires forall k | 0 <= k < |fs| :: Fits(fields, fs[k])
    ensures r.Err? <==> Arrange(fields, fs).Err?
    ensures r.Err? ==> r.error == Processing(Arrange(fields, fs).error)
    ensures r.Ok? ==> r.value.order == Arrange(fields, fs).value.order && r.value.features == Arrange(fields, fs).value.features
    // the header, then one line per sink feature in sink order
    ensures r.Ok? ==> |r.value.csv| == |fs| + 1 && r.value.csv[0] == Header(fields)
    ensures r.Ok? ==> forall p | 0 <= p < |fs| :: r.value.csv[p + 1] == CsvLine(fields, r.value.features[p], show)
  {
    match Arrange(fields, fs)
    case Err(e) => Err(Processing(e))
    case Ok(a) => Ok(Ranking(a.order, a.features, Written(fields, a.features, show)))
  }

  /**
   * Along the sink (and the CSV), the output never increases, and roofs
   * with the same output keep their input order.
   */
  lemma ArrangedDescending(fields: seq<string>, fs: seq<Feature>, p: nat, q: nat)
    requires forall k | 0 <= k < |fs| :: Fits(fields, fs[k])
    requires Arrange(fields, fs).Ok? && p < q < |fs|
    ensures var out := Arrange(fields, fs).value;
            var kp := Key(Get(fields, out.features[p], EnergyField).value);
            var kq := Key(Get(fields, out.features[q], EnergyField).value);
            kp.Some? && kq.Some? && kp.value >= kq.value &&
            (kp.value == kq.value ==> out.order[p] < out.order[q])
  {
    var out := Arrange(fields, fs).value;
    var keys := Keys(fields, fs).value;
    Below(out.order, |fs|);
    var a, b := out.order[p], out.order[q];
    assert EnergyField != IdField;
    assert Get(fields, out.features[p], EnergyField) == Get(fields, fs[a], EnergyField);
    assert Get(fields, out.features[q], EnergyField) == Get(fields, fs[b], EnergyField);
    assert Before(keys, a, b);
  }
}

=== FILE: wall_aspect.dfy ===
/**
 * `Worker.run` of the wall-aspect pre-processor: a line kernel and a
 * two-sided marker kernel are rotated through 180 one-degree steps; at
 * every wall pixel the rotation whose line kernel covers the most wall
 * cells wins, the marker kernel tells which side of the wall is higher, and
 * the winning angle becomes a compass direction. Pixels that no rotation
 * resolves fall back to the terrain aspect.
 *
 * scipy's `rotate` and `get_ders` are not part of this model: they are
 * parameters, of which the model only assumes that they keep the shape of
 * their input (`reshape=False`).
 */
module WallAspect {
  import opened Common
  import opened Grids

  /** Rotations of the kernels: one per degree of a half turn. */
  const Rotations: nat := 180

  /**
   * `np.floor((scale + 1e-10) * 9)` raised to 3 when at most 2, otherwise
   * made odd by adding one when even.
   */
  function FilterSize(scale: real): (f: nat)
    // the smallest odd integer not below both 3 and the scaled base size
    ensures f % 2 == 1 && f >= 3
    ensures f >= ((scale + 0.0000000001) * 9.0).Floor
    ensures f - 2 < 3 || f - 2 < ((scale + 0.0000000001) * 9.0).Floor
  {
    var base := ((scale + 0.0000000001) * 9.0).Floor;
    if base <= 2 then 3
    else if base != 9 && base % 2 == 0 then base + 1
    else base
  }

  /** `int(np.ceil(f / 2.))` and `int(np.floor(f / 2.))` for a positive size. */
  function HalfCeil(f: nat): nat { (f + 1) / 2 }
  function HalfFloor(f: nat): nat { f / 2 }

  /** For an odd size the centre index is both `HalfCeil(f) - 1` and `HalfFloor(f)`. */
  lemma CentreIndex(f: nat)
    requires f % 2 == 1
    ensures HalfCeil(f) - 1 == HalfFloor(f) && 2 * HalfFloor(f) + 1 == f
  {
  }

  /** The `f×f` line kernel: ones down the centre column. */
  function LineKernel(f: nat): (k: Grid)
    requires f >= 1
    ensures HasShape(k, f, f)
    ensures forall i, j | 0 <= i < f && 0 <= j < f :: k[i][j] == (if j == HalfCeil(f) - 1 then 1.0 else 0.0)
  {
    seq(f, _ => seq(f, j => if j == HalfCeil(f) - 1 then 1.0 else 0.0))
  }

  /** The `f×f` marker kernel: in the centre row, 1 left of the centre and 2 right of it. */
  function MarkerKernel(f: nat): (k: Grid)
    requires f >= 1
    ensures HasShape(k, f, f)
    ensures forall i, j | 0 <= i < f && 0 <= j < f ::
              k[i][j] == (if i != HalfCeil(f) - 1 then 0.0
                          else if j < HalfFloor(f) then 1.0
                          else if j >= HalfCeil(f) then 2.0
                          else 0.0)
  {
    seq(f, i => seq(f, j => if i != HalfCeil(f) - 1 then 0.0
                            else if j < HalfFloor(f) then 1.0
                            else if j >= HalfCeil(f) then 2.0
                            else 0.0))
  }

  /** In an odd kernel the marker's two sides are mirror images and the centre cell is 0. */
  lemma MarkerSides(f: nat, j: nat)
    requires f >= 3 && f % 2 == 1 && j < f
    ensures MarkerKernel(f)[f / 2][j] == 0.0 <==> j == f / 2
    ensures MarkerKernel(f)[f / 2][j] == 1.0 <==> MarkerKernel(f)[f / 2][f - 1 - j] == 2.0
  {
  }

  /** Pixel grids of the loop: `z` the best score, `x` the side flag, `y` the compass index. */
  datatype Px = Px(z: real, x: int, y: int)

  /** `sc.rotate(k, h, order=o, reshape=False)` keeps the kernel's shape. */
  ghost predicate RotateKeepsShape(rotate: (Grid, int, nat) -> Grid)
  {
    forall g: Grid, h: int, o: nat | Rectangular(g) :: HasShape(rotate(g, h, o), |g|, Cols(g))
  }

  /** The fixed inputs of the rotation loop: the binarized walls, the DSM, the kernel size. */
  datatype Filter = Filter(walls: Grid, dsm: Grid, f: nat, rotate: (Grid, int, nat) -> Grid)

  ghost predicate ValidFilter(c: Filter)
  {
    Rectangular(c.walls) && HasShape(c.dsm, |c.walls|, Cols(c.walls))
    && c.f >= 3 && c.f % 2 == 1 && RotateKeepsShape(c.rotate)
  }

  function RoundGrid(g: Grid): (r: Grid)
    requires Rectangular(g)
    ensures HasShape(r, |g|, Cols(g))
  {
    Map1(g, RoundHalfEven)
  }

  function SetCell(k: Grid, i: nat, j: nat, v: real): (r: Grid)
    requires i < |k| && j < |k[i]|
    ensures |r| == |k| && forall u | 0 <= u < |k| :: |r[u]| == |k[u]|
    ensures forall u, w | 0 <= u < |k| && 0 <= w < |k[u]| :: r[u][w] == if u == i && w == j then v else k[u][w]
  {
    k[i := k[i][j := v]]
  }

  /**
   * The line kernel used at rotation `h`: bilinear rotation, rounding, and
   * the two extra corner cells on the diagonals (index 225 and 135).
   */
  function LineAt(c: Filter, h: int): (k: Grid)
    requires ValidFilter(c)
    ensures HasShape(k, c.f, c.f)
  {
    var n := c.f - 1;
    var k := RoundGrid(c.rotate(LineKernel(c.f), h, 1));
    if 270 - h == 225 then SetCell(SetCell(k, 0, 0, 1.0), n, n, 1.0)
    else if 270 - h == 135 then SetCell(SetCell(k, 0, n, 1.0), n, 0, 1.0)
    else k
  }

  /**
   * The marker kernel used at rotation `h`: nearest-neighbour rotation,
   * rounding, and at 30 and 150 degrees the last column cleared.
   */
  function BuildAt(c: Filter, h: int): (k: Grid)
    requires ValidFilter(c)
    ensures HasShape(k, c.f, c.f)
  {
    var k := RoundGrid(c.rotate(MarkerKernel(c.f), h, 0));
    if h == 150 || h == 30 then seq(c.f, i requires 0 <= i < c.f => k[i][c.f - 1 := 0.0])
    else k
  }

  /** What a window sum adds up per cell: `a * k`, or `a` where `k` equals the mark. */
  datatype CellOp = Product | Marked(mark: real)

  function Apply(op: CellOp, a: real, k: real): real
  {
    match op
    case Product => a * k
    case Marked(m) => if k == m then a else 0.0
  }

  /** `(a[i0:i0+f, j0:j0+f] op k).sum()` over the first `rows` rows of the window. */
  function WindowSum(a: Grid, k: Grid, i0: nat, j0: nat, f: nat, rows: nat, op: CellOp): real
    requires Rectangular(a) && i0 + f <= |a| && j0 + f <= Cols(a)
    requires HasShape(k, f, f) && rows <= f
  {
    if rows == 0 then 0.0
    else WindowSum(a, k, i0, j0, f, rows - 1, op) + RowSum(a, k, i0, j0, f, rows - 1, f, op)
  }

  function RowSum(a: Grid, k: Grid, i0: nat, j0: nat, f: nat, u: nat, cols: nat, op: CellOp): real
    requires Rectangular(a) && i0 + f <= |a| && j0 + f <= Cols(a)
    requires HasShape(k, f, f) && u < f && cols <= f
  {
    if cols == 0 then 0.0
    else RowSum(a, k, i0, j0, f, u, cols - 1, op) + Apply(op, a[i0 + u][j0 + cols - 1], k[u][cols - 1])
  }

  /** Pixels the sweep visits: `range(ceil - 1, n - ceil - 1)` on both axes. */
  predicate Visited(c: Filter, i: int, j: int)
  {
    HalfCeil(c.f) - 1 <= i < |c.walls| - HalfCeil(c.f) - 1 &&
    HalfCeil(c.f) - 1 <= j < Cols(c.walls) - HalfCeil(c.f) - 1
  }

  /** Every window a visited pixel reads lies inside the grid. */
  lemma WindowInside(c: Filter, i: int, j: int)
    requires ValidFilter(c) && Visited(c, i, j)
    ensures 0 <= i - HalfFloor(c.f) && i + HalfFloor(c.f) + 1 <= |c.walls|
    ensures 0 <= j - HalfFloor(c.f) && j + HalfFloor(c.f) + 1 <= Cols(c.walls)
  {
    CentreIndex(c.f);
  }

  /** `wallscut.sum()`: wall cells under the rotated line kernel. */
  function Score(c: Filter, h: int, i: int, j: int): real
    requires ValidFilter(c) && Visited(c, i, j)
  {
    WindowInside(c, i, j);
    CentreIndex(c.f);
    WindowSum(c.walls, LineAt(c, h), i - HalfFloor(c.f), j - HalfFloor(c.f), c.f, c.f, Product)
  }

  /** Sum of the DSM cells under the rotated marker cells labelled `mark`. */
  function SideSum(c: Filter, h: int, i: int, j: int, mark: real): real
    requires ValidFilter(c) && Visited(c, i, j)
  {
    WindowInside(c, i, j);
    CentreIndex(c.f);
    WindowSum(c.dsm, BuildAt(c, h), i - HalfFloor(c.f), j - HalfFloor(c.f), c.f, c.f, Marked(mark))
  }

  /** The side flag: 1 iff the ground under marker 1 is strictly higher in total than under marker 2. */
  function Side(c: Filter, h: int, i: int, j: int): (s: int)
    requires ValidFilter(c) && Visited(c, i, j)
    ensures s == 1 <==> SideSum(c, h, i, j, 1.0) > SideSum(c, h, i, j, 2.0)
    ensures s == 1 || s == 2
  {
    if SideSum(c, h, i, j, 1.0) > SideSum(c, h, i, j, 2.0) then 1 else 2
  }

  /** The selection at rotation `h`: only a strictly better score replaces the stored one. */
  function Keep(p: Px, score: real, side: int, h: int): Px
  {
    if p.z < score then Px(score, side, 270 - h) else p
  }

  /** The state after folding `Keep` over the scores and side flags of rotations `0..|ss|-1`. */
  function Track(ss: seq<real>, sides: seq<int>): Px
    requires |ss| == |sides|
    decreases |ss|
  {
    if |ss| == 0 then Px(0.0, 0, 0)
    else Keep(Track(ss[..|ss| - 1], sides[..|ss| - 1]), ss[|ss| - 1], sides[|ss| - 1], |ss| - 1)
  }

  /** Every score folded so far is at most the stored one, which is never negative. */
  lemma {:induction false} TrackDominates(ss: seq<real>, sides: seq<int>)
    requires |ss| == |sides|
    ensures Track(ss, sides).z >= 0.0
    ensures forall h | 0 <= h < |ss| :: ss[h] <= Track(ss, sides).z
  {
    if |ss| > 0 {
      var n := |ss| - 1;
      TrackDominates(ss[..n], sides[..n]);
      assert forall h | 0 <= h < n :: ss[..n][h] == ss[h];
    }
  }

  /**
   * The flag is 0 exactly when score and index are still 0; otherwise the
   * index names a folded rotation whose positive score and side flag are
   * stored, and every earlier rotation scored strictly less (ties keep the
   * earliest rotation).
   */
  lemma {:induction false} TrackFirstMax(ss: seq<real>, sides: seq<int>)
    requires |ss| == |sides| && forall h | 0 <= h < |sides| :: sides[h] == 1 || sides[h] == 2
    ensures var p := Track(ss, sides);
            (p.x == 0 <==> p.z == 0.0 && p.y == 0) &&
            (p.x == 0 ==> forall h | 0 <= h < |ss| :: ss[h] <= 0.0) &&
            (p.x != 0 ==>
               0 <= 270 - p.y < |ss| && p.z > 0.0 && p.z == ss[270 - p.y] && p.x == sides[270 - p.y] &&
               forall h | 0 <= h < 270 - p.y :: ss[h] < p.z)
  {
    TrackDominates(ss, sides);
    if |ss| > 0 {
      var n := |ss| - 1;
      TrackFirstMax(ss[..n], sides[..n]);
      TrackDominates(ss[..n], sides[..n]);
      assert forall h | 0 <= h < n :: ss[..n][h] == ss[h] && sides[..n][h] == sides[h];
    }
  }

  /** Scores of pixel `(i, j)` under rotations `0..n-1`. */
  function Scores(c: Filter, n: nat, i: int, j: int): (ss: seq<real>)
    requires ValidFilter(c) && Visited(c, i, j)
    ensures |ss| == n && forall h | 0 <= h < n :: ss[h] == Score(c, h, i, j)
  {
    seq(n, h requires 0 <= h < n => Score(c, h, i, j))
  }

  /** Side flags of pixel `(i, j)` under rotations `0..n-1`. */
  function Sides(c: Filter, n: nat, i: int, j: int): (sides: seq<int>)
    requires ValidFilter(c) && Visited(c, i, j)
    ensures |sides| == n && forall h | 0 <= h < n :: sides[h] == Side(c, h, i, j)
  {
    seq(n, h requires 0 <= h < n => Side(c, h, i, j))
  }

  /** The loop body at pixel `(i, j)` for rotation `h`: only visited wall pixels take part. */
  function Update(c: Filter, p: Px, h: int, i: int, j: int): Px
    requires ValidFilter(c) && 0 <= i < |c.walls| && 0 <= j < Cols(c.walls)
  {
    if Visited(c, i, j) && c.walls[i][j] == 1.0 then Keep(p, Score(c, h, i, j), Side(c, h, i, j), h)
    else p
  }

  /** Reference state of pixel `(i, j)` after rotations `0..n-1`. */
  function Ref(c: Filter, n: nat, i: int, j: int): Px
    requires ValidFilter(c) && 0 <= i < |c.walls| && 0 <= j < Cols(c.walls)
  {
    if Visited(c, i, j) && c.walls[i][j] == 1.0 then Track(Scores(c, n, i, j), Sides(c, n, i, j))
    else Px(0.0, 0, 0)
  }

  /** One more rotation of the loop body advances the reference state by one rotation. */
  lemma UpdateAdvances(c: Filter, n: nat, i: int, j: int)
    requires ValidFilter(c) && 0 <= i < |c.walls| && 0 <= j < Cols(c.walls)
    ensures Update(c, Ref(c, n, i, j), n, i, j) == Ref(c, n + 1, i, j)
  {
    if Visited(c, i, j) && c.walls[i][j] == 1.0 {
      assert Scores(c, n + 1, i, j)[..n] == Scores(c, n, i, j);
      assert Sides(c, n + 1, i, j)[..n] == Sides(c, n, i, j);
    }
  }

  function RefGrid(c: Filter, n: nat): (g: seq<seq<Px>>)
    requires ValidFilter(c)
    ensures |g| == |c.walls| && forall i | 0 <= i < |g| :: |g[i]| == Cols(c.walls)
  {
    seq(|c.walls|, i requires 0 <= i < |c.walls| =>
      seq(Cols(c.walls), j requires 0 <= j < Cols(c.walls) => Ref(c, n, i, j)))
  }

  /**
   * At a pixel: the stored score is the maximum of the scores so far (0 when
   * none is positive) and a resolved pixel records the first rotation
   * reaching it with that rotation's side flag; pixels outside the sweep or
   * off the walls stay 0.
   */
  lemma RefIsFirstMax(c: Filter, n: nat, i: int, j: int)
    requires ValidFilter(c) && 0 <= i < |c.walls| && 0 <= j < Cols(c.walls)
    requires Visited(c, i, j) && c.walls[i][j] == 1.0
    ensures var p := Ref(c, n, i, j);
            (p.x == 0 <==> p.z == 0.0 && p.y == 0) &&
            (forall h | 0 <= h < n :: Score(c, h, i, j) <= p.z) &&
            (p.x == 0 ==> forall h | 0 <= h < n :: Score(c, h, i, j) <= 0.0) &&
            (p.x != 0 ==>
               0 <= 270 - p.y < n && p.z > 0.0 &&
               p.z == Score(c, 270 - p.y, i, j) && p.x == Side(c, 270 - p.y, i, j) &&
               forall h | 0 <= h < 270 - p.y :: Score(c, h, i, j) < p.z)
  {
    var ss, sides := Scores(c, n, i, j), Sides(c, n, i, j);
    TrackDominates(ss, sides);
    TrackFirstMax(ss, sides);
  }

  /** `walls[walls > 0] = 1`, applied to the caller's array. */
  function Binarize(walls: Grid): (r: Grid)
    requires Rectangular(walls)
    ensures HasShape(r, |walls|, Cols(walls))
    ensures forall i, j | 0 <= i < |walls| && 0 <= j < Cols(walls) ::
              (r[i][j] == 1.0 <==> walls[i][j] > 0.0) &&
              (walls[i][j] <= 0.0 ==> r[i][j] == walls[i][j])
  {
    Map1(walls, w => if w > 0.0 then 1.0 else w)
  }

  /**
   * Post-processing of one pixel: the west-side flag turns the index half a
   * turn, negatives wrap into [0, 360), and a wall pixel left at 0 takes the
   * terrain aspect (radians) in degrees.
   */
  function Final(p: Px, wall: bool, aspect: real, pi: real): real
    requires pi > 0.0
  {
    var y1 := if p.x == 1 then p.y - 180 else p.y;
    var y2 := if y1 < 0 then y1 + 360 else y1;
    y2 as real + (if wall && y2 == 0 then aspect / (pi / 180.0) else 0.0)
  }

  /**
   * Ranges of the result: a resolved pixel lands in [0, 360), and hits 0
   * only from the rotation at 90 degrees with the flag 1, in which case a
   * wall pixel takes the aspect; an unresolved wall pixel takes the aspect;
   * every other pixel is 0.
   */
  lemma FinalRange(c: Filter, n: nat, i: int, j: int, aspect: real, pi: real)
    requires ValidFilter(c) && 0 <= i < |c.walls| && 0 <= j < Cols(c.walls) && n <= Rotations && pi > 0.0
    ensures var p := Ref(c, n, i, j);
            var wall := c.walls[i][j] == 1.0;
            var d := Final(p, wall, aspect, pi);
            (p.x != 0 && !(p.x == 1 && p.y == 180) ==> 0.0 < d < 360.0) &&
            (p.x == 1 && p.y == 180 ==> d == aspect / (pi / 180.0)) &&
            (p.x == 0 && wall ==> d == aspect / (pi / 180.0)) &&
            (!wall ==> d == 0.0)
  {
    if Visited(c, i, j) && c.walls[i][j] == 1.0 {
      RefIsFirstMax(c, n, i, j);
    }
  }

  /** The rotation at which the loop stops: the first cancelled one, or all of them. */
  function StopAt(isCanceled: nat -> bool, h: nat): (r: nat)
    requires h <= Rotations
    ensures h <= r <= Rotations
    ensures forall k | h <= k < r :: !isCanceled(k)
    ensures r < Rotations ==> isCanceled(r)
    decreases Rotations - h
  {
    if h == Rotations then Rotations
    else if isCanceled(h) then h
    else StopAt(isCanceled, h + 1)
  }

  /**
   * The progress percentage reported after rotation `h`, `int(h * 50 / 180)`,
   * written as the floor division it equals for a non-negative `h`
   * (ProgressIsTrunc).
   */
  function Progress(h: nat): nat
  {
    (h * 50) / 180
  }

  /** `int()` of the true quotient is the floor division. */
  lemma ProgressIsTrunc(h: nat)
    ensures Progress(h) == Trunc((h * 50) as real / 180.0)
  {
    var x := (h * 50) as real / 180.0;
    var q := (h * 50) / 180;
    assert q * 180 <= h * 50 < (q + 1) * 180;
    assert (q * 180) as real <= (h * 50) as real < ((q + 1) * 180) as real;
    assert q as real <= x < q as real + 1.0;
    var t := Trunc(x);
    assert t as real <= x < t as real + 1.0;
  }

  /** One sweep of every pixel with the kernels of rotation `h`. */
  function Sweep(c: Filter, st: seq<seq<Px>>, h: nat): (r: seq<seq<Px>>)
    requires ValidFilter(c) && |st| == |c.walls| && forall i | 0 <= i < |st| :: |st[i]| == Cols(c.walls)
    ensures |r| == |c.walls| && forall i | 0 <= i < |r| :: |r[i]| == Cols(c.walls)
    ensures forall i, j | 0 <= i < |r| && 0 <= j < Cols(c.walls) :: r[i][j] == Update(c, st[i][j], h, i, j)
  {
    seq(|c.walls|, i requires 0 <= i < |c.walls| =>
      seq(Cols(c.walls), j requires 0 <= j < Cols(c.walls) => Update(c, st[i][j], h, i, j)))
  }

  /**
   * `Worker.run`. Returns the wall directions, the caller's walls array as
   * the call leaves it (binarized in place), the number of rotations done
   * before a cancellation, and the progress values reported.
   */
  method Run(walls0: Grid, dsm: Grid, scale: real, rotate: (Grid, int, nat) -> Grid,
             isCanceled: nat -> bool, ders: (Grid, real) -> (Grid, Grid), pi: real)
    returns (dirwalls: Grid, walls: Grid, rotations: nat, progress: seq<nat>)
    requires Rectangular(walls0) && HasShape(dsm, |walls0|, Cols(walls0))
    requires RotateKeepsShape(rotate) && pi > 0.0
    requires HasShape(ders(dsm, scale).1, |dsm|, Cols(dsm))
    ensures walls == Binarize(walls0)
    // cancellation stops the loop, but the partial result is still post-processed
    ensures rotations == StopAt(isCanceled, 0)
    ensures progress == Reports(rotations) && |progress| == rotations
    ensures forall k | 0 <= k < |progress| :: progress[k] <= 49
    ensures forall k, l | 0 <= k <= l < |progress| :: progress[k] <= progress[l]
    ensures HasShape(dirwalls, |walls0|, Cols(walls0))
    ensures forall i, j | 0 <= i < |walls0| && 0 <= j < Cols(walls0) ::
              dirwalls[i][j] == Final(Ref(Filter(walls, dsm, FilterSize(scale), rotate), rotations, i, j),
                                      walls[i][j] == 1.0, ders(dsm, scale).1[i][j], pi)
  {
    walls := Binarize(walls0);
    var c := Filter(walls, dsm, FilterSize(scale), rotate);
    var st;
    st, rotations, progress := Rotate(c, isCanceled);
    ReportsBounded(rotations);
    dirwalls := PostProcess(st, walls, ders(dsm, scale).1, pi);
  }

  /**
   * The rotation loop: a cancellation check before each rotation, a sweep of
   * every pixel, and a progress report after it.
   */
  method Rotate(c: Filter, isCanceled: nat -> bool) returns (st: seq<seq<Px>>, rotations: nat, progress: seq<nat>)
    requires ValidFilter(c)
    ensures rotations == StopAt(isCanceled, 0)
    ensures st == RefGrid(c, rotations)
    ensures progress == Reports(rotations)
  {
    st := Initial(c);
    var h: nat := 0;
    progress := [];
    while h < Rotations
      invariant h <= Rotations && StopAt(isCanceled, h) == StopAt(isCanceled, 0)
      invariant st == RefGrid(c, h)
      invariant progress == Reports(h)
    {
      if isCanceled(h) {
        assert StopAt(isCanceled, h) == h;
        break;
      }
      assert StopAt(isCanceled, h) == StopAt(isCanceled, h + 1);
      st := Advance(c, st, h);
      progress := Report(progress, h);
      h := h + 1;
    }
    rotations := h;
  }

  /** The report after rotation `h`. */
  method Report(progress: seq<nat>, h: nat) returns (next: seq<nat>)
    requires progress == Reports(h)
    ensures next == Reports(h + 1) && next[h] == Progress(h)
  {
    next := progress + [Progress(h)];
  }

  /** The percentages reported after the first `n` rotations, in order. */
  function Reports(n: nat): (ps: seq<nat>)
    ensures |ps| == n
  {
    if n == 0 then [] else Reports(n - 1) + [Progress(n - 1)]
  }

  /** The `k`-th report is the progress after rotation `k`. */
  lemma {:induction false} ReportsAre(n: nat)
    ensures forall k | 0 <= k < n :: Reports(n)[k] == Progress(k)
  {
    if n > 0 {
      ReportsAre(n - 1);
    }
  }

  /** The reports stay below 50 and never go back. */
  lemma ReportsBounded(n: nat)
    requires n <= Rotations
    ensures forall k | 0 <= k < n :: Reports(n)[k] <= 49
    ensures forall k, l | 0 <= k <= l < n :: Reports(n)[k] <= Reports(n)[l]
  {
    ReportsAre(n);
    ProgressBounded(n);
  }

  /** The state before the first rotation: nothing recorded at any pixel. */
  method Initial(c: Filter) returns (st: seq<seq<Px>>)
    requires ValidFilter(c)
    ensures st == RefGrid(c, 0)
  {
    st := seq(|c.walls|, _ => seq(Cols(c.walls), _ => Px(0.0, 0, 0)));
    RefGridExt(c, st, 0);
  }

  /** One pass of the loop body: the sweep at rotation `h` advances the state by one rotation. */
  method Advance(c: Filter, st: seq<seq<Px>>, h: nat) returns (next: seq<seq<Px>>)
    requires ValidFilter(c) && st == RefGrid(c, h)
    ensures next == RefGrid(c, h + 1)
  {
    SweepAdvances(c, h);
    next := Sweep(c, st, h);
  }

  /** The reported percentages stay below 50 and never go back. */
  lemma ProgressBounded(n: nat)
    requires n <= Rotations
    ensures forall k | 0 <= k < n :: Progress(k) <= 49
    ensures forall k, l | 0 <= k <= l < n :: Progress(k) <= Progress(l)
  {
    forall k, l | 0 <= k <= l < n ensures Progress(k) <= Progress(l) <= 49 {
      ProgressMonotone(k, l);
    }
    forall k | 0 <= k < n ensures Progress(k) <= 49 {
      ProgressMonotone(k, k);
    }
  }

  /** A sweep at rotation `h` takes the reference state after `h` rotations to the one after `h + 1`. */
  lemma SweepAdvances(c: Filter, h: nat)
    requires ValidFilter(c)
    ensures Sweep(c, RefGrid(c, h), h) == RefGrid(c, h + 1)
  {
    forall i, j | 0 <= i < |c.walls| && 0 <= j < Cols(c.walls) {
      UpdateAdvances(c, h, i, j);
    }
    RefGridExt(c, Sweep(c, RefGrid(c, h), h), h + 1);
  }

  /** A state grid of the right shape that agrees with the reference at every pixel is the reference. */
  lemma RefGridExt(c: Filter, st: seq<seq<Px>>, n: nat)
    requires ValidFilter(c) && |st| == |c.walls| && forall i | 0 <= i < |st| :: |st[i]| == Cols(c.walls)
    requires forall i, j | 0 <= i < |c.walls| && 0 <= j < Cols(c.walls) :: st[i][j] == Ref(c, n, i, j)
    ensures st == RefGrid(c, n)
  {
    var r := RefGrid(c, n);
    forall i | 0 <= i < |st| ensures st[i] == r[i] {
      assert forall j | 0 <= j < |st[i]| :: st[i][j] == r[i][j];
    }
  }

  /** The post-processing of every pixel of the loop's final state. */
  function PostProcess(st: seq<seq<Px>>, walls: Grid, aspect: Grid, pi: real): (r: Grid)
    requires Rectangular(walls) && HasShape(aspect, |walls|, Cols(walls)) && pi > 0.0
    requires |st| == |walls| && forall i | 0 <= i < |st| :: |st[i]| == Cols(walls)
    ensures HasShape(r, |walls|, Cols(walls))
    ensures forall i, j | 0 <= i < |walls| && 0 <= j < Cols(walls) ::
              r[i][j] == Final(st[i][j], walls[i][j] == 1.0, aspect[i][j], pi)
  {
    seq(|walls|, i requires 0 <= i < |walls| =>
      seq(Cols(walls), j requires 0 <= j < Cols(walls) => Final(st[i][j], walls[i][j] == 1.0, aspect[i][j], pi)))
  }

  lemma ProgressMonotone(k: nat, l: nat)
    requires k <= l < Rotations
    ensures Progress(k) <= Progress(l) <= 49
  {
  }
}

=== FILE: web_map.dfy ===
/**
 * The web-map preparation step: every suitable roof with a geometry is
 * reprojected and cut down to five attributes, its coordinates truncated
 * to integers and its output rounded to two significant digits.
 */
module WebMap {
  import opened Common
  import opened Features
  import RoofEnergy

  /** `10 ** e` for any integer exponent. */
  function Pow10(e: int): (r: real)
    ensures r > 0.0
    decreases if e < 0 then -e else e
  {
    if e == 0 then 1.0
    else if e > 0 then 10.0 * Pow10(e - 1)
    else Pow10(e + 1) / 10.0
  }

  /** Each step of the exponent is a factor of ten. */
  lemma {:induction false} Pow10Succ(e: int)
    ensures Pow10(e + 1) == 10.0 * Pow10(e)
    decreases if e < 0 then -e else e
  {
    if e < -1 {
      Pow10Succ(e + 1);
    }
  }

  /** `Pow10Succ` with the two exponents named. */
  lemma Pow10Step(a: int, b: int)
    requires b == a + 1
    ensures Pow10(b) == 10.0 * Pow10(a)
  {
    Pow10Succ(a);
  }

  /** Exponents that sum to zero give reciprocal powers. */
  lemma Pow10Inverse(a: int, b: int, p: real, u: real)
    requires a + b == 0 && p == Pow10(a) && u == Pow10(b)
    ensures p * u == 1.0
  {
    if b >= 0 {
      Pow10Opposite(a, b);
    } else {
      Pow10Opposite(b, a);
    }
  }

  lemma {:induction false} Pow10Opposite(a: int, b: int)
    requires b >= 0 && a == -b
    ensures Pow10(a) * Pow10(b) == 1.0 && Pow10(b) * Pow10(a) == 1.0
    decreases b
  {
    if b > 0 {
      Pow10Opposite(a + 1, b - 1);
      Pow10Step(a, a + 1);
      Pow10Step(b - 1, b);
      Reciprocal(Pow10(a), Pow10(b - 1));
    }
  }

  /** If `10a` and `b` are reciprocal, so are `a` and `10b`. */
  lemma Reciprocal(a: real, b: real)
    requires (10.0 * a) * b == 1.0
    ensures a * (10.0 * b) == 1.0
  {
  }

  /** A larger exponent gives a larger power. */
  lemma {:induction false} Pow10Less(a: int, b: int)
    requires a < b
    ensures Pow10(a) < Pow10(b)
    decreases b - a
  {
    Pow10Succ(b - 1);
    if a < b - 1 {
      Pow10Less(a, b - 1);
    }
  }

  /** `floor(log10(a))` for `a` of at least 1. */
  function MagnitudeUp(a: real): (e: nat)
    requires a >= 1.0
    ensures Pow10(e) <= a < Pow10(e + 1)
    decreases a.Floor
  {
    if a < 10.0 then
      assert Pow10(1) == 10.0;
      0
    else
      var e := MagnitudeUp(a / 10.0);
      Pow10Succ(e);
      Pow10Succ(e + 1);
      e + 1
  }

  /** `floor(log10(a))` for `a` in (0, 1). */
  function MagnitudeDown(a: real): (e: int)
    requires 0.0 < a < 1.0
    ensures e < 0 && Pow10(e) <= a < Pow10(e + 1)
    decreases (1.0 / a).Floor
  {
    if a * 10.0 >= 1.0 then
      assert Pow10(-1) == 0.1;
      -1
    else
      assert (1.0 / (a * 10.0)).Floor < (1.0 / a).Floor by {
        assert 1.0 / (a * 10.0) == (1.0 / a) / 10.0;
      }
      var e := MagnitudeDown(a * 10.0);
      Pow10Succ(e - 1);
      Pow10Succ(e);
      e - 1
  }

  /** `floor(log10(a))`: the exponent of the power of ten at or just below `a`. */
  function Magnitude(a: real): (e: int)
    requires a > 0.0
    ensures Pow10(e) <= a < Pow10(e + 1)
  {
    if a >= 1.0 then MagnitudeUp(a) else MagnitudeDown(a)
  }

  /** The bracketing exponent is unique. */
  lemma MagnitudeUnique(a: real, e: int)
    requires a > 0.0 && Pow10(e) <= a < Pow10(e + 1)
    ensures Magnitude(a) == e
  {
    var m := Magnitude(a);
    if m < e {
      Pow10AtMost(m + 1, e);
      assert false;
    } else if m > e {
      Pow10AtMost(e + 1, m);
      assert false;
    }
  }

  lemma Pow10AtMost(a: int, b: int)
    requires a <= b
    ensures Pow10(a) <= Pow10(b)
  {
    if a < b {
      Pow10Less(a, b);
    }
  }

  /**
   * `round(x, n)` with the scale `p = 10 ** n` given: to a whole number of
   * `1/p` units, ties to even.
   */
  function RoundTo(x: real, p: real): real
    requires p > 0.0
  {
    RoundHalfEven(x * p) / p
  }

  /** The unit of the second significant digit of a non-zero `x`. */
  function SecondDigitUnit(x: real): real
    requires x != 0.0
  {
    Pow10(Magnitude(Abs(x)) - 1)
  }

  /**
   * `round_sig(x)`: `round(x, 2 - int(floor(log10(abs(x)))) - 1)`, which
   * fails with a math domain error at zero.
   */
  function RoundSig(x: real): (r: Result<real>)
    ensures r.Err? <==> x == 0.0
    ensures r.Err? ==> r.error == MathDomain
  {
    if x == 0.0 then Err(MathDomain)
    else Ok(RoundTo(x, Pow10(2 - Magnitude(Abs(x)) - 1)))
  }

  /**
   * The rounded value is a whole number of second-digit units, within half a
   * unit of `x`, with ten to a hundred units: two significant digits (a
   * hundred when 99.5 units round up).
   */
  lemma RoundSigDigits(x: real)
    requires x != 0.0
    ensures var u := SecondDigitUnit(x); var r := RoundSig(x).value;
            IsIntegral(r / u) && Abs(r - x) <= u / 2.0 && 10.0 <= Abs(r / u) <= 100.0
  {
    var e := Magnitude(Abs(x));
    var u := Pow10(e - 1);
    var p := Pow10(2 - e - 1);
    var m := RoundHalfEven(x * p);
    RoundSigAt(x, p);
    RoundToIs(x, p, m);
    Bracket(Abs(x), e, u, p);
    Scaled(x, p, u, m);
  }

  /** `round_sig(x)` rounds at the scale `p = 10 ** (1 - floor(log10(abs(x))))`. */
  lemma RoundSigAt(x: real, p: real)
    requires x != 0.0 && p == Pow10(2 - Magnitude(Abs(x)) - 1)
    ensures RoundSig(x) == Ok(RoundTo(x, p))
  {
  }

  /** Rounding at scale `p` gives `m / p` for the rounded count `m` of `1/p` units. */
  lemma RoundToIs(x: real, p: real, m: real)
    requires p > 0.0 && m == RoundHalfEven(x * p)
    ensures RoundTo(x, p) == m / p
  {
  }

  /**
   * For `a` of magnitude `e`, the second-digit unit `u` and the scale `p`
   * that `round_sig` uses are reciprocal, and `a` is ten to a hundred units.
   */
  lemma Bracket(a: real, e: int, u: real, p: real)
    requires a > 0.0 && e == Magnitude(a) && u == Pow10(e - 1) && p == Pow10(2 - e - 1)
    ensures u > 0.0 && p * u == 1.0 && 10.0 * u <= a < 100.0 * u
  {
    Pow10Inverse(2 - e - 1, e - 1, p, u);
    Pow10Step(e - 1, e);
    Pow10Step(e, e + 1);
  }

  /**
   * Rounding `x` measured in units `u` (`p` is `1/u`) to a whole number `m`
   * of units: the result is a whole number of units, within half a unit,
   * and from 10 to 100 units when `x` is from 10 to 100 units.
   */
  lemma Scaled(x: real, p: real, u: real, m: real)
    requires u > 0.0 && p * u == 1.0 && 10.0 * u <= Abs(x) < 100.0 * u
    requires IsIntegral(m) && Abs(m - x * p) <= 0.5
    ensures IsIntegral((m / p) / u) && Abs(m / p - x) <= u / 2.0 && 10.0 <= Abs((m / p) / u) <= 100.0
  {
    var y, q := x * p, m / p;
    Units(x, p, u);
    Units(m, p, u);
    assert y * u == x && q == m * u && q / u == m;
    Measure(x, y, u);
    Gap(m, y, u);
    assert Abs(q - x) <= u / 2.0;
    Whole(m, y);
  }

  /** A whole number within half of a value from 10 to 100 is from 10 to 100. */
  lemma Whole(m: real, y: real)
    requires IsIntegral(m) && Abs(m - y) <= 0.5 && 10.0 <= Abs(y) < 100.0
    ensures 10.0 <= Abs(m) <= 100.0
  {
  }

  /** With `p` the reciprocal of `u`, multiplying by `p` and dividing by `u` undo each other. */
  lemma Units(x: real, p: real, u: real)
    requires u > 0.0 && p * u == 1.0
    ensures (x * p) * u == x && x / p == x * u && (x / p) / u == x
  {
    assert (x * p) * u == x * (p * u);
  }

  /** `x` lies between 10 and 100 units exactly when its measure in units does. */
  lemma Measure(x: real, y: real, u: real)
    requires u > 0.0 && y * u == x
    ensures 10.0 * u <= Abs(x) <==> 10.0 <= Abs(y)
    ensures Abs(x) < 100.0 * u <==> Abs(y) < 100.0
  {
    AbsScale(y, u);
    Between(Abs(x), Abs(y), u);
  }

  /** `ax` is `ay` units `u`: from 10 to 100 units exactly when `ay` is from 10 to 100. */
  lemma Between(ax: real, ay: real, u: real)
    requires u > 0.0 && ax == ay * u
    ensures 10.0 * u <= ax <==> 10.0 <= ay
    ensures ax < 100.0 * u <==> ay < 100.0
  {
    if 10.0 <= ay {
      MulLe(10.0, ay, u);
    } else {
      MulLt(ay, 10.0, u);
    }
    if ay < 100.0 {
      MulLt(ay, 100.0, u);
    } else {
      MulLe(100.0, ay, u);
    }
  }

  /** Multiplying by a positive factor keeps a weak order. */
  lemma MulLe(a: real, b: real, u: real)
    requires u > 0.0 && a <= b
    ensures a * u <= b * u
  {
    assert b * u - a * u == (b - a) * u;
  }

  /** Multiplying by a positive factor keeps a strict order. */
  lemma MulLt(a: real, b: real, u: real)
    requires u > 0.0 && a < b
    ensures a * u < b * u
  {
    assert b * u - a * u == (b - a) * u;
  }

  /** Within half a unit, measured in units `u`, is within `u / 2`. */
  lemma Gap(m: real, y: real, u: real)
    requires u > 0.0 && Abs(m - y) <= 0.5
    ensures Abs(m * u - y * u) <= u / 2.0
  {
    assert m * u - y * u == (m - y) * u;
    AbsScale(m - y, u);
    MulLe(Abs(m - y), 0.5, u);
  }

  /** Scaling by a positive factor scales the absolute value. */
  lemma AbsScale(y: real, u: real)
    requires u > 0.0
    ensures Abs(y * u) == Abs(y) * u
  {
    if y < 0.0 {
      assert y * u == -((-y) * u);
    }
  }

  /** Rounding an already rounded value to two significant digits changes nothing. */
  lemma RoundSigIdempotent(x: real)
    requires x != 0.0
    ensures RoundSig(x).value != 0.0 && RoundSig(RoundSig(x).value) == RoundSig(x)
  {
    RoundSigDigits(x);
    var u := SecondDigitUnit(x);
    var r := RoundSig(x).value;
    var e := Magnitude(Abs(x));
    Rounded(r, u, e);
  }

  /**
   * A value of ten to a hundred whole units `u = 10^(e-1)` keeps its value
   * when rounded to two significant digits.
   */
  lemma Rounded(r: real, u: real, e: int)
    requires u == Pow10(e - 1) && IsIntegral(r / u) && 10.0 <= Abs(r / u) <= 100.0
    ensures r != 0.0 && RoundSig(r) == Ok(r)
  {
    var m := r / u;
    Pow10Step(e - 1, e);
    Pow10Step(e, e + 1);
    Pow10Step(e + 1, e + 2);
    InUnits(r, u, m, Pow10(e), Pow10(e + 1), Pow10(e + 2));
    if Abs(m) < 100.0 {
      MagnitudeUnique(Abs(r), e);
      RoundStable(r, e, u);
    } else {
      MagnitudeUnique(Abs(r), e + 1);
      Tenth(r, m, u);
      RoundStable(r, e + 1, 10.0 * u);
    }
  }

  /**
   * `m` units of `u`, with `lo`, `mid`, `hi` ten, a hundred and a thousand
   * units: below a hundred units lies in `[lo, mid)`, a hundred units in
   * `[mid, hi)`.
   */
  lemma InUnits(r: real, u: real, m: real, lo: real, mid: real, hi: real)
    requires u > 0.0 && m == r / u && 10.0 <= Abs(m) <= 100.0
    requires lo == 10.0 * u && mid == 10.0 * lo && hi == 10.0 * mid
    ensures r != 0.0
    ensures Abs(m) < 100.0 ==> lo <= Abs(r) < mid
    ensures Abs(m) == 100.0 ==> mid <= Abs(r) < hi
  {
    Units(r, 1.0 / u, u);
    assert r == m * u;
    AbsScale(m, u);
    Between(Abs(r), Abs(m), u);
    Hundred(Abs(r), Abs(m), u);
  }

  /** `ar` is `am` units `u`: exactly a hundred units is below a thousand. */
  lemma Hundred(ar: real, am: real, u: real)
    requires u > 0.0 && ar == am * u
    ensures am == 100.0 ==> 100.0 * u <= ar < 1000.0 * u
  {
  }

  /** A hundred units `u` is ten units of `10u`. */
  lemma Tenth(r: real, m: real, u: real)
    requires u > 0.0 && r == m * u && Abs(m) == 100.0
    ensures IsIntegral(r / (10.0 * u))
  {
    assert r / (10.0 * u) == m / 10.0;
  }

  /** A whole number of units `u = 10^(e-1)`, with magnitude `e`, rounds to itself. */
  lemma RoundStable(r: real, e: int, u: real)
    requires r != 0.0 && Magnitude(Abs(r)) == e && u == Pow10(e - 1) && IsIntegral(r / u)
    ensures RoundSig(r) == Ok(r)
  {
    var p := Pow10(2 - e - 1);
    Pow10Inverse(2 - e - 1, e - 1, p, u);
    Unscaled(r, p, u);
    RoundSigAt(r, p);
  }

  /** A whole number of units `u` (`p` is `1/u`) is unchanged by rounding in those units. */
  lemma Unscaled(r: real, p: real, u: real)
    requires u > 0.0 && p * u == 1.0 && IsIntegral(r / u)
    ensures RoundTo(r, p) == r
  {
    var k := r / u;
    PerUnit(r, p, u);
    RoundIntegral(k);
    RoundToIs(r, p, k);
  }

  /** Multiplying by `p` counts units `u = 1/p`, and dividing the count by `p` undoes it. */
  lemma PerUnit(r: real, p: real, u: real)
    requires u > 0.0 && p * u == 1.0
    ensures p > 0.0 && r * p == r / u && (r / u) / p == r
  {
    assert p == 1.0 / u;
  }

  const IdField: string := "id"
  const LatitudeField: string := "latitude"
  const LongitudeField: string := "longitude"
  const PanelsField: string := "Num_panels"
  const OutputField: string := "Output_kwh"

  /** The fields of the web layer, in the order they are appended. */
  const WebFields: seq<string> := [IdField, LatitudeField, LongitudeField, PanelsField, OutputField]

  /** `int(value)` on a number truncates toward zero; every other value, text included, is an error here. */
  function ToInt(v: Value): (r: Result<int>)
    ensures r.Ok? <==> v.IntV? || v.RealV?
    ensures r.Err? ==> r.error == NotANumber
    ensures v.IntV? ==> r == Ok(v.i)
    ensures v.RealV? ==> Abs(r.value as real) <= Abs(v.r) < Abs(r.value as real) + 1.0
    ensures v.RealV? ==> (v.r >= 0.0 ==> r.value >= 0) && (v.r <= 0.0 ==> r.value <= 0)
  {
    match v
    case IntV(i) => Ok(i)
    case RealV(x) => TruncToward(x); Ok(Trunc(x))
    case _ => Err(NotANumber)
  }

  /** Truncation drops the fraction's magnitude and keeps the sign. */
  lemma TruncToward(x: real)
    ensures Abs(Trunc(x) as real) <= Abs(x) < Abs(Trunc(x) as real) + 1.0
    ensures (x >= 0.0 ==> Trunc(x) >= 0) && (x <= 0.0 ==> Trunc(x) <= 0)
  {
  }

  /** `round_sig(value)`: `abs` and `log10` need a non-zero number. */
  function RoundSigValue(v: Value): (r: Result<real>)
  {
    var x :- RoofEnergy.ToFloat(v);
    RoundSig(x)
  }

  /** A number rounds when it is not zero, and then to two significant digits of it. */
  lemma RoundSigValueDigits(v: Value)
    ensures RoundSigValue(v).Ok? <==> (v.IntV? || v.RealV?) && RoofEnergy.ToFloat(v).value != 0.0
    ensures RoundSigValue(v).Err? ==> RoundSigValue(v).error == (if v.IntV? || v.RealV? then MathDomain else NotANumber)
    ensures RoundSigValue(v).Ok? ==>
              var x := RoofEnergy.ToFloat(v).value; var u := SecondDigitUnit(x); var r := RoundSigValue(v).value;
              IsIntegral(r / u) && Abs(r - x) <= u / 2.0 && 10.0 <= Abs(r / u) <= 100.0
  {
    if RoundSigValue(v).Ok? {
      RoundSigDigits(RoofEnergy.ToFloat(v).value);
    }
  }

  /**
   * The web feature made from a roof with geometry `g` (already
   * reprojected): its five attributes read by name, in the order the
   * assignments run, so the first missing or unusable one raises.
   */
  function WebFeature(fields: seq<string>, f: Feature, g: Geometry): (r: Result<Feature>)
    requires Fits(fields, f)
  {
    var id :- Get(fields, f, IdField);
    var lat :- Get(fields, f, LatitudeField);
    var latitude :- ToInt(lat);
    var lon :- Get(fields, f, LongitudeField);
    var longitude :- ToInt(lon);
    var out :- Get(fields, f, OutputField);
    var output :- RoundSigValue(out);
    var panels :- Get(fields, f, PanelsField);
    Ok(Feature(Some(g), [id, IntV(latitude), IntV(longitude), panels, RealV(output)]))
  }

  /** The web layer's fields sit at their positions in the field list. */
  lemma WebFieldPositions()
    ensures FieldIndex(WebFields, IdField) == Some(0)
    ensures FieldIndex(WebFields, LatitudeField) == Some(1)
    ensures FieldIndex(WebFields, LongitudeField) == Some(2)
    ensures FieldIndex(WebFields, PanelsField) == Some(3)
    ensures FieldIndex(WebFields, OutputField) == Some(4)
  {
    forall k | 0 <= k < |WebFields| ensures FieldIndex(WebFields, WebFields[k]) == Some(k) {
      IndexOfDistinct(WebFields, k);
    }
  }

  /** The attribute list of a web feature, in the web layer's field order. */
  lemma WebFeatureValue(fields: seq<string>, f: Feature, g: Geometry)
    requires Fits(fields, f) && WebFeature(fields, f, g).Ok?
    ensures WebFeature(fields, f, g).value == Feature(Some(g), [
              Get(fields, f, IdField).value,
              IntV(ToInt(Get(fields, f, LatitudeField).value).value),
              IntV(ToInt(Get(fields, f, LongitudeField).value).value),
              Get(fields, f, PanelsField).value,
              RealV(RoundSigValue(Get(fields, f, OutputField).value).value)])
  {
  }

  /**
   * A web feature is made exactly when the five fields exist and the
   * coordinates and the output convert.
   */
  lemma WebFeatureMade(fields: seq<string>, f: Feature, g: Geometry)
    requires Fits(fields, f)
    ensures WebFeature(fields, f, g).Ok? <==>
              (forall name | name in WebFields :: name in fields) &&
              ToInt(Get(fields, f, LatitudeField).value).Ok? &&
              ToInt(Get(fields, f, LongitudeField).value).Ok? &&
              RoundSigValue(Get(fields, f, OutputField).value).Ok?
  {
  }

  /**
   * Read back by name, the web feature carries the id and the panel count
   * unchanged, the truncated coordinates and the rounded output.
   */
  lemma WebFeatureReads(fields: seq<string>, f: Feature, g: Geometry)
    requires Fits(fields, f) && WebFeature(fields, f, g).Ok?
    ensures var w := WebFeature(fields, f, g).value;
            Fits(WebFields, w) && w.geometry == Some(g) &&
            Get(WebFields, w, IdField) == Get(fields, f, IdField) &&
            Get(WebFields, w, LatitudeField) == Ok(IntV(ToInt(Get(fields, f, LatitudeField).value).value)) &&
            Get(WebFields, w, LongitudeField) == Ok(IntV(ToInt(Get(fields, f, LongitudeField).value).value)) &&
            Get(WebFields, w, PanelsField) == Get(fields, f, PanelsField) &&
            Get(WebFields, w, OutputField) == Ok(RealV(RoundSigValue(Get(fields, f, OutputField).value).value))
  {
    WebFieldPositions();
    WebFeatureValue(fields, f, g);
  }

  /** Which attribute's failure ends the feature: the first one read, in assignment order. */
  lemma WebFeatureFailsFirst(fields: seq<string>, f: Feature, g: Geometry)
    requires Fits(fields, f)
    ensures var r := WebFeature(fields, f, g);
            r.Err? ==>
              if IdField !in fields then r.error == MissingAttribute(IdField)
              else if LatitudeField !in fields then r.error == MissingAttribute(LatitudeField)
              else if ToInt(Get(fields, f, LatitudeField).value).Err? then r.error == NotANumber
              else if LongitudeField !in fields then r.error == MissingAttribute(LongitudeField)
              else if ToInt(Get(fields, f, LongitudeField).value).Err? then r.error == NotANumber
              else if OutputField !in fields then r.error == MissingAttribute(OutputField)
              else if RoundSigValue(Get(fields, f, OutputField).value).Err? then
                r.error == RoundSigValue(Get(fields, f, OutputField).value).error
              else r.error == MissingAttribute(PanelsField)
  {
  }

  /** What one roof yields: nothing for a null geometry, else its web feature or the failure. */
  function Outcome(fields: seq<string>, f: Feature, reproject: Geometry -> Geometry): (o: Option<Result<Feature>>)
    requires Fits(fields, f)
    ensures o.Some? <==> f.geometry.Some?
    ensures o.Some? ==> o.value == WebFeature(fields, f, reproject(f.geometry.value))
  {
    match f.geometry
    case None => None
    case Some(g) => Some(WebFeature(fields, f, reproject(g)))
  }

  function Outcomes(fields: seq<string>, fs: seq<Feature>, reproject: Geometry -> Geometry): (outs: seq<Option<Result<Feature>>>)
    requires forall k | 0 <= k < |fs| :: Fits(fields, fs[k])
    ensures |outs| == |fs|
    ensures forall k | 0 <= k < |fs| :: outs[k] == Outcome(fields, fs[k], reproject)
  {
    seq(|fs|, k requires 0 <= k < |fs| => Outcome(fields, fs[k], reproject))
  }

  /** The written features, in order, up to the first failure, which ends everything. */
  function Collect(outs: seq<Option<Result<Feature>>>): (r: Result<seq<Feature>>)
    ensures r.Ok? ==> |r.value| <= |outs|
  {
    if |outs| == 0 then Ok([])
    else
      var before :- Collect(outs[..|outs| - 1]);
      match outs[|outs| - 1]
      case None => Ok(before)
      case Some(w) =>
        if w.Err? then Err(w.error) else Ok(before + [w.value])
  }

  /**
   * The web layer from the roofs `fs`: features with a null geometry are
   * skipped, the others projected in order with `reproject` mapping the
   * geometry to the web CRS; the first failure ends it.
   */
  function Projected(fields: seq<string>, fs: seq<Feature>, reproject: Geometry -> Geometry): (r: Result<seq<Feature>>)
    requires forall k | 0 <= k < |fs| :: Fits(fields, fs[k])
    ensures r.Ok? ==> |r.value| <= |fs|
  {
    Collect(Outcomes(fields, fs, reproject))
  }

  /** The positions that yield something, in order. */
  function Present(outs: seq<Option<Result<Feature>>>): (at: seq<nat>)
    ensures forall m | 0 <= m < |at| :: at[m] < |outs| && outs[at[m]].Some?
    ensures forall m, n | 0 <= m < n < |at| :: at[m] < at[n]
    ensures forall k | 0 <= k < |outs| && outs[k].Some? :: k in at
  {
    if |outs| == 0 then []
    else
      var before := Present(outs[..|outs| - 1]);
      if outs[|outs| - 1].Some? then before + [|outs| - 1] else before
  }

  /** Position `k` yields a failure. */
  predicate Failed(outs: seq<Option<Result<Feature>>>, k: nat)
    requires k < |outs|
  {
    outs[k].Some? && outs[k].value.Err?
  }

  /** Collecting keeps one feature per position that yields one, in order. */
  lemma {:induction false} CollectPresent(outs: seq<Option<Result<Feature>>>)
    ensures Collect(outs).Ok? ==> Matched(outs, Present(outs), Collect(outs).value)
  {
    if |outs| > 0 && Collect(outs).Ok? {
      var n := |outs| - 1;
      var front := outs[..n];
      CollectPresent(front);
      CollectLast(outs);
      PresentLast(outs);
      MatchedStep(outs, Present(front), Collect(front).value, Present(outs), Collect(outs).value);
    }
  }

  /** The matching of the prefix extends to the whole, with or without a feature at the end. */
  lemma MatchedStep(outs: seq<Option<Result<Feature>>>, at: seq<nat>, before: seq<Feature>,
                    atAll: seq<nat>, all: seq<Feature>)
    requires |outs| > 0 && Matched(outs[..|outs| - 1], at, before)
    requires outs[|outs| - 1].Some? ==>
               outs[|outs| - 1].value.Ok? && atAll == at + [|outs| - 1] && all == before + [outs[|outs| - 1].value.value]
    requires outs[|outs| - 1].None? ==> atAll == at && all == before
    ensures Matched(outs, atAll, all)
  {
    if outs[|outs| - 1].Some? {
      MatchedSnoc(outs, at, before, outs[|outs| - 1].value.value);
    } else {
      MatchedPrefix(outs, at, before);
    }
  }

  /** Each listed position of the prefix yields the feature at the same place in `before`. */
  predicate Matched(outs: seq<Option<Result<Feature>>>, at: seq<nat>, before: seq<Feature>)
  {
    |before| == |at| && forall m | 0 <= m < |at| :: at[m] < |outs| && outs[at[m]] == Some(Ok(before[m]))
  }

  lemma MatchedPrefix(outs: seq<Option<Result<Feature>>>, at: seq<nat>, before: seq<Feature>)
    requires |outs| > 0 && Matched(outs[..|outs| - 1], at, before)
    ensures Matched(outs, at, before)
  {
    var front := outs[..|outs| - 1];
    forall m | 0 <= m < |at| ensures at[m] < |outs| && outs[at[m]] == Some(Ok(before[m])) {
      assert outs[at[m]] == front[at[m]];
    }
  }

  lemma MatchedSnoc(outs: seq<Option<Result<Feature>>>, at: seq<nat>, before: seq<Feature>, x: Feature)
    requires |outs| > 0 && Matched(outs[..|outs| - 1], at, before) && outs[|outs| - 1] == Some(Ok(x))
    ensures Matched(outs, at + [|outs| - 1], before + [x])
  {
    MatchedPrefix(outs, at, before);
    var at', before' := at + [|outs| - 1], before + [x];
    forall m | 0 <= m < |at'| ensures at'[m] < |outs| && outs[at'[m]] == Some(Ok(before'[m])) {
      if m < |at| {
        assert at'[m] == at[m] && before'[m] == before[m];
      }
    }
  }

  /** Collecting fails exactly when some position fails, and with the first failure. */
  lemma {:induction false} CollectFails(outs: seq<Option<Result<Feature>>>)
    ensures Collect(outs).Err? <==> exists k | 0 <= k < |outs| :: Failed(outs, k)
    ensures var r := Collect(outs);
            r.Err? ==> exists k | 0 <= k < |outs| :: Failed(outs, k) &&
                         (forall j | 0 <= j < k :: !Failed(outs, j)) && r.error == outs[k].value.error
  {
    if |outs| > 0 {
      var n := |outs| - 1;
      var front := outs[..n];
      CollectFails(front);
      CollectLast(outs);
      assert forall k | 0 <= k < n :: Failed(front, k) == Failed(outs, k);
      if Collect(front).Err? {
        var k :| 0 <= k < n && Failed(front, k) && (forall j | 0 <= j < k :: !Failed(front, j)) &&
                 Collect(front).error == front[k].value.error;
        assert Failed(outs, k);
      } else if Failed(outs, n) {
        assert Collect(outs).error == outs[n].value.error;
      }
    }
  }

  /** One step of listing the positions that yield something. */
  lemma PresentLast(outs: seq<Option<Result<Feature>>>)
    requires |outs| > 0
    ensures var n := |outs| - 1;
            Present(outs) == if outs[n].Some? then Present(outs[..n]) + [n] else Present(outs[..n])
  {
  }

  /** One step of collecting: what the last position adds to the prefix before it. */
  lemma CollectLast(outs: seq<Option<Result<Feature>>>)
    requires |outs| > 0
    ensures var n := |outs| - 1; var before := Collect(outs[..n]);
            if before.Err? then Collect(outs) == before
            else if outs[n].None? then Collect(outs) == before
            else if outs[n].value.Err? then Collect(outs) == Err(outs[n].value.error)
            else Collect(outs) == Ok(before.value + [outs[n].value.value])
  {
  }

  /**
   * The web layer holds one feature per roof with a geometry, in input
   * order, each made from that roof; it fails exactly when such a roof
   * fails, with the first failure's exception.
   */
  lemma ProjectedLocated(fields: seq<string>, fs: seq<Feature>, reproject: Geometry -> Geometry)
    requires forall k | 0 <= k < |fs| :: Fits(fields, fs[k])
    ensures var r := Projected(fields, fs, reproject); var at := Present(Outcomes(fields, fs, reproject));
            (forall k | 0 <= k < |fs| :: fs[k].geometry.Some? <==> k in at) &&
            (forall m, n | 0 <= m < n < |at| :: at[m] < at[n]) &&
            (r.Ok? ==> |r.value| == |at| &&
                       forall m | 0 <= m < |at| ::
                         WebFeature(fields, fs[at[m]], reproject(fs[at[m]].geometry.value)) == Ok(r.value[m]))
    ensures Projected(fields, fs, reproject).Err? <==>
              exists k | 0 <= k < |fs| :: fs[k].geometry.Some? && WebFeature(fields, fs[k], reproject(fs[k].geometry.value)).Err?
    ensures var r := Projected(fields, fs, reproject);
            r.Err? ==> exists k | 0 <= k < |fs| ::
                         fs[k].geometry.Some? && WebFeature(fields, fs[k], reproject(fs[k].geometry.value)).Err? &&
                         (forall j | 0 <= j < k :: !(fs[j].geometry.Some? && WebFeature(fields, fs[j], reproject(fs[j].geometry.value)).Err?)) &&
                         r.error == WebFeature(fields, fs[k], reproject(fs[k].geometry.value)).error
  {
    var outs := Outcomes(fields, fs, reproject);
    CollectPresent(outs);
    CollectFails(outs);
    assert forall k | 0 <= k < |fs| :: Failed(outs, k) <==>
             fs[k].geometry.Some? && WebFeature(fields, fs[k], reproject(fs[k].geometry.value)).Err?;
  }

  /** Once collecting has failed on a prefix, every longer prefix fails the same way. */
  lemma {:induction false} CollectPrefixFails(outs: seq<Option<Result<Feature>>>, k: nat, n: nat)
    requires k <= n <= |outs| && Collect(outs[..k]).Err?
    ensures Collect(outs[..n]) == Collect(outs[..k])
    decreases n
  {
    if n > k {
      CollectPrefixFails(outs, k, n - 1);
      assert outs[..n][..n - 1] == outs[..n - 1];
    }
  }

  /** The layer built from the first `k` roofs is collected from the first `k` outcomes. */
  lemma ProjectedPrefix(fields: seq<string>, fs: seq<Feature>, reproject: Geometry -> Geometry, k: nat)
    requires forall j | 0 <= j < |fs| :: Fits(fields, fs[j])
    requires k <= |fs|
    ensures Projected(fields, fs[..k], reproject) == Collect(Outcomes(fields, fs, reproject)[..k])
  {
    assert Outcomes(fields, fs[..k], reproject) == Outcomes(fields, fs, reproject)[..k];
  }

  datatype WebRun = WebRun(features: seq<Feature>, progress: seq<int>)

  /**
   * The loop of the web-map preparation: the features written to the web
   * layer and the progress reported before each feature reached. A
   * cancellation ends the loop without error; any exception becomes a
   * processing exception.
   */
  method PrepareWebMap(fields: seq<string>, fs: seq<Feature>, isCanceled: nat -> bool, reproject: Geometry -> Geometry)
    returns (r: Result<WebRun>)
    requires forall k | 0 <= k < |fs| :: Fits(fields, fs[k])
    ensures var stop := RoofEnergy.Reached(isCanceled, |fs|); var want := Projected(fields, fs[..stop], reproject);
            (r.Ok? <==> want.Ok?) &&
            (r.Err? ==> r.error == Processing(want.error)) &&
            (r.Ok? ==> r.value.features == want.value && |r.value.progress| == stop)
    ensures r.Ok? ==> forall k | 0 <= k < |r.value.progress| ::
                        r.value.progress[k] == RoofEnergy.Progress(k, |fs|) && 0 <= r.value.progress[k] < 100
  {
    var at := (k: nat) => if k < |fs| then Outcome(fields, fs[k], reproject) else None;
    r := Sweep(|fs|, isCanceled, at, Outcomes(fields, fs, reproject));
    ProjectedPrefix(fields, fs, reproject, RoofEnergy.Reached(isCanceled, |fs|));
  }

  /** The loop itself, over `n` roofs whose outcomes `at(k)` are listed in `outs`. */
  method Sweep(n: nat, isCanceled: nat -> bool, at: nat -> Option<Result<Feature>>,
               ghost outs: seq<Option<Result<Feature>>>)
    returns (r: Result<WebRun>)
    requires |outs| == n && forall k | 0 <= k < n :: outs[k] == at(k)
    ensures var stop := RoofEnergy.Reached(isCanceled, n); var want := Collect(outs[..stop]);
            (r.Ok? <==> want.Ok?) &&
            (r.Err? ==> r.error == Processing(want.error)) &&
            (r.Ok? ==> r.value.features == want.value && |r.value.progress| == stop)
    ensures r.Ok? ==> forall k | 0 <= k < |r.value.progress| ::
                        r.value.progress[k] == RoofEnergy.Progress(k, n) && 0 <= r.value.progress[k] < 100
  {
    ghost var stop := RoofEnergy.Reached(isCanceled, n);
    var features: seq<Feature> := [];
    var progress: seq<int> := [];
    var k := 0;
    while k < n
      invariant k <= stop
      invariant Collect(outs[..k]) == Ok(features)
      invariant |progress| == k
      invariant forall m | 0 <= m < k :: progress[m] == RoofEnergy.Progress(m, n) && 0 <= progress[m] < 100
    {
      if isCanceled(k) {
        break;
      }
      assert k < stop;
      progress := progress + [RoofEnergy.Progress(k, n)];
      var o := at(k);
      assert outs[..k + 1][..k] == outs[..k] && outs[..k + 1][k] == o;
      if o.Some? {
        if o.value.Err? {
          CollectPrefixFails(outs, k + 1, stop);
          return Err(Processing(o.value.error));
        }
        features := features + [o.value.value];
      }
      k := k + 1;
    }
    assert k == stop;
    r := Ok(WebRun(features, progress));
  }
}
